=== FILE: README.md ===
# Hero-Wars progression core in Dafny

A functional model of the progression layer of the Hero-Wars plugin for a
Source-engine shooter, with proofs about it. The model covers:

- the entities of `hw/entities.py`: level and experience setters with the
  level-up cascade, derived skill points, hook dispatch order, item sell
  value and the item-loss loop;
- the configuration of `hw/configs.py`;
- the helpers of `herowars/tools.py`: lookups, the subclass walk,
  `shiftattr`, and the chance and cooldown gates;
- persistence in `hw/database.py`, with the three SQLite tables as maps;
- the four revisions of the player record: `herowars/player.py`,
  `hw/players.py`, `hw/users.py` and `hw/player.py`;
- the state changes of the menu callbacks in `hw/menus.py` and in both
  copies of `herowars/menus.py`;
- the startup check, rewards, chat prefix and death handling of `hw/hw.py`;
- the translation lookup of `herowars/translations.py`.

Python objects become immutable datatypes. An operation that may raise
returns an `Effect`: the state as far as the Python code got, the level-up
notices it fired, and the error it raised, if any. Hero identity (Python's
object identity, used by `in` and `list.remove`) is an explicit `uid`.

Files, one module each:

| file | module | models |
|---|---|---|
| `outcome.dfy` | `Outcome` | Option, Result, errors, notices, Effect |
| `configs.dfy` | `Configs` | `hw/configs.py` |
| `tools.dfy` | `Tools` | `herowars/tools.py` |
| `entities.dfy` | `Entities` | `hw/entities.py` |
| `database.dfy` | `Database` | `hw/database.py` |
| `owners.dfy` | `Owners` | shared rules of the player records; hw hero setter; `load_player_data` |
| `legacy_players.dfy` | `LegacyPlayers` | `herowars/player.py` |
| `players_revision.dfy` | `PlayersRevision` | `hw/players.py` |
| `users_revision.dfy` | `UsersRevision` | `hw/users.py` |
| `player_revision.dfy` | `PlayerRevision` | `hw/player.py` |
| `hw_menus.dfy` | `HwMenus` | `hw/menus.py` |
| `herowars_menus.dfy` | `HerowarsMenus` | both `herowars/menus.py` files |
| `plugin.dfy` | `Plugin` | `hw/hw.py` |
| `translations.dfy` | `Translations` | `herowars/translations.py` |

## Model

| member | source | states |
|---|---|---|
| Configs.ValueOr0 | addons/source-python/plugins/hw/hw.py:120-133 | a reward key missing from a value table counts as 0; a present key gives its configured value |
| Configs.ExpAlgorithm | addons/source-python/plugins/hw/configs.py:96-97 | the experience a level needs is at least 100 for every level from 0 up |
| Configs.ExpAlgorithmIncreasing | addons/source-python/plugins/hw/configs.py:96-97 | each further level needs exactly 20 more experience than the one before, so the requirement strictly grows |
| Configs.SellValue | addons/source-python/plugins/hw/entities.py:376-384 | the sell value is the cost times the 0.5 multiplier truncated toward zero, for costs of either sign |
| Configs.SellValueIsHalf | addons/source-python/plugins/hw/configs.py:92 | for a non-negative cost the refund is half the cost rounded down and never exceeds the cost; a negative cost rounds toward zero |
| Configs.StartingHeroesConfigured | addons/source-python/plugins/hw/configs.py:78-80 | the shipped configuration names at least one starting hero, TestHero1 |
| Configs.TeamBombKeysMiss | addons/source-python/plugins/hw/configs.py:32-56 | the team bomb keys are stored with a trailing space, so the plain keys the events look up are worth 0 experience |
| Configs.GoldOnlyForFourObjectives | addons/source-python/plugins/hw/configs.py:60-69 | only Kill, Assist, Round Win and Round Loss pay gold; every other key pays nothing |
| Tools.FindIndex | herowars/tools.py:37-54 | the position found is the first whose attribute equals the value; none is found exactly when no element matches |
| Tools.FindElement | herowars/tools.py:37-54 | returns the first matching element of the list, and none exactly when no element has the attribute value |
| Tools.FindElementSkip | herowars/tools.py:37-54 | a prefix with no match does not change what the lookup finds |
| Tools.FindElements | herowars/tools.py:57-72 | the result holds only matching elements of the input and every matching element of it |
| Tools.FindElementsConcat | herowars/tools.py:57-72 | filtering a concatenation is the concatenation of the filtered parts, so the order of the input is kept |
| Tools.FindElementsCount | herowars/tools.py:57-72 | each matching element appears as often as in the input and non-matching ones not at all |
| Tools.DescendantsReachable | herowars/tools.py:75-82 | every class the recursive walk lists lies on some path down the subclass tree |
| Tools.ReachableDescendants | herowars/tools.py:75-82 | every class on a path down the subclass tree is listed by the walk |
| Tools.SubclassesAreTransitiveClosure | herowars/tools.py:75-82 | get_subclasses returns exactly the transitive subclasses of the class |
| Tools.InsertSorted | herowars/tools.py:75-82 | adding a name to a sorted duplicate-free list keeps it sorted and duplicate-free and adds exactly that name |
| Tools.SortUnique | herowars/tools.py:75-82 | the set of classes, listed in name order, is strictly sorted and has the same members as the walk |
| Tools.ChanceGate | herowars/tools.py:100-114 | the wrapped call runs exactly when the 0-100 draw is at most the percentage, and a stopped call returns 2 |
| Tools.ChanceGateExtremes | herowars/tools.py:100-114 | a percentage of 100 or more always runs, a negative one never does, and 0 still runs on a draw of 0 |
| Tools.FiringDrawsCount | herowars/tools.py:100-114 | a percentage p fires on p + 1 of the 101 possible draws, one more than p percent |
| Tools.Tick | herowars/tools.py:154-168 | one tick lowers a running cooldown by one and leaves an expired one alone |
| Tools.CooldownGate | herowars/tools.py:171-226 | the call runs exactly when the counter has reached 0 and then restarts it at the duration; a blocked call leaves all counters alone and returns 3 only when a message is configured |
| Tools.TickAll | herowars/tools.py:154-168 | ticking every counter keeps the same set of gated calls |
| Tools.TicksRemaining | herowars/tools.py:154-168 | after n ticks a counter shows its remaining time minus n, but never below 0 |
| Tools.CooldownTimeline | herowars/tools.py:171-226 | with a duration of 5, a call runs, is blocked 3 ticks later and runs again 6 ticks later |
| Tools.SharedCooldown | herowars/tools.py:219 | the timer belongs to the decorated method, so a second call of it right after a successful one is blocked, whichever instance makes it |
| Entities.FreshSkills | addons/source-python/plugins/hw/entities.py:173-185 | a new hero gets one level-0 skill per class in its skill set, in the same order |
| Entities.NewHero | addons/source-python/plugins/hw/entities.py:173-185 | a constructed hero has the class, level and experience given, fresh skills and passives, and no items |
| Entities.RegisterSkill | addons/source-python/plugins/hw/entities.py:291-309 | the skill decorator appends to the skill set and leaves the passives alone |
| Entities.RegisterPassive | addons/source-python/plugins/hw/entities.py:310-325 | the passive decorator appends to the passive set and leaves the skills alone |
| Entities.RegisterSkills | addons/source-python/plugins/hw/entities.py:291-309 | decorating with several skills appends them all in declaration order |
| Entities.DeclarationOrder | addons/source-python/plugins/hw/entities.py:291-309 | a hero class starting with no skills ends with exactly its decorated skills in order |
| Entities.GetSubclasses | addons/source-python/plugins/hw/entities.py:112-123 | the registry lists every transitive subclass once, in name order |
| Entities.GetSubclassesReachable | addons/source-python/plugins/hw/entities.py:112-123 | a class is registered exactly when it lies below the base class in the subclass tree |
| Entities.SetEntityLevel | addons/source-python/plugins/hw/entities.py:96-110 | a level is accepted exactly when it is at least 0 and within the maximum; a negative level and one above the maximum raise different errors |
| Entities.SetSkillLevel | addons/source-python/plugins/hw/entities.py:96-110 | a skill takes a level exactly when it is between 0 and the skill's maximum, and nothing else of the skill changes |
| Entities.RequiredExpAt | addons/source-python/plugins/hw/entities.py:187-197 | below the cap a level needs the configured experience, at least 100 from level 0; at the cap it needs 0 |
| Entities.ExpBetweenClosedForm | addons/source-python/plugins/hw/entities.py:187-197 | the experience needed to climb n levels from a has the closed form 100n + 20an + 10n(n - 1) |
| Entities.Cascade | addons/source-python/plugins/hw/entities.py:225-259 | the level-up loop never lowers the level, spends exactly the experience the levels cost, and leaves less than the next level needs unless the cap stops it |
| Entities.HeroSetLevel | addons/source-python/plugins/hw/entities.py:199-213 | setting a level wipes the experience even when the level is then rejected; a valid level fires one level-up notice |
| Entities.HeroSetExp | addons/source-python/plugins/hw/entities.py:225-259 | negative experience is rejected; the hero levels up while it can afford the next level, keeps the remainder, drops to 0 at the cap, and fires one notice per gain plus one at the cap |
| Entities.HeroSetExpKeepsProgress | addons/source-python/plugins/hw/entities.py:225-259 | from a consistent hero, any non-negative experience is accepted and the hero stays consistent |
| Entities.CapNotices | addons/source-python/plugins/hw/entities.py:244-259 | a capped hero gaining experience fires one notice and resets to 0; one that reaches the cap fires two |
| Entities.SpentUpdate | addons/source-python/plugins/hw/entities.py:261-270 | changing one skill's level changes the points spent by the level difference times that skill's cost |
| Entities.SpentAllZero | addons/source-python/plugins/hw/entities.py:261-270 | skills all at level 0 spend no points |
| Entities.SkillPointsAfterReset | addons/source-python/plugins/hw/entities.py:261-270 | with every skill at 0 the hero has as many skill points as levels |
| Entities.Group | addons/source-python/plugins/hw/entities.py:272-289 | one group of hooks holds exactly the invoked entities of that kind, in list order |
| Entities.ExecuteSkills | addons/source-python/plugins/hw/entities.py:272-289 | a hook reaches exactly the passives and items that define it and the skills that define it at a non-zero level, passives first, then skills, then items, each in list order |
| Entities.LevelZeroSkillSkipped | addons/source-python/plugins/hw/entities.py:342-355 | a level-0 skill is never invoked |
| Entities.DropLoopReadsOriginal | addons/source-python/plugins/hw/player.py:128-131 | removing from the list being iterated behaves as removing an item and skipping the one after it |
| Entities.RemoveAndSkipKeepsPermanent | addons/source-python/plugins/hw/player.py:102-134 | the item-loss loop never removes a permanent item |
| Entities.RemoveAndSkipSubset | addons/source-python/plugins/hw/player.py:102-134 | the item-loss loop never adds items |
| Entities.RemoveAndSkipFilters | addons/source-python/plugins/hw/player.py:102-134 | with no two temporary items next to each other, the loop removes exactly the temporary items |
| Entities.RemoveAndSkipLeaks | addons/source-python/plugins/hw/player.py:102-134 | with two temporary items side by side, some temporary item survives the loop |
| Entities.DropIsRemoveAndSkip | addons/source-python/plugins/hw/player.py:102-134 | the index-driven item-loss loop equals the remove-and-skip description |
| Entities.DropTemporaryItemsKeeps | addons/source-python/plugins/hw/hw.py:283-285 | dropping items keeps every permanent item and adds nothing |
| Entities.DropTemporaryItemsFilters | addons/source-python/plugins/hw/hw.py:283-285 | the loss loop equals a filter for permanence exactly when no two temporary items are adjacent |
| Entities.AdjacentTemporarySurvives | addons/source-python/plugins/hw/hw.py:283-285 | of two temporary items the second is kept |
| Database.SaveSkills | addons/source-python/plugins/hw/database.py:83-87 | saving skills writes a row for each skill of the hero and leaves the other rows alone |
| Database.SaveSkillsLastWins | addons/source-python/plugins/hw/database.py:83-87 | when a skill class appears twice, the later level is the one stored |
| Database.SaveHeroData | addons/source-python/plugins/hw/database.py:70-88 | saving a hero replaces its level and experience row and its skill rows, and no other player's or hero's rows |
| Database.SaveHeroDataIdempotent | addons/source-python/plugins/hw/database.py:70-88 | saving the same hero twice is the same as saving it once |
| Database.SavePlayerData | addons/source-python/plugins/hw/database.py:55-67 | saving a player without a current hero fails; otherwise it stores gold and the current hero id and the hero's row |
| Database.StoredHeroRow | addons/source-python/plugins/hw/database.py:125-154 | an unsaved hero reads as level 0 with 0 experience |
| Database.LoadSkills | addons/source-python/plugins/hw/database.py:146-154 | stored skill levels replace the defaults; loading succeeds exactly when every stored level is within its skill's range |
| Database.LoadHeroData | addons/source-python/plugins/hw/database.py:125-154 | an uncapped hero class always fails to load; a stored level above the cap raises instead of clamping; otherwise the hero ends at least at the stored level |
| Database.SavedSkillRows | addons/source-python/plugins/hw/database.py:83-87 | after a save each of the hero's skills has a row holding its current level |
| Database.LoadSavedSkills | addons/source-python/plugins/hw/database.py:146-154 | loading skills whose rows hold in-range levels succeeds and restores exactly those levels |
| Database.SaveLoadRoundTrip | addons/source-python/plugins/hw/database.py:70-154 | loading a consistent, capped hero right after saving it restores its level, experience and skills |
| Database.UncappedHeroNeverLoads | addons/source-python/plugins/hw/database.py:139-140 | a hero class with no maximum level can never be loaded, and the hero is left untouched |
| Owners.IndexOf | addons/source-python/plugins/hw/player.py:102-134 | finds the list position of an owned hero by identity, and none exactly when the hero is not owned |
| Owners.ActiveHero | addons/source-python/plugins/hw/player.py:102-134 | the current hero is an owned hero whose identity is the current hero id, present whenever the stored current hero id names an owned hero |
| Owners.SetGold | addons/source-python/plugins/hw/player.py:80-90 | gold is set exactly when it is non-negative, and nothing else changes |
| Owners.ShiftGold | herowars/tools.py:85-97 | shifting gold through the setter succeeds exactly when the sum stays non-negative and then adds the shift |
| Owners.AddHero | addons/source-python/plugins/hw/player.py:136-144 | appending a hero adds one fresh hero with a new identity and keeps the owner consistent |
| Owners.UpdateHero | addons/source-python/plugins/hw/player.py:136-144 | replacing a hero in place keeps the rest of the owner and its consistency |
| Owners.SetActiveHero | addons/source-python/plugins/hw/player.py:102-134 | a hero the player does not own is rejected; otherwise the old hero is saved and loses its temporary items before the current hero id moves |
| Owners.SetActiveHeroKeepsHeroes | addons/source-python/plugins/hw/player.py:102-134 | switching heroes changes only item lists |
| Owners.SetActiveHeroKeepsWellFormed | addons/source-python/plugins/hw/player.py:102-134 | switching heroes keeps hero identities unique and the current hero id valid |
| Owners.SwitchKeepsPermanentItems | addons/source-python/plugins/hw/player.py:102-134 | no hero loses a permanent item when the player switches heroes |
| Owners.GrantOne | addons/source-python/plugins/hw/player.py:42-68 | a starting hero is added exactly when its class is registered and not yet owned |
| Owners.GrantStartingHeroes | addons/source-python/plugins/hw/player.py:59-64 | granting only appends heroes and keeps the owner consistent |
| Owners.FreshStartingMembers | addons/source-python/plugins/hw/player.py:61-64 | the class ids a grant adds are exactly the starting ids that resolve and are not owned |
| Owners.GrantOrder | addons/source-python/plugins/hw/player.py:61-64 | the grant appends one hero per resolvable, not yet owned starting id, in configured order |
| Owners.FirstGrantedHero | addons/source-python/plugins/hw/users.py:57-65 | a new player's first hero is of the first configured starting class that resolves |
| Owners.GrantOwnsStarting | addons/source-python/plugins/hw/player.py:42-68 | after granting, the player owns every registered starting class |
| Owners.GrantAddsOnlyStarting | addons/source-python/plugins/hw/player.py:42-68 | every added hero is a fresh hero of a registered starting class that was not owned before |
| Owners.GrantIsNoopWhenOwned | addons/source-python/plugins/hw/player.py:42-68 | a player who already owns every registered starting class gets nothing |
| Owners.GrantIdempotent | addons/source-python/plugins/hw/player.py:42-68 | granting twice is the same as granting once |
| Owners.GrantKeepsClassesDistinct | addons/source-python/plugins/hw/player.py:42-68 | granting never gives a player two heroes of one class |
| Owners.RegisteredCids | addons/source-python/plugins/hw/database.py:114-122 | the loaded classes are exactly the fetched rows whose class is registered |
| Owners.LoadOne | addons/source-python/plugins/hw/database.py:114-122 | loading one row appends that hero and makes it current when the stored current hero id names it; a failure leaves the player unchanged |
| Owners.LoadHeroes | addons/source-python/plugins/hw/database.py:114-122 | loading heroes only appends, keeps gold and the owner consistent |
| Owners.LoadHeroesCids | addons/source-python/plugins/hw/database.py:114-122 | a successful load appends the registered fetched classes in row order |
| Owners.LoadHeroesKeepsActive | addons/source-python/plugins/hw/database.py:114-122 | when the stored current hero id names no loaded class, the current hero does not change |
| Owners.LoadHeroesKeepsActiveWithoutStoredHero | addons/source-python/plugins/hw/database.py:114-122 | with no stored current hero id the current hero does not change |
| Owners.LoadHeroesSetsActive | addons/source-python/plugins/hw/database.py:114-122 | when the stored current hero id names a loaded class, that class's hero becomes current |
| Owners.LoadHeroesFailsOnUncapped | addons/source-python/plugins/hw/database.py:139-140 | one registered row of an uncapped class makes the whole load fail |
| Owners.LoadPlayerData | addons/source-python/plugins/hw/database.py:91-122 | a negative stored gold aborts the load; otherwise gold comes from the database, 0 for an unknown player, and the heroes are only appended |
| Owners.LoadPlayerDataHeroes | addons/source-python/plugins/hw/database.py:91-122 | a new player loads exactly the stored heroes whose class is registered |
| Owners.LoadPlayerDataActive | addons/source-python/plugins/hw/database.py:91-122 | a stored current hero of a registered class becomes current again |
| Owners.LoadPlayerDataFailsForUncapped | addons/source-python/plugins/hw/database.py:139-140 | with only uncapped classes registered, any stored hero makes the load fail |
| LegacyPlayers.GetPlayer | herowars/player.py:50-63 | finds the first registered player with the userid, and none exactly when no player has it |
| LegacyPlayers.CreatePlayer | herowars/player.py:66-98 | registers the new player at the end with its starting heroes; without a stored current hero the first hero becomes current |
| LegacyPlayers.CreatePlayerGrants | herowars/player.py:66-98 | a created player owns every registered starting class |
| LegacyPlayers.RemovePlayer | herowars/player.py:101-117 | removing an unknown userid changes nothing; otherwise the player is saved and its first entry removed, leaving later duplicates findable |
| LegacyPlayers.RemoveFirstMatch | herowars/player.py:101-117 | entries before the first match do not affect the lookup |
| LegacyPlayers.LegacySetActiveHero | herowars/player.py:186-213 | an unowned hero is rejected; with no current hero the setter raises; otherwise the old hero is saved and loses temporary items |
| LegacyPlayers.LegacyAgreesWithHw | herowars/player.py:186-213 | with a current hero, the legacy setter and the hw setter do the same |
| PlayersRevision.Init | addons/source-python/plugins/hw/players.py:44-68 | a player is loaded only once; a failed load keeps what it set; after a successful one the gold and heroes are those of the load followed by the starting grant, a stored current hero is kept and otherwise the first hero becomes current |
| PlayersRevision.InitGrantsOnce | addons/source-python/plugins/hw/players.py:52-57 | after initialisation the player owns every registered starting class, and initialising again changes nothing |
| PlayersRevision.CsTeam | addons/source-python/plugins/hw/players.py:136-146 | the team label is defined for indices -4 to 3, using Python's negative indexing, and is an error otherwise |
| PlayersRevision.SetCsTeam | addons/source-python/plugins/hw/players.py:136-146 | a label is accepted exactly when it is one of the four, and maps to its position |
| PlayersRevision.CsTeamRoundTrip | addons/source-python/plugins/hw/players.py:136-146 | label to index to label is the identity; index to label to index is the identity for 0 to 3 and adds 4 for negative indices |
| UsersRevision.NewUser | addons/source-python/plugins/hw/users.py:44-65 | a new user has 0 gold and the starting heroes, and the first of them is current exactly when there is one |
| UsersRevision.NewUserHeroes | addons/source-python/plugins/hw/users.py:56-61 | a new user owns exactly the registered starting classes, once each, at level 0 with 0 experience |
| UsersRevision.NewUserOrder | addons/source-python/plugins/hw/users.py:56-65 | a new user's heroes come in configured order, and the current one is of the first starting class that resolves |
| PlayerRevision.Construct | addons/source-python/plugins/hw/player.py:42-68 | a known userid keeps its record; a new one gets the gold and heroes of the load followed by the starting grant, keeping a loaded current hero or else making the first hero current, or an index error when no hero is loaded or granted |
| PlayerRevision.PickFirstHero | addons/source-python/plugins/hw/player.py:66-68 | a record with a current hero is kept unchanged; with no heroes the indexing raises; otherwise `heroes[0]` becomes current and nothing else changes |
| PlayerRevision.ConstructOnce | addons/source-python/plugins/hw/player.py:42-68 | constructing the same player twice changes nothing the second time |
| HwMenus.ResetSkills | addons/source-python/plugins/hw/menus.py:46-48 | the reset succeeds exactly when every skill maximum is non-negative, and then every skill is at level 0 |
| HwMenus.SelectCurrentHero | addons/source-python/plugins/hw/menus.py:42-55 | only the skills change; choosing a skill raises it by one level exactly when it is affordable, unlocked and below its maximum |
| HwMenus.ResetRestoresPoints | addons/source-python/plugins/hw/menus.py:46-48 | after a successful reset the hero has all its level's points to spend again |
| HwMenus.UpgradeSpendsCost | addons/source-python/plugins/hw/menus.py:50-54 | an upgrade spends exactly the skill's cost and never leaves the points negative |
| HwMenus.SelectableIffUpgradable | addons/source-python/plugins/hw/menus.py:91-133 | the menu offers a skill as selectable exactly when the select callback would upgrade it |
| HwMenus.OwnedSelectable | addons/source-python/plugins/hw/menus.py:155-169 | a player with no heroes gets an empty menu; one with heroes but no current hero cannot build it; otherwise a hero is selectable exactly when its class differs from the current hero's |
| HwMenus.CurrentHeroNotSelectable | addons/source-python/plugins/hw/menus.py:167-168 | the current hero is always shown as not selectable |
| HwMenus.SelectOwnedHero | addons/source-python/plugins/hw/menus.py:148-152 | picking an owned hero makes it current and keeps the gold; picking an unowned one fails |
| HwMenus.BuyHeroOffers | addons/source-python/plugins/hw/menus.py:195-217 | the offers follow the registry: each is for a class taken from its own registry position, in registry order |
| HwMenus.BuyHeroOffersSpec | addons/source-python/plugins/hw/menus.py:195-217 | the menu offers every registered class the player does not own, and only those, enabled exactly when the cost is at most the gold |
| HwMenus.BuyHero | addons/source-python/plugins/hw/menus.py:183-192 | with more gold than the cost, whatever its sign, the player pays, gets a fresh hero and switches to it; otherwise nothing changes |
| HwMenus.ExactGoldBuysNothing | addons/source-python/plugins/hw/menus.py:188 | with gold equal to the cost, the offer is enabled but buying does nothing |
| HerowarsMenus.RefreshFrom | herowars/menus.py:798-805 | the menu reopens exactly when some skill still has points strictly above its cost, is unlocked and is below its maximum |
| HerowarsMenus.UpgradeSkill | herowars/menus.py:749-814 | checks run in order: level requirement, then maximum, then points; a skill is leveled exactly when it is upgradable, and any other message leaves the hero alone |
| HerowarsMenus.UpgradeAgreesWithHw | herowars/menus.py:749-814 | the upgrade callback changes the hero exactly as the hw select callback does |
| HerowarsMenus.RefreshMissesExactPoints | herowars/menus.py:798-805 | a hero with exactly the cost in points can still upgrade, yet the menu does not reopen |
| HerowarsMenus.RefreshImpliesUpgradable | herowars/menus.py:798-805 | whenever the menu reopens, some skill is really upgradable |
| HerowarsMenus.ResetSkillPoints | herowars/menus.py:726-746 | the reset succeeds exactly when every skill maximum is non-negative, and then zeroes every skill and nothing else |
| HerowarsMenus.BuyItemOffers | herowars/menus.py:323-335 | the offers follow the registry: each item class is taken from its own registry position, in registry order |
| HerowarsMenus.BuyItemOffersSpec | herowars/menus.py:323-335 | an item is offered exactly when it is registered, in the category, under its limit and allowed for the player |
| HerowarsMenus.BuyingCountsOne | herowars/menus.py:352-388 | buying an item raises the held count of its class by one and of no other class |
| HerowarsMenus.LimitStopsOffers | herowars/menus.py:323-335 | an item whose limit is reached is no longer offered |
| HerowarsMenus.BuyItem | herowars/menus.py:352-388 | the item is always bought and paid for; the not-enough-cash flag is raised exactly when cash was short |
| HerowarsMenus.ShortCashGoesNegative | herowars/menus.py:352-388 | buying with too little cash leaves negative cash and still adds the item |
| HerowarsMenus.SellItem | herowars/menus.py:479-499 | selling removes exactly the chosen item and refunds its sell value |
| HerowarsMenus.BuyThenSell | herowars/menus.py:352-499 | buying then selling an item restores the items and costs the part of the price not refunded |
| HerowarsMenus.BuyHeroList | herowars/menus.py:217-226 | the list follows the registry: each class is taken from its own registry position, in registry order |
| HerowarsMenus.BuyHeroListSpec | herowars/menus.py:217-226 | a class is listed exactly when it is registered, not owned and allowed for the player |
| HerowarsMenus.BuyHero | herowars/menus.py:506-583 | with less gold than the cost nothing is bought and the refresh raises for want of a hero class; with at least the cost, the player pays, gets a fresh hero and switches to it; with no current hero the switch raises after the purchase |
| HerowarsMenus.BuyHeroRevisionsDiffer | herowars/menus.py:550-583 | with more gold than the cost the two buy callbacks agree; at gold equal to the cost only this one buys; below it neither buys, but only this one raises |
| HerowarsMenus.ChangeHero | herowars/menus.py:648-657 | the switch succeeds exactly when the hero is owned and a current hero exists; it keeps the gold |
| HerowarsMenus.AdminGive | addons/source-python/plugins/herowars/menus.py:1059-1064 | gold and cash go to the player, exp and level to the current hero; gold fails below 0, a level is set only within range, and without a hero the attribute is missing |
| HerowarsMenus.GiveLevelWipesExp | addons/source-python/plugins/herowars/menus.py:1059-1064 | giving levels always zeroes the hero's experience, even when the level is rejected |
| HerowarsMenus.GiveGoldFromMenuSucceeds | addons/source-python/plugins/herowars/menus.py:1038-1048 | every amount in the give menu raises a player's gold |
| Plugin.FirstUnresolved | addons/source-python/plugins/hw/hw.py:85-92 | finds the first starting class not registered, and none exactly when all are registered |
| Plugin.Load | addons/source-python/plugins/hw/hw.py:75-101 | load fails without hero classes, then without starting heroes, then on the first unregistered starting hero; it passes exactly when every starting hero is registered |
| Plugin.LoadedPluginGivesAHero | addons/source-python/plugins/hw/hw.py:75-101 | once load passes, every new user has a current hero |
| Plugin.ShippedConfigurationLoads | addons/source-python/plugins/hw/configs.py:78-80 | the shipped starting heroes pass the load check when TestHero1 is registered |
| Plugin.GiveGold | addons/source-python/plugins/hw/hw.py:120-133 | gold is given only when gold messages are shown and the key pays a positive amount, and it is added through the setter |
| Plugin.KillGold | addons/source-python/plugins/hw/hw.py:120-133 | a kill pays 2 gold with the shipped configuration |
| Plugin.ActiveAfterUpdate | addons/source-python/plugins/hw/hw.py:136-147 | updating the current hero keeps it current |
| Plugin.GiveExp | addons/source-python/plugins/hw/hw.py:136-147 | a positive reward needs a current hero; a consistent hero stays consistent, never loses a level, and is credited exactly the reward below the cap |
| Plugin.CreditedAdds | addons/source-python/plugins/hw/hw.py:136-147 | experience credited over two rewards is the sum of the two |
| Plugin.PlayerSay | addons/source-python/plugins/hw/hw.py:322-352 | only prefixed text is handled; the three known commands are recognised; '!admin' raises KeyError because the menus dict has no 'Admin' menu, so its hooks never run; after any other text the player_say hooks run on the current hero, or raise when there is none |
| Plugin.PrefixedCommands | addons/source-python/plugins/hw/hw.py:322-352 | the prefix plus ultimate, hw or admin selects that command; '!hw' opens the main menu and the hooks follow, '!admin' always fails on the missing 'Admin' menu; unprefixed text is ignored |
| Plugin.DropDefenderItems | addons/source-python/plugins/hw/hw.py:283-285 | a dead player's current hero loses its temporary items; without a current hero this raises |
| Plugin.PlayerDeath | addons/source-python/plugins/hw/hw.py:237-285 | a death with no attacker, or by one's own hand, is a suicide hook on the victim; otherwise kill and death hooks fire and the attacker ends as the kill rewards leave it; a missing current hero raises where it is first read, and only the hooks dispatched before it are reported; on success the victim's hero loses its temporary items |
| Plugin.KillRewardsCredit | addons/source-python/plugins/hw/hw.py:261-280 | a kill pays 2 gold and credits 30 experience, 45 for a headshot, below the cap |
| Plugin.KillPaysAttacker | addons/source-python/plugins/hw/hw.py:268-280 | a kill between two players with current heroes succeeds and pays the attacker 2 gold |
| Translations.GetTranslation | herowars/translations.py:23-57 | the player's language is used, else the default one, else lookup fails; an unknown sub-dict fails; a missing key gives the null string |
| Translations.EveryLanguageResolvesToEnglish | herowars/translations.py:23-57 | with only English shipped, every language reads the English strings |
| Translations.SubDictsOfEnglish | herowars/translations.py:64-173 | lookup succeeds exactly for the five shipped sub-dicts |
| Translations.FallbackExamples | herowars/translations.py:23-57 | an unknown language falls back to English; a missing key gives the null string; without the default language lookup fails |

## Left out

- Menu rendering: titles, descriptions, option text, paging and the
  `hw/menulib.py` menu classes. The model keeps only the state changes of the
  callbacks and the selectable or offered flags their builders compute.
- Messages: `SayText2` and the other messages, and menu reopening, appear only
  as flags (the upgrade refresh, the not-enough-cash flag) or not at all.
- Engine event routing: the event handlers of `hw/hw.py` beyond `load`,
  `give_gold`, `give_exp`, `player_say` and `player_death`, plus
  `herowars/herowars.py`, `herowars.py`, the addons `herowars/herowars.py` and
  `hw/events.py`. They are glue over engine APIs that are not part of this
  model.
- `herowars/commandlib.py`: the burn, freeze, noclip and push effects depend
  on engine timers and float vector math.
- The addons `herowars/translations.py` wraps engine string classes.
  `herowars/configs.py` is pure data.
- `herowars/translations.py` imports `default_lang_key` from
  `herowars/configs.py`, but that file defines only `default_language = 'en'`.
  The import would fail, so `Translations.GetTranslation` takes the default
  key as a parameter and the lemmas pass `"en"`.
- Test heroes and items: their bodies are engine effects.
- The herowars tree's menus import their classes from `herowars/entities.py`,
  which is not part of this model. `HerowarsMenus` uses the hw entities
  instead. Its facts that rest on them — the reset succeeding exactly when
  every skill's `max_level` is at least 0, the skill points in the upgrade
  refresh test, and the item sell value — are shown for the hw classes, not
  for that tree's own.
- `herowars/player.py` also imports `default_lang_key`, which
  `herowars/configs.py` does not define. `herowars/menus.py` imports
  `get_prefixed_translation`, which `herowars/translations.py` does not
  define. As written, neither module would import. The model takes their
  callbacks as if the imports succeeded.
- `hw/players.py` (lines 61-63, 119), `hw/users.py` (lines 58-60, 127) and
  `hw/menus.py` (lines 167, 201) read a `cls_id` attribute, but
  `hw/entities.py` defines only `cid` (line 65). The model reads `cls_id` as
  `cid`. As written, `hero.cls_id` in the two hw menu builders would raise
  AttributeError. The grant loops look classes up through
  `xtend.tools.find_element`, which is not part of this model, so what they
  do with the missing attribute is not modelled either.
- `hw/menus.py` (line 13) imports `get_player` from `hw.players`, which
  defines no such function; neither does `hw/player.py`. Its callbacks also
  call `get_player(player_index, key='index')`, a signature defined nowhere.
  As written, `hw/menus.py` would not import, and so neither would
  `hw/hw.py`, which imports `menus` from it (line 18). `HwMenus` takes the
  callbacks as if the lookup returned the player record of `hw/players.py`,
  whose hero setter `Owners.SetActiveHero` models; `Plugin.PlayerSay`
  likewise assumes the import succeeded.
- Class identity is the class name (`cid`). `Tools.SortUnique` sorts a set of
  class objects in the source, where two distinct classes with the same name
  would both be kept; the model merges them.
- The cooldown timer of `cooldown` and `cooldownf` is attached to the
  decorated function. `Tools.GateKey` names the class that defines that
  method, so a subclass inheriting the method shares its parent's timer. The
  model does not compute which class defines an inherited method; that class
  is given.
- `classproperty` in `herowars/tools.py` is a Python descriptor. `Entity.cid`
  is the class's name and is modelled as the `cid` field of each class
  record.
- SQLite: the connection, cursors and commits. The three tables are maps
  keyed like the tables' primary keys. `Owners.LoadPlayerData` receives the
  fetched hero rows as a parameter.
- Randomness: the 0-100 draw of `chance` and `chancef` is a parameter of
  `Tools.ChanceGate`.
- Time: the `TickRepeat` countdown of `cooldown` and `cooldownf` is an integer
  counter that `Tools.Tick` lowers by one.
- `herowars/player.py` reads and writes through `herowars.database`, which is
  not part of this model. `LegacyPlayers.CreatePlayer` takes the loaded
  player as a parameter. `LegacyPlayers.RemovePlayer` saves through the hw
  tables.
- `hw/players.py` passes a database path to the load and save functions. The
  `hw/database.py` functions take no such argument. The model treats these
  calls as the same table operations.
- Gold setters: the four revisions share one rule, non-negative or raise, so
  `Owners.SetGold` models all of them.
- Cash is an engine attribute with no setter and no check. The model keeps it
  as a plain integer next to the player.
- The sell multiplier 0.5 is a float. `Configs.SellValue` computes
  `int(cost * 0.5)` exactly, as truncation of `cost / 2` toward zero.
- A skill's `max_level` is an integer (default 6). A hero's `max_level` may be
  missing (default `None`).
- Hook arguments (`eargs`) are not modelled. A dispatch result lists the
  entities invoked, in order.
- HerowarsMenus.AdminGive: for experience, only the failure on a negative
  total is stated. Success on a non-negative total depends on the hero's
  progress being consistent and is not stated.
- HwMenus.SelectCurrentHero: the result of an upgrade is stated only when the
  skill's level is at least -1. A lower stored level makes the skill setter
  raise, as in the source.
- HerowarsMenus.UpgradeSkill: the same bound as `HwMenus.SelectCurrentHero`
  applies to the stated upgrade result.
- Plugin.GiveExp: the exact amount credited is stated only below the level
  cap. At the cap, the experience is reset to 0 (see `Entities.HeroSetExp`).
- Database.LoadHeroData: on success only "at least the stored level" is
  stated. The exact restored values are stated by `Database.SaveLoadRoundTrip`
  for a hero that was saved.
- Entities.HeroSetExp: at the cap, only the reset of the experience to 0 and
  the number of notices are stated, not the level reached.

=== FILE: configs.dfy ===
/** The plugin configuration: reward tables, starting heroes, the experience
    curve and the item sell-value multiplier. */
module Configs {

  /** Prefix that chat commands must start with. */
  const ChatCommandPrefix: string := "!"

  /** Experience granted per objective. Two team keys carry a trailing space. */
  const ExpValues: map<string, int> := map[
    "Kill" := 30,
    "Headshot" := 15,
    "Assist" := 15,
    "Round Win" := 30,
    "Round Loss" := 15,
    "Bomb Plant" := 15,
    "Bomb Plant Team" := 5,
    "Bomb Explode" := 25,
    "Bomb Explode Team " := 10,
    "Bomb Defuse" := 30,
    "Bomb Defuse Team " := 15,
    "Hostage Pick Up" := 5,
    "Hostage Pick Up Team" := 0,
    "Hostage Rescue" := 25,
    "Hostage Rescue Team" := 10
  ]

  /** Gold granted per objective. */
  const GoldValues: map<string, int> := map[
    "Kill" := 2,
    "Assist" := 1,
    "Round Win" := 3,
    "Round Loss" := 2
  ]

  const ShowGoldMessages: bool := true

  /** Class ids of the heroes every new player receives, in grant order. */
  const StartingHeroes: seq<string> := ["TestHero1"]

  const DefaultHeroCategory: string := "Others"
  const DefaultItemCategory: string := "Others"

  /** The sell-value multiplier 0.5, kept exact as the fraction 1/2. */
  const SellMultiplierDen: int := 2

  /** Python's `table.get(key, 0)`. */
  function ValueOr0(table: map<string, int>, key: string): (r: int)
    ensures key in table ==> r == table[key]
    ensures key !in table ==> r == 0
  {
    if key in table then table[key] else 0
  }

  /** Experience a hero needs to advance from `level` to `level + 1`. */
  function ExpAlgorithm(level: int): (r: int)
    ensures level >= 0 ==> r >= 100
  {
    100 + level * 20
  }

  /** The curve is strictly increasing, so every step of a level-up cascade
      costs at least as much as the one before. */
  lemma ExpAlgorithmIncreasing(a: int, b: int)
    requires a < b
    ensures ExpAlgorithm(a) < ExpAlgorithm(b)
    ensures ExpAlgorithm(b) - ExpAlgorithm(a) == 20 * (b - a)
  {
  }

  /** `Item.sell_value`, `int(cost * 0.5)`: half the cost truncated toward
      zero, as Python's `int()` truncates a float (exact for the magnitudes
      the game uses). */
  function SellValue(cost: int): (r: int)
    ensures cost >= 0 ==> 0 <= SellMultiplierDen * r <= cost < SellMultiplierDen * r + SellMultiplierDen
    ensures cost < 0 ==> SellMultiplierDen * r - SellMultiplierDen < cost <= SellMultiplierDen * r <= 0
  {
    if cost >= 0 then cost / SellMultiplierDen else -((-cost) / SellMultiplierDen)
  }

  /** With multiplier 0.5 the sell value of a non-negative cost is its floor
      half; a negative cost rounds toward zero instead. */
  lemma SellValueIsHalf(cost: int)
    ensures cost >= 0 ==> SellValue(cost) == cost / 2
    ensures cost >= 0 ==> 0 <= SellValue(cost) <= cost
    ensures cost < 0 ==> SellValue(cost) == -((-cost) / 2)
  {
  }

  lemma StartingHeroesConfigured()
    ensures |StartingHeroes| > 0
    ensures "TestHero1" in StartingHeroes
  {
  }

  /** The event handlers look up "Bomb Explode Team" and "Bomb Defuse Team";
      the table spells both keys with a trailing space, so the lookups miss. */
  lemma TeamBombKeysMiss()
    ensures ValueOr0(ExpValues, "Bomb Explode Team") == 0
    ensures ValueOr0(ExpValues, "Bomb Defuse Team") == 0
    ensures ValueOr0(ExpValues, "Bomb Explode Team ") == 10
    ensures ValueOr0(ExpValues, "Bomb Defuse Team ") == 15
  {
  }

  /** Gold is granted for exactly four objectives; a hostage pick-up grants
      the team no experience either. */
  lemma GoldOnlyForFourObjectives(key: string)
    ensures ValueOr0(GoldValues, key) > 0 <==> key in {"Kill", "Assist", "Round Win", "Round Loss"}
    ensures ValueOr0(ExpValues, "Hostage Pick Up Team") == 0
  {
  }
}

=== FILE: database.dfy ===
/** The three SQLite tables (players, heroes, skills) as maps keyed by their
    primary keys, and the hero save/load routines. `INSERT OR REPLACE` is a
    map update. */
module Database {
  import opened Outcome
  import opened Entities

  datatype PlayerRow = PlayerRow(gold: int, heroCid: string)

  datatype HeroRow = HeroRow(level: int, exp: int)

  /** Key of a skills row: owner steamid, hero class id, skill class id. */
  datatype SkillKey = SkillKey(steamid: string, heroCid: string, skillCid: string)

  datatype Db = Db(players: map<string, PlayerRow>,
                   heroes: map<(string, string), HeroRow>,
                   skills: map<SkillKey, int>)

  function EmptyDb(): Db
  {
    Db(map[], map[], map[])
  }

  function SkillKeyOf(steamid: string, heroCid: string, s: Skill): SkillKey
  {
    SkillKey(steamid, heroCid, s.cls.cid)
  }

  /** Some skill in `s` has class id `cid`. */
  predicate Mentions(s: seq<Skill>, cid: string)
  {
    exists i :: 0 <= i < |s| && s[i].cls.cid == cid
  }

  /** A skills row that saving `s` for this owner and hero writes. */
  predicate Covers(steamid: string, heroCid: string, s: seq<Skill>, k: SkillKey)
  {
    k.steamid == steamid && k.heroCid == heroCid && Mentions(s, k.skillCid)
  }

  /** `i` is the last position of class id `cid` in `s`. */
  predicate LastWith(s: seq<Skill>, i: int, cid: string)
  {
    0 <= i < |s| && s[i].cls.cid == cid && forall j :: i < j < |s| ==> s[j].cls.cid != cid
  }

  lemma MentionsCons(s: seq<Skill>, cid: string)
    requires s != []
    ensures Mentions(s, cid) <==> s[0].cls.cid == cid || Mentions(s[1..], cid)
  {
    if Mentions(s, cid) && s[0].cls.cid != cid {
      var i :| 0 <= i < |s| && s[i].cls.cid == cid;
      assert s[1..][i - 1] == s[i];
    }
    if Mentions(s[1..], cid) {
      var i :| 0 <= i < |s[1..]| && s[1..][i].cls.cid == cid;
      assert s[i + 1] == s[1..][i];
    }
  }

  /** One `INSERT OR REPLACE` per skill, in list order. */
  function {:induction false} SaveSkills(m: map<SkillKey, int>, steamid: string, heroCid: string,
                                         s: seq<Skill>): (r: map<SkillKey, int>)
    decreases |s|
    ensures forall k :: k in r <==> k in m || Covers(steamid, heroCid, s, k)
    ensures forall k :: k in m && !Covers(steamid, heroCid, s, k) ==> r[k] == m[k]
  {
    if s == [] then m
    else
      var m1 := m[SkillKeyOf(steamid, heroCid, s[0]) := s[0].level];
      var r := SaveSkills(m1, steamid, heroCid, s[1..]);
      assert forall cid :: Mentions(s, cid) <==> s[0].cls.cid == cid || Mentions(s[1..], cid) by {
        forall cid ensures Mentions(s, cid) <==> s[0].cls.cid == cid || Mentions(s[1..], cid) {
          MentionsCons(s, cid);
        }
      }
      r
  }

  /** For a repeated skill class, the last row written wins. */
  lemma {:induction false} SaveSkillsLastWins(m: map<SkillKey, int>, steamid: string, heroCid: string,
                                              s: seq<Skill>, i: int)
    requires 0 <= i < |s| && LastWith(s, i, s[i].cls.cid)
    ensures SkillKeyOf(steamid, heroCid, s[i]) in SaveSkills(m, steamid, heroCid, s)
    ensures SaveSkills(m, steamid, heroCid, s)[SkillKeyOf(steamid, heroCid, s[i])] == s[i].level
    decreases |s|
  {
    var m1 := m[SkillKeyOf(steamid, heroCid, s[0]) := s[0].level];
    var key := SkillKeyOf(steamid, heroCid, s[i]);
    if i == 0 {
      assert !Covers(steamid, heroCid, s[1..], key);
    } else {
      assert s[1..][i - 1] == s[i];
      SaveSkillsLastWins(m1, steamid, heroCid, s[1..], i - 1);
    }
  }

  /** `save_hero_data`: upsert the hero row, then one skills row per active
      skill (passives and items are not stored). */
  function SaveHeroData(db: Db, steamid: string, h: Hero): (r: Db)
    ensures r.players == db.players
    ensures r.heroes == db.heroes[(steamid, h.cls.cid) := HeroRow(h.level, h.exp)]
    ensures forall k :: k in r.skills <==> k in db.skills || Covers(steamid, h.cls.cid, h.skills, k)
    ensures forall k :: k in db.skills && !Covers(steamid, h.cls.cid, h.skills, k) ==> r.skills[k] == db.skills[k]
  {
    var skills := SaveSkills(db.skills, steamid, h.cls.cid, h.skills);
    Db(db.players, db.heroes[(steamid, h.cls.cid) := HeroRow(h.level, h.exp)], skills)
  }

  /** Saving the same hero twice writes nothing new. */
  lemma SaveHeroDataIdempotent(db: Db, steamid: string, h: Hero)
    ensures SaveHeroData(SaveHeroData(db, steamid, h), steamid, h) == SaveHeroData(db, steamid, h)
  {
    var once := SaveHeroData(db, steamid, h);
    var twice := SaveHeroData(once, steamid, h);
    assert twice.skills.Keys == once.skills.Keys;
    forall k | k in once.skills ensures twice.skills[k] == once.skills[k] {
      if Covers(steamid, h.cls.cid, h.skills, k) {
        var i := LastIndex(h.skills, k.skillCid);
        assert k == SkillKeyOf(steamid, h.cls.cid, h.skills[i]);
        SaveSkillsLastWins(db.skills, steamid, h.cls.cid, h.skills, i);
        SaveSkillsLastWins(once.skills, steamid, h.cls.cid, h.skills, i);
      }
    }
  }

  /** The last position of a skill class id that occurs in the list. */
  lemma LastIndex(s: seq<Skill>, cid: string) returns (i: int)
    requires Mentions(s, cid)
    ensures LastWith(s, i, cid)
    decreases |s|
  {
    if s[|s| - 1].cls.cid == cid {
      i := |s| - 1;
    } else {
      var j :| 0 <= j < |s| && s[j].cls.cid == cid;
      assert s[..|s| - 1][j] == s[j];
      i := LastIndex(s[..|s| - 1], cid);
      assert s[..|s| - 1][i] == s[i];
    }
  }

  /** `save_player_data`: the players row records the current hero's class
      id, so a player without a current hero fails before writing anything;
      then the current hero is saved. */
  function SavePlayerData(db: Db, steamid: string, gold: int, current: Option<Hero>): (r: Result<Db>)
    ensures current.None? <==> r == Err(NoActiveHero)
    ensures r.Ok? ==> r.value.players == db.players[steamid := PlayerRow(gold, current.value.cls.cid)]
    ensures r.Ok? ==> r.value.heroes == db.heroes[(steamid, current.value.cls.cid) := HeroRow(current.value.level, current.value.exp)]
  {
    match current
    case None => Err(NoActiveHero)
    case Some(h) => Ok(SaveHeroData(db.(players := db.players[steamid := PlayerRow(gold, h.cls.cid)]), steamid, h))
  }

  /** The stored level and experience, `(0, 0)` when no row exists. */
  function StoredHeroRow(db: Db, steamid: string, heroCid: string): (r: HeroRow)
    ensures (steamid, heroCid) in db.heroes ==> r == db.heroes[(steamid, heroCid)]
    ensures (steamid, heroCid) !in db.heroes ==> r == HeroRow(0, 0)
  {
    if (steamid, heroCid) in db.heroes then db.heroes[(steamid, heroCid)] else HeroRow(0, 0)
  }

  /** The skills half of `load_hero_data`: each skill with a stored row is
      set through the level setter, in list order; a rejected level stops the
      loop and leaves the skills before it already updated. */
  function {:induction false} LoadSkills(db: Db, steamid: string, heroCid: string, s: seq<Skill>): (r: Effect<seq<Skill>>)
    decreases |s|
    ensures |r.state| == |s| && r.fired == []
    ensures forall i :: 0 <= i < |s| ==> r.state[i].cls == s[i].cls
    ensures r.Succeeded() ==> forall i :: 0 <= i < |s| ==>
              r.state[i].level == (if SkillKeyOf(steamid, heroCid, s[i]) in db.skills
                                   then db.skills[SkillKeyOf(steamid, heroCid, s[i])] else s[i].level)
    ensures r.Succeeded() <==> forall i :: 0 <= i < |s| && SkillKeyOf(steamid, heroCid, s[i]) in db.skills ==>
              0 <= db.skills[SkillKeyOf(steamid, heroCid, s[i])] <= s[i].cls.maxLevel
  {
    if s == [] then Done([])
    else
      var key := SkillKeyOf(steamid, heroCid, s[0]);
      var first := if key in db.skills then SetSkillLevel(s[0], db.skills[key]) else Ok(s[0]);
      match first
      case Err(e) => Fail(s, e)
      case Ok(s0) =>
        var rest := LoadSkills(db, steamid, heroCid, s[1..]);
        assert forall i :: 1 <= i < |s| ==> s[1..][i - 1] == s[i];
        Effect([s0] + rest.state, [], rest.raised)
  }

  /** `load_hero_data`. The stored level is first compared with the class's
      max level: for a class without one (`None`) the comparison itself
      raises, and a stored level above the maximum reaches `hero.max`, an
      attribute no hero has. Otherwise the level setter, then the exp
      setter, then the skills run, each on the stored values. */
  function LoadHeroData(db: Db, steamid: string, h: Hero): (r: Effect<Hero>)
    ensures h.cls.maxLevel.None? ==> r == Fail(h, UnorderedMaxLevel)
    ensures h.cls.maxLevel.Some? && StoredHeroRow(db, steamid, h.cls.cid).level > h.cls.maxLevel.value ==>
              r == Fail(h, NoMaxAttribute)
    ensures r.state.cls == h.cls && r.state.uid == h.uid && r.state.passives == h.passives
            && r.state.items == h.items && |r.state.skills| == |h.skills|
    ensures r.Succeeded() ==> r.state.level >= StoredHeroRow(db, steamid, h.cls.cid).level
  {
    var row := StoredHeroRow(db, steamid, h.cls.cid);
    if h.cls.maxLevel.None? then Fail(h, UnorderedMaxLevel)
    else if row.level > h.cls.maxLevel.value then Fail(h, NoMaxAttribute)
    else
      var leveled := HeroSetLevel(h, row.level);
      if !leveled.Succeeded() then leveled
      else
        var gained := HeroSetExp(leveled.state, row.exp);
        var fired := leveled.fired + gained.fired;
        if !gained.Succeeded() then Effect(gained.state, fired, gained.raised)
        else
          var skills := LoadSkills(db, steamid, h.cls.cid, gained.state.skills);
          Effect(gained.state.(skills := skills.state), fired, skills.raised)
  }

  /** A hero whose skills are valid instances of its class's skill set. */
  predicate SkillsMatchClass(h: Hero)
  {
    && |h.skills| == |h.cls.skillSet|
    && (forall i :: 0 <= i < |h.skills| ==> h.skills[i].cls == h.cls.skillSet[i])
    && (forall i :: 0 <= i < |h.skills| ==> 0 <= h.skills[i].level <= h.skills[i].cls.maxLevel)
    && (forall i, j :: 0 <= i < j < |h.skills| ==> h.skills[i].cls.cid != h.skills[j].cls.cid)
  }

  /** After a save every skill of the hero has its row, holding its level. */
  lemma SavedSkillRows(db: Db, steamid: string, h: Hero)
    requires SkillsMatchClass(h)
    ensures var saved := SaveHeroData(db, steamid, h).skills;
            forall i :: 0 <= i < |h.skills| ==>
              SkillKeyOf(steamid, h.cls.cid, h.skills[i]) in saved
              && saved[SkillKeyOf(steamid, h.cls.cid, h.skills[i])] == h.skills[i].level
  {
    forall i | 0 <= i < |h.skills|
      ensures SkillKeyOf(steamid, h.cls.cid, h.skills[i]) in SaveHeroData(db, steamid, h).skills
      ensures SaveHeroData(db, steamid, h).skills[SkillKeyOf(steamid, h.cls.cid, h.skills[i])] == h.skills[i].level
    {
      assert LastWith(h.skills, i, h.skills[i].cls.cid);
      SaveSkillsLastWins(db.skills, steamid, h.cls.cid, h.skills, i);
    }
  }

  /** Loading skills whose rows hold valid levels restores those levels. */
  lemma LoadSavedSkills(db: Db, steamid: string, h: Hero, s: seq<Skill>)
    requires SkillsMatchClass(h)
    requires |s| == |h.skills| && forall i :: 0 <= i < |s| ==> s[i].cls == h.skills[i].cls
    requires forall i :: 0 <= i < |h.skills| ==>
               SkillKeyOf(steamid, h.cls.cid, h.skills[i]) in db.skills
               && db.skills[SkillKeyOf(steamid, h.cls.cid, h.skills[i])] == h.skills[i].level
    ensures LoadSkills(db, steamid, h.cls.cid, s).Succeeded()
    ensures LoadSkills(db, steamid, h.cls.cid, s).state == h.skills
  {
    var r := LoadSkills(db, steamid, h.cls.cid, s);
    assert forall i :: 0 <= i < |s| ==> SkillKeyOf(steamid, h.cls.cid, s[i]) == SkillKeyOf(steamid, h.cls.cid, h.skills[i]);
    assert r.Succeeded();
    assert forall i :: 0 <= i < |s| ==> r.state[i] == h.skills[i];
  }

  /** Saving a capped hero and loading it into any instance of the same class
      restores its level, experience and skill levels. */
  lemma SaveLoadRoundTrip(db: Db, steamid: string, h: Hero, target: Hero)
    requires h.cls.maxLevel.Some? && ValidProgress(h) && SkillsMatchClass(h)
    requires target.cls == h.cls && |target.skills| == |h.skills|
    requires forall i :: 0 <= i < |h.skills| ==> target.skills[i].cls == h.skills[i].cls
    ensures LoadHeroData(SaveHeroData(db, steamid, h), steamid, target).Succeeded()
    ensures var t := LoadHeroData(SaveHeroData(db, steamid, h), steamid, target).state;
            t.level == h.level && t.exp == h.exp && t.skills == h.skills
  {
    var saved := SaveHeroData(db, steamid, h);
    assert StoredHeroRow(saved, steamid, h.cls.cid) == HeroRow(h.level, h.exp);
    var leveled := HeroSetLevel(target, h.level);
    var gained := HeroSetExp(leveled.state, h.exp);
    assert gained.Succeeded() && gained.state.level == h.level && gained.state.exp == h.exp;
    SavedSkillRows(db, steamid, h);
    LoadSavedSkills(saved, steamid, h, gained.state.skills);
  }

  /** A hero class without a max level can never be loaded, whatever is
      stored: the comparison with `None` raises before any setter runs. */
  lemma UncappedHeroNeverLoads(db: Db, steamid: string, h: Hero)
    requires h.cls.maxLevel.None?
    ensures !LoadHeroData(db, steamid, h).Succeeded()
    ensures LoadHeroData(db, steamid, h).state == h
  {
  }
}

=== FILE: entities.dfy ===
/** Heroes, skills and items: leveled entities, the experience cascade, the
    derived skill points, hook dispatch, and item loss. */
module Entities {
  import opened Outcome
  import Configs
  import Tools

  // ---------------------------------------------------------------------
  // Declared classes and their instances
  // ---------------------------------------------------------------------

  /** A declared skill class. `hooks` are the hook methods the class defines
      (decorated hooks are still discovered by name). */
  datatype SkillClass = SkillClass(cid: string, cost: int, maxLevel: int, requiredLevel: int,
                                   hooks: set<string>)

  /** A skill class with the `Skill` defaults: cost 1, max level 6, no
      required level. */
  function DefaultSkillClass(cid: string, hooks: set<string>): SkillClass
  {
    SkillClass(cid, 1, 6, 0, hooks)
  }

  datatype Skill = Skill(cls: SkillClass, level: int)

  /** A declared item class; `Item` derives from `Skill` and so inherits its
      max level. A `limit` of 0 or less means unlimited. */
  datatype ItemClass = ItemClass(cid: string, cost: int, maxLevel: int, hooks: set<string>,
                                 permanent: bool, limit: int, category: string,
                                 allowedUsers: seq<string>)

  /** An item class with the `Item` defaults: cost 10, not permanent, no limit. */
  function DefaultItemClass(cid: string, hooks: set<string>): ItemClass
  {
    ItemClass(cid, 10, 6, hooks, false, 0, Configs.DefaultItemCategory, [])
  }

  datatype Item = Item(cls: ItemClass, level: int)

  /** A declared hero class. A hero has no max level unless its class sets one. */
  datatype HeroClass = HeroClass(cid: string, cost: int, maxLevel: Option<int>,
                                 skillSet: seq<SkillClass>, passiveSet: seq<SkillClass>,
                                 allowedUsers: seq<string>)

  /** A live hero. `uid` is the instance identity (Python's `id(hero)`). */
  datatype Hero = Hero(cls: HeroClass, uid: nat, level: int, exp: int,
                       skills: seq<Skill>, passives: seq<Skill>, items: seq<Item>)

  function HeroCid(h: Hero): string { h.cls.cid }

  function ClassCid(c: HeroClass): string { c.cid }

  function ItemCid(i: Item): string { i.cls.cid }

  function FreshSkills(set_: seq<SkillClass>): (r: seq<Skill>)
    ensures |r| == |set_|
    ensures forall i :: 0 <= i < |r| ==> r[i] == Skill(set_[i], 0)
  {
    seq(|set_|, i requires 0 <= i < |set_| => Skill(set_[i], 0))
  }

  /** `hero_cls(level, exp)`: one fresh instance of every skill and passive
      class of the hero, all at level 0, and no items. */
  function NewHero(cls: HeroClass, uid: nat, level: int, exp: int): (h: Hero)
    ensures h.cls == cls && h.uid == uid && h.level == level && h.exp == exp
    ensures h.skills == FreshSkills(cls.skillSet) && h.passives == FreshSkills(cls.passiveSet)
    ensures h.items == []
  {
    Hero(cls, uid, level, exp, FreshSkills(cls.skillSet), FreshSkills(cls.passiveSet), [])
  }

  /** `Hero.skill`: the class decorator appends a skill class to the hero's
      skill set and returns the skill class unchanged. */
  function RegisterSkill(hc: HeroClass, sc: SkillClass): (r: HeroClass)
    ensures r.skillSet == hc.skillSet + [sc]
    ensures r.passiveSet == hc.passiveSet && r.cid == hc.cid && r.maxLevel == hc.maxLevel
  {
    hc.(skillSet := hc.skillSet + [sc])
  }

  /** `Hero.passive`: the same for the passive set. */
  function RegisterPassive(hc: HeroClass, sc: SkillClass): (r: HeroClass)
    ensures r.passiveSet == hc.passiveSet + [sc]
    ensures r.skillSet == hc.skillSet && r.cid == hc.cid && r.maxLevel == hc.maxLevel
  {
    hc.(passiveSet := hc.passiveSet + [sc])
  }

  /** Decorating skill classes one after another, as a module declares them. */
  function {:induction false} RegisterSkills(hc: HeroClass, scs: seq<SkillClass>): (r: HeroClass)
    ensures r.skillSet == hc.skillSet + scs
    ensures r.passiveSet == hc.passiveSet && r.cid == hc.cid
    decreases |scs|
  {
    if scs == [] then hc
    else
      var r := RegisterSkills(RegisterSkill(hc, scs[0]), scs[1..]);
      assert hc.skillSet + [scs[0]] + scs[1..] == hc.skillSet + scs;
      r
  }

  /** A hero class declared with no skills ends up with exactly the decorated
      skills, in declaration order. */
  lemma DeclarationOrder(hc: HeroClass, scs: seq<SkillClass>)
    requires hc.skillSet == []
    ensures RegisterSkills(hc, scs).skillSet == scs
  {
  }

  /** `Entity.get_subclasses`: every transitive subclass once, sorted by
      class id. */
  function GetSubclasses(t: Tools.ClassTree): (r: seq<string>)
    ensures Tools.StrictlySorted(r)
    ensures forall c :: c in r <==> c in Tools.GetSubclasses(t)
  {
    Tools.SortUnique(Tools.GetSubclasses(t))
  }

  /** The registry holds exactly the classes reachable through subclassing. */
  lemma GetSubclassesReachable(t: Tools.ClassTree, c: string)
    ensures c in GetSubclasses(t) <==> exists path :: Tools.PathTo(t.subclasses, path, c)
  {
    Tools.SubclassesAreTransitiveClosure(t, c);
  }

  // ---------------------------------------------------------------------
  // Levels
  // ---------------------------------------------------------------------

  predicate WithinMax(level: int, maxLevel: Option<int>)
  {
    maxLevel.None? || level <= maxLevel.value
  }

  /** `Entity.level` setter: negative levels and levels above a set maximum
      are rejected (the old level is kept by the caller); nothing is clamped. */
  function SetEntityLevel(maxLevel: Option<int>, level: int): (r: Result<int>)
    ensures r.Ok? <==> 0 <= level && WithinMax(level, maxLevel)
    ensures r.Ok? ==> r.value == level
    ensures level < 0 ==> r == Err(NegativeLevel)
    ensures 0 <= level && !WithinMax(level, maxLevel) ==> r == Err(LevelAboveMax)
  {
    if level < 0 then Err(NegativeLevel)
    else if maxLevel.Some? && level > maxLevel.value then Err(LevelAboveMax)
    else Ok(level)
  }

  /** The level setter on a skill (skills always have an integer maximum). */
  function SetSkillLevel(s: Skill, level: int): (r: Result<Skill>)
    ensures r.Ok? <==> 0 <= level <= s.cls.maxLevel
    ensures r.Ok? ==> r.value == s.(level := level)
  {
    match SetEntityLevel(Some(s.cls.maxLevel), level)
    case Ok(l) => Ok(s.(level := l))
    case Err(e) => Err(e)
  }

  /** The hero may still level up: no maximum, or below it. */
  predicate BelowCap(level: int, maxLevel: Option<int>)
  {
    maxLevel.None? || level < maxLevel.value
  }

  /** `Hero.required_exp` at a given level. */
  function RequiredExpAt(level: int, maxLevel: Option<int>): (r: int)
    ensures !BelowCap(level, maxLevel) ==> r == 0
    ensures BelowCap(level, maxLevel) && level >= 0 ==> r >= 100
    ensures BelowCap(level, maxLevel) ==> r == Configs.ExpAlgorithm(level)
  {
    if maxLevel.Some? && level >= maxLevel.value then 0 else Configs.ExpAlgorithm(level)
  }

  function RequiredExp(h: Hero): int
  {
    RequiredExpAt(h.level, h.cls.maxLevel)
  }

  /** Experience needed to climb from level `a` to level `b`. */
  function ExpBetween(a: int, b: int): int
    decreases b - a
  {
    if a >= b then 0 else Configs.ExpAlgorithm(a) + ExpBetween(a + 1, b)
  }

  /** Climbing n levels from level a costs 100n + 20an + 10n(n - 1)
      experience in total. */
  lemma {:induction false} ExpBetweenClosedForm(a: int, n: nat)
    ensures ExpBetween(a, a + n) == 100 * n + 20 * a * n + 10 * n * (n - 1)
    decreases n
  {
    if n > 0 {
      ExpBetweenClosedForm(a + 1, n - 1);
      assert ExpBetween(a + 1, a + n) == 100 * (n - 1) + 20 * (a + 1) * (n - 1) + 10 * (n - 1) * (n - 2);
    }
  }

  /** The `while` loop of the exp setter: spend the required experience and
      advance one level while enough experience is held and the hero is
      below its maximum. */
  function Cascade(level: int, exp: int, maxLevel: Option<int>): (r: (int, int))
    requires exp >= 0
    decreases if level < 0 then -level else 0, exp
    ensures r.0 >= level && r.1 >= 0
    ensures ExpBetween(level, r.0) + r.1 == exp
    ensures BelowCap(r.0, maxLevel) ==> r.1 < RequiredExpAt(r.0, maxLevel)
    ensures WithinMax(level, maxLevel) ==> WithinMax(r.0, maxLevel)
    ensures !BelowCap(level, maxLevel) ==> r == (level, exp)
  {
    if exp >= RequiredExpAt(level, maxLevel) && BelowCap(level, maxLevel) then
      Cascade(level + 1, exp - RequiredExpAt(level, maxLevel), maxLevel)
    else
      (level, exp)
  }

  function LevelNotice(h: Hero): Notice
  {
    LevelUpNotice(h.cls.cid, h.uid)
  }

  /** `Hero.level` setter: experience is zeroed first, then the entity
      setter validates, then one notice fires however large the jump. A
      rejected level therefore still wipes the experience. */
  function HeroSetLevel(h: Hero, level: int): (r: Effect<Hero>)
    ensures r.state == h.(exp := 0, level := r.state.level)
    ensures r.Succeeded() <==> 0 <= level && WithinMax(level, h.cls.maxLevel)
    ensures r.Succeeded() ==> r.state.level == level && r.fired == [LevelNotice(h)]
    ensures !r.Succeeded() ==> r.state.level == h.level && r.fired == []
  {
    var wiped := h.(exp := 0);
    match SetEntityLevel(h.cls.maxLevel, level)
    case Err(e) => Fail(wiped, e)
    case Ok(l) => Effect(wiped.(level := l), [LevelNotice(h)], None)
  }

  /** `Hero.exp` setter. */
  function HeroSetExp(h: Hero, exp: int): (r: Effect<Hero>)
    ensures exp < 0 ==> r == Fail(h, NegativeExp)
    ensures exp >= 0 && exp == h.exp ==> r == Done(h)
    ensures r.state == h.(level := r.state.level, exp := r.state.exp)
    // Below the cap the new experience is what was not spent on the levels gained.
    ensures r.Succeeded() && exp != h.exp && BelowCap(r.state.level, h.cls.maxLevel) ==>
              r.state.level >= h.level
              && r.state.exp < RequiredExpAt(r.state.level, h.cls.maxLevel)
              && ExpBetween(h.level, r.state.level) + r.state.exp == exp
    // At the cap the level setter runs: experience becomes 0.
    ensures r.Succeeded() && !BelowCap(r.state.level, h.cls.maxLevel) && exp != h.exp ==> r.state.exp == 0
    ensures r.Succeeded() && WithinMax(h.level, h.cls.maxLevel) ==> WithinMax(r.state.level, h.cls.maxLevel)
    // One notice for a level gain, one more whenever the cap is reached.
    ensures r.Succeeded() && exp >= 0 && exp != h.exp ==>
              |r.fired| == (if !BelowCap(r.state.level, h.cls.maxLevel) then 1 else 0)
                           + (if r.state.level > h.level then 1 else 0)
  {
    if exp < 0 then Fail(h, NegativeExp)
    else if exp == h.exp then Done(h)
    else
      var c := Cascade(h.level, exp, h.cls.maxLevel);
      var climbed := h.(level := c.0, exp := c.1);
      if h.cls.maxLevel.Some? && c.0 >= h.cls.maxLevel.value then
        var s := HeroSetLevel(climbed, h.cls.maxLevel.value);
        if !s.Succeeded() then s
        else Effect(s.state, s.fired + (if s.state.level > h.level then [LevelNotice(h)] else []), None)
      else
        Effect(climbed, if c.0 > h.level then [LevelNotice(h)] else [], None)
  }

  /** A hero whose level and experience satisfy the progression invariant. */
  predicate ValidProgress(h: Hero)
  {
    && 0 <= h.level && WithinMax(h.level, h.cls.maxLevel)
    && 0 <= h.exp
    && (BelowCap(h.level, h.cls.maxLevel) ==> h.exp < RequiredExpAt(h.level, h.cls.maxLevel))
    && (!BelowCap(h.level, h.cls.maxLevel) ==> h.exp == 0)
  }

  /** Granting any non-negative experience to a valid hero succeeds and keeps
      the invariant: the level never passes the maximum. */
  lemma HeroSetExpKeepsProgress(h: Hero, exp: int)
    requires ValidProgress(h) && exp >= 0
    ensures HeroSetExp(h, exp).Succeeded()
    ensures ValidProgress(HeroSetExp(h, exp).state)
  {
  }

  /** Reaching the cap from below fires two notices; a grant to a hero that
      already sits at the cap still fires one, and wipes the experience. */
  lemma CapNotices(h: Hero, exp: int)
    requires ValidProgress(h) && h.cls.maxLevel.Some? && exp > 0
    ensures !BelowCap(h.level, h.cls.maxLevel) ==>
              |HeroSetExp(h, exp).fired| == 1 && HeroSetExp(h, exp).state.level == h.level
              && HeroSetExp(h, exp).state.exp == 0
    ensures BelowCap(h.level, h.cls.maxLevel) && exp >= ExpBetween(h.level, h.cls.maxLevel.value) ==>
              |HeroSetExp(h, exp).fired| == 2 && HeroSetExp(h, exp).state.level == h.cls.maxLevel.value
  {
    if BelowCap(h.level, h.cls.maxLevel) && exp >= ExpBetween(h.level, h.cls.maxLevel.value) {
      var c := Cascade(h.level, exp, h.cls.maxLevel);
      if c.0 < h.cls.maxLevel.value {
        ExpBetweenNonNegative(c.0 + 1, h.cls.maxLevel.value);
        ExpBetweenSplit(h.level, c.0, h.cls.maxLevel.value);
      }
    }
  }

  lemma {:induction false} ExpBetweenNonNegative(a: int, b: int)
    requires a >= 0
    ensures ExpBetween(a, b) >= 0
    decreases b - a
  {
    if a < b { ExpBetweenNonNegative(a + 1, b); }
  }

  lemma {:induction false} ExpBetweenSplit(a: int, b: int, c: int)
    requires a <= b <= c
    ensures ExpBetween(a, c) == ExpBetween(a, b) + ExpBetween(b, c)
    decreases b - a
  {
    if a < b { ExpBetweenSplit(a + 1, b, c); }
  }

  // ---------------------------------------------------------------------
  // Skill points
  // ---------------------------------------------------------------------

  /** Skill points invested: the sum of level times cost. */
  function Spent(skills: seq<Skill>): int
  {
    if skills == [] then 0 else skills[0].level * skills[0].cls.cost + Spent(skills[1..])
  }

  /** `Hero.skill_points`: derived from the level and the active skills only;
      passives and items do not enter. */
  function SkillPoints(h: Hero): int
  {
    h.level - Spent(h.skills)
  }

  /** Changing one skill's level changes the points spent by the level
      difference times that skill's cost. */
  lemma {:induction false} SpentUpdate(skills: seq<Skill>, i: nat, level: int)
    requires i < |skills|
    ensures Spent(skills[i := skills[i].(level := level)])
            == Spent(skills) + (level - skills[i].level) * skills[i].cls.cost
    decreases |skills|
  {
    var s := skills[i := skills[i].(level := level)];
    if i == 0 {
      assert s[1..] == skills[1..];
    } else {
      assert s[1..] == skills[1..][i - 1 := skills[i].(level := level)];
      SpentUpdate(skills[1..], i - 1, level);
    }
  }

  lemma {:induction false} SpentAllZero(skills: seq<Skill>)
    requires forall i :: 0 <= i < |skills| ==> skills[i].level == 0
    ensures Spent(skills) == 0
  {
    if skills != [] { SpentAllZero(skills[1..]); }
  }

  /** Every skill at level 0 leaves all the hero's levels as points, whatever
      its passives and items. */
  lemma SkillPointsAfterReset(h: Hero)
    requires forall i :: 0 <= i < |h.skills| ==> h.skills[i].level == 0
    ensures SkillPoints(h) == h.level
  {
    SpentAllZero(h.skills);
  }

  // ---------------------------------------------------------------------
  // Dispatch
  // ---------------------------------------------------------------------

  /** Something `execute_skills` can invoke: the i-th passive, skill or item. */
  datatype Target = PassiveAt(i: nat) | SkillAt(i: nat) | ItemAt(i: nat)

  function Rank(t: Target): nat
  {
    match t
    case PassiveAt(_) => 0
    case SkillAt(_) => 1
    case ItemAt(_) => 2
  }

  /** Passives come first, then skills, then items; within a group, list order. */
  predicate Before(a: Target, b: Target)
  {
    Rank(a) < Rank(b) || (Rank(a) == Rank(b) && a.i < b.i)
  }

  /** Whether `execute_skills(hook)` should invoke a target: passives always,
      skills only at a non-zero level, items always, and only targets whose
      class defines the hook (`Skill.execute_method`). */
  predicate Invoked(h: Hero, hook: string, t: Target)
  {
    match t
    case PassiveAt(i) => i < |h.passives| && hook in h.passives[i].cls.hooks
    case SkillAt(i) => i < |h.skills| && h.skills[i].level != 0 && hook in h.skills[i].cls.hooks
    case ItemAt(i) => i < |h.items| && hook in h.items[i].cls.hooks
  }

  /** Indices `from..|flags|` whose flag is set, increasing. */
  function Selected(flags: seq<bool>, from: nat): (r: seq<nat>)
    requires from <= |flags|
    decreases |flags| - from
    ensures forall k :: 0 <= k < |r| ==> from <= r[k] < |flags| && flags[r[k]]
    ensures forall i :: from <= i < |flags| && flags[i] ==> i in r
    ensures forall k, l :: 0 <= k < l < |r| ==> r[k] < r[l]
  {
    if from == |flags| then []
    else if flags[from] then [from] + Selected(flags, from + 1)
    else Selected(flags, from + 1)
  }

  function Make(kind: nat, i: nat): (t: Target)
    requires kind <= 2
    ensures Rank(t) == kind && t.i == i
  {
    if kind == 0 then PassiveAt(i) else if kind == 1 then SkillAt(i) else ItemAt(i)
  }

  function GroupSize(h: Hero, kind: nat): nat
  {
    if kind == 0 then |h.passives| else if kind == 1 then |h.skills| else |h.items|
  }

  /** For each position of one group, whether the hook reaches it. */
  function GroupFlags(h: Hero, hook: string, kind: nat): (flags: seq<bool>)
    requires kind <= 2
    ensures |flags| == GroupSize(h, kind)
    ensures forall i :: 0 <= i < |flags| ==> flags[i] == Invoked(h, hook, Make(kind, i))
  {
    seq(GroupSize(h, kind), i requires 0 <= i < GroupSize(h, kind) => Invoked(h, hook, Make(kind, i)))
  }

  /** The targets of one kind at the given positions. */
  function Targets(kind: nat, ix: seq<nat>): (r: seq<Target>)
    requires kind <= 2
    ensures |r| == |ix|
    ensures forall k :: 0 <= k < |ix| ==> r[k] == Make(kind, ix[k])
  {
    seq(|ix|, k requires 0 <= k < |ix| => Make(kind, ix[k]))
  }

  /** Every target at a flagged position is reached by the hook. */
  lemma TargetsSound(h: Hero, hook: string, kind: nat, ix: seq<nat>)
    requires kind <= 2
    requires forall k :: 0 <= k < |ix| ==> ix[k] < GroupSize(h, kind) && GroupFlags(h, hook, kind)[ix[k]]
    ensures forall t :: t in Targets(kind, ix) ==> Rank(t) == kind && Invoked(h, hook, t)
  {
    var r := Targets(kind, ix);
    forall t | t in r ensures Rank(t) == kind && Invoked(h, hook, t) {
      var k :| 0 <= k < |r| && r[k] == t;
      assert GroupFlags(h, hook, kind)[ix[k]];
    }
  }

  /** Every target the hook reaches sits at a listed position. */
  lemma TargetsComplete(h: Hero, hook: string, kind: nat, ix: seq<nat>)
    requires kind <= 2
    requires forall i :: 0 <= i < GroupSize(h, kind) && GroupFlags(h, hook, kind)[i] ==> i in ix
    ensures forall t :: Rank(t) == kind && Invoked(h, hook, t) ==> t in Targets(kind, ix)
  {
    var r := Targets(kind, ix);
    forall t | Rank(t) == kind && Invoked(h, hook, t) ensures t in r {
      assert t == Make(kind, t.i);
      assert t.i < GroupSize(h, kind) && GroupFlags(h, hook, kind)[t.i];
      var k :| 0 <= k < |ix| && ix[k] == t.i;
      assert r[k] == t;
    }
  }

  /** One group of `execute_skills` (passives, skills or items), in list order. */
  function Group(h: Hero, hook: string, kind: nat): (r: seq<Target>)
    requires kind <= 2
    ensures forall t :: t in r <==> Rank(t) == kind && Invoked(h, hook, t)
    ensures forall k, l :: 0 <= k < l < |r| ==> r[k].i < r[l].i
  {
    var ix := Selected(GroupFlags(h, hook, kind), 0);
    TargetsSound(h, hook, kind, ix);
    TargetsComplete(h, hook, kind, ix);
    Targets(kind, ix)
  }

  /** `Hero.execute_skills`: the invocations in the order they happen. */
  function ExecuteSkills(h: Hero, hook: string): (r: seq<Target>)
    ensures forall t :: t in r <==> Invoked(h, hook, t)
    ensures forall k, l :: 0 <= k < l < |r| ==> Before(r[k], r[l])
  {
    var p := Group(h, hook, 0);
    var s := Group(h, hook, 1);
    var m := Group(h, hook, 2);
    assert forall t :: Invoked(h, hook, t) ==> Rank(t) <= 2;
    p + s + m
  }

  /** A skill at level 0 is never invoked, even when it defines the hook. */
  lemma LevelZeroSkillSkipped(h: Hero, hook: string, i: nat)
    requires i < |h.skills| && h.skills[i].level == 0
    ensures SkillAt(i) !in ExecuteSkills(h, hook)
  {
  }

  // ---------------------------------------------------------------------
  // Items
  // ---------------------------------------------------------------------

  function ItemSellValue(item: Item): int
  {
    Configs.SellValue(item.cls.cost)
  }

  /** `for item in items: if not item.permanent: items.remove(item)`, with
      Python's list iterator: an index that advances past the element that
      slides into the removed one's place. */
  function DropLoop(items: seq<Item>, i: nat): seq<Item>
    decreases if i >= |items| then 0 else |items| - i
  {
    if i >= |items| then items
    else if !items[i].cls.permanent then DropLoop(items[..i] + items[i + 1..], i + 1)
    else DropLoop(items, i + 1)
  }

  /** The item-loss loop the hero setters and the death handler run. */
  function DropTemporaryItems(items: seq<Item>): seq<Item>
  {
    DropLoop(items, 0)
  }

  /** The same loop read along the original list: a permanent item is kept;
      a temporary one is removed and the item right after it is skipped, so
      kept whatever it is. */
  function RemoveAndSkip(r: seq<Item>): seq<Item>
    decreases |r|
  {
    if r == [] then []
    else if r[0].cls.permanent then [r[0]] + RemoveAndSkip(r[1..])
    else if |r| == 1 then []
    else [r[1]] + RemoveAndSkip(r[2..])
  }

  /** One step of the loop at a temporary item: it is removed and the index
      still advances. */
  lemma DropLoopTemporaryStep(kept: seq<Item>, r: seq<Item>)
    requires r != [] && !r[0].cls.permanent
    ensures DropLoop(kept + r, |kept|) == DropLoop(kept + r[1..], |kept| + 1)
  {
    var xs := kept + r;
    assert xs[|kept|] == r[0];
    assert xs[..|kept|] + xs[|kept| + 1..] == kept + r[1..];
  }

  /** One step of the loop at a permanent item: it stays. */
  lemma DropLoopPermanentStep(kept: seq<Item>, r: seq<Item>)
    requires r != [] && r[0].cls.permanent
    ensures DropLoop(kept + r, |kept|) == DropLoop(kept + r, |kept| + 1)
  {
    assert (kept + r)[|kept|] == r[0];
  }

  lemma {:induction false} DropLoopReadsOriginal(kept: seq<Item>, r: seq<Item>)
    ensures DropLoop(kept + r, |kept|) == kept + RemoveAndSkip(r)
    decreases |r|
  {
    if r == [] {
      assert kept + r == kept;
    } else if r[0].cls.permanent {
      DropLoopPermanentStep(kept, r);
      var kept' := kept + [r[0]];
      assert kept + r == kept' + r[1..];
      DropLoopReadsOriginal(kept', r[1..]);
      assert RemoveAndSkip(r) == [r[0]] + RemoveAndSkip(r[1..]);
    } else {
      DropLoopTemporaryStep(kept, r);
      if |r| == 1 {
        assert kept + r[1..] == kept;
      } else {
        var kept' := kept + [r[1]];
        assert kept + r[1..] == kept' + r[2..];
        DropLoopReadsOriginal(kept', r[2..]);
        assert RemoveAndSkip(r) == [r[1]] + RemoveAndSkip(r[2..]);
      }
    }
  }

  /** What the loop evidently means: keep exactly the permanent items. */
  function KeepPermanent(items: seq<Item>): seq<Item>
  {
    Tools.FindElements(items, (it: Item) => it.cls.permanent, true)
  }

  predicate NoAdjacentTemporary(r: seq<Item>)
  {
    forall k :: 0 <= k < |r| - 1 ==> r[k].cls.permanent || r[k + 1].cls.permanent
  }

  lemma {:induction false} RemoveAndSkipKeepsPermanent(r: seq<Item>, x: Item)
    requires x in r && x.cls.permanent
    ensures x in RemoveAndSkip(r)
    decreases |r|
  {
    if x != r[0] {
      if r[0].cls.permanent {
        RemoveAndSkipKeepsPermanent(r[1..], x);
      } else if x != r[1] {
        RemoveAndSkipKeepsPermanent(r[2..], x);
      }
    }
  }

  lemma {:induction false} RemoveAndSkipSubset(r: seq<Item>, x: Item)
    requires x in RemoveAndSkip(r)
    ensures x in r
    decreases |r|
  {
    if r[0].cls.permanent {
      if x != r[0] { RemoveAndSkipSubset(r[1..], x); }
    } else if x != r[1] {
      RemoveAndSkipSubset(r[2..], x);
    }
  }

  /** When no two temporary items sit next to each other the loop drops
      every temporary item... */
  lemma {:induction false} RemoveAndSkipFilters(r: seq<Item>)
    requires NoAdjacentTemporary(r)
    ensures RemoveAndSkip(r) == KeepPermanent(r)
    decreases |r|
  {
    if r != [] {
      assert NoAdjacentTemporary(r[1..]) by {
        forall k | 0 <= k < |r[1..]| - 1
          ensures r[1..][k].cls.permanent || r[1..][k + 1].cls.permanent
        {
          assert r[1..][k] == r[k + 1] && r[1..][k + 1] == r[k + 2];
        }
      }
      if r[0].cls.permanent {
        RemoveAndSkipFilters(r[1..]);
      } else if |r| > 1 {
        assert r[1].cls.permanent;
        assert r[1..][1..] == r[2..];
        assert NoAdjacentTemporary(r[2..]) by {
          forall k | 0 <= k < |r[2..]| - 1
            ensures r[2..][k].cls.permanent || r[2..][k + 1].cls.permanent
          {
            assert r[2..][k] == r[k + 2] && r[2..][k + 1] == r[k + 3];
          }
        }
        RemoveAndSkipFilters(r[2..]);
        assert KeepPermanent(r[1..]) == [r[1]] + KeepPermanent(r[2..]);
      }
    }
  }

  /** ...and otherwise some temporary item survives it. */
  lemma {:induction false} RemoveAndSkipLeaks(r: seq<Item>)
    requires !NoAdjacentTemporary(r)
    ensures exists k :: 0 <= k < |RemoveAndSkip(r)| && !RemoveAndSkip(r)[k].cls.permanent
    decreases |r|
  {
    var j :| 0 <= j < |r| - 1 && !r[j].cls.permanent && !r[j + 1].cls.permanent;
    if r[0].cls.permanent {
      assert r[1..][j - 1] == r[j] && r[1..][j] == r[j + 1];
      RemoveAndSkipLeaks(r[1..]);
      var k :| 0 <= k < |RemoveAndSkip(r[1..])| && !RemoveAndSkip(r[1..])[k].cls.permanent;
      assert RemoveAndSkip(r)[k + 1] == RemoveAndSkip(r[1..])[k];
    } else if r[1].cls.permanent {
      assert j >= 2;
      assert r[2..][j - 2] == r[j] && r[2..][j - 1] == r[j + 1];
      RemoveAndSkipLeaks(r[2..]);
      var k :| 0 <= k < |RemoveAndSkip(r[2..])| && !RemoveAndSkip(r[2..])[k].cls.permanent;
      assert RemoveAndSkip(r)[k + 1] == RemoveAndSkip(r[2..])[k];
    } else {
      assert RemoveAndSkip(r)[0] == r[1];
    }
  }

  lemma DropIsRemoveAndSkip(items: seq<Item>)
    ensures DropTemporaryItems(items) == RemoveAndSkip(items)
  {
    DropLoopReadsOriginal([], items);
    assert [] + items == items;
  }

  /** Item loss keeps every permanent item and invents nothing. */
  lemma DropTemporaryItemsKeeps(items: seq<Item>)
    ensures forall x :: x in items && x.cls.permanent ==> x in DropTemporaryItems(items)
    ensures forall x :: x in DropTemporaryItems(items) ==> x in items
  {
    DropIsRemoveAndSkip(items);
    forall x | x in items && x.cls.permanent ensures x in RemoveAndSkip(items) {
      RemoveAndSkipKeepsPermanent(items, x);
    }
    forall x | x in RemoveAndSkip(items) ensures x in items {
      RemoveAndSkipSubset(items, x);
    }
  }

  /** Item loss drops every temporary item exactly when no two temporary
      items are adjacent. */
  lemma DropTemporaryItemsFilters(items: seq<Item>)
    ensures NoAdjacentTemporary(items) <==> DropTemporaryItems(items) == KeepPermanent(items)
  {
    DropIsRemoveAndSkip(items);
    if NoAdjacentTemporary(items) {
      RemoveAndSkipFilters(items);
    } else {
      RemoveAndSkipLeaks(items);
      var k :| 0 <= k < |RemoveAndSkip(items)| && !RemoveAndSkip(items)[k].cls.permanent;
      assert forall i :: 0 <= i < |KeepPermanent(items)| ==> KeepPermanent(items)[i].cls.permanent;
    }
  }

  /** Two temporary items in a row: the second one survives the loss. */
  lemma AdjacentTemporarySurvives(a: Item, b: Item)
    requires !a.cls.permanent && !b.cls.permanent
    ensures DropTemporaryItems([a, b]) == [b]
  {
    DropIsRemoveAndSkip([a, b]);
    assert [a, b][2..] == [];
  }
}

=== FILE: herowars_menus.dfy ===
/** State changes of the herowars tree's menus (`herowars/menus.py` and its
    later copy under `addons/source-python/plugins/herowars/menus.py`, whose
    callbacks behave the same): skill upgrade and reset, the item shop, hero
    purchase and change, and the admin "give" menu. Messages are reduced to
    which one is chosen; rendering is not modelled. The herowars tree's own
    entity and player classes are stood in for by the hw ones, with the
    setters of `herowars/player.py`. */
module HerowarsMenus {
  import opened Outcome
  import opened Entities
  import opened Database
  import opened Owners
  import LegacyPlayers
  import HwMenus
  import Tools
  import Configs

  // ---------------------------------------------------------------------
  // Current hero info: upgrade and reset
  // ---------------------------------------------------------------------

  /** The message the upgrade callback sends. */
  datatype UpgradeMessage = NotRequiredLevel | SkillMaxedOut | NotEnoughSkillPoints | SkillLeveled

  /** What the upgrade callback leaves behind: the hero, the message and
      whether the menu is sent again. */
  datatype UpgradeReply = UpgradeReply(hero: Effect<Hero>, message: UpgradeMessage, refresh: bool)

  /** The refresh loop's test for one skill: strictly more points than the
      cost, not maxed out, level reached. */
  predicate CanStillSpend(h: Hero, j: nat)
    requires j < |h.skills|
  {
    && SkillPoints(h) > h.skills[j].cls.cost
    && h.skills[j].level < h.skills[j].cls.maxLevel
    && h.level >= h.skills[j].cls.requiredLevel
  }

  /** The refresh loop from position `j` on: it stops at the first skill
      that passes. */
  function {:induction false} RefreshFrom(h: Hero, j: nat): (r: bool)
    requires j <= |h.skills|
    decreases |h.skills| - j
    ensures r <==> exists k :: j <= k < |h.skills| && CanStillSpend(h, k)
  {
    if j == |h.skills| then false
    else if CanStillSpend(h, j) then true
    else RefreshFrom(h, j + 1)
  }

  /** `_current_hero_info_menu_callback`: required level first, then the
      maximum, then the points; only when all three pass is the skill raised
      by one. The refresh test runs on the hero as it is afterwards. */
  function UpgradeSkill(h: Hero, i: nat): (r: UpgradeReply)
    requires i < |h.skills|
    ensures r.message == SkillLeveled <==> HwMenus.Upgradable(h, i)
    ensures h.level < h.skills[i].cls.requiredLevel ==> r.message == NotRequiredLevel
    ensures h.level >= h.skills[i].cls.requiredLevel && h.skills[i].level >= h.skills[i].cls.maxLevel ==>
              r.message == SkillMaxedOut
    ensures r.message != SkillLeveled ==> r.hero == Done(h)
    ensures r.message == SkillLeveled && h.skills[i].level >= -1 ==>
              r.hero == Done(h.(skills := h.skills[i := h.skills[i].(level := h.skills[i].level + 1)]))
    ensures r.refresh ==> r.hero.Succeeded()
    ensures r.hero.Succeeded() ==>
              (r.refresh <==> exists k :: 0 <= k < |r.hero.state.skills| && CanStillSpend(r.hero.state, k))
  {
    var s := h.skills[i];
    var message :=
      if h.level < s.cls.requiredLevel then NotRequiredLevel
      else if s.level >= s.cls.maxLevel then SkillMaxedOut
      else if SkillPoints(h) < s.cls.cost then NotEnoughSkillPoints
      else SkillLeveled;
    var hero :=
      if message != SkillLeveled then Done(h)
      else match SetSkillLevel(s, s.level + 1)
        case Err(e) => Fail(h, e)
        case Ok(s1) => Done(h.(skills := h.skills[i := s1]));
    UpgradeReply(hero, message, hero.Succeeded() && RefreshFrom(hero.state, 0))
  }

  /** The two trees check the same three conditions in different orders, so
      they upgrade in exactly the same cases and leave the same hero. */
  lemma UpgradeAgreesWithHw(h: Hero, i: nat)
    requires i < |h.skills|
    ensures UpgradeSkill(h, i).hero == HwMenus.SelectCurrentHero(h, HwMenus.SkillChoice(i))
  {
  }

  /** The refresh test is strict in the points: with exactly the cost left,
      a skill can still be upgraded but the menu is not sent again. */
  lemma RefreshMissesExactPoints()
    ensures var sc := SkillClass("S", 1, 1, 0, {});
            var h := Hero(HeroClass("H", 0, None, [sc], [], []), 0, 1, 0, [Skill(sc, 0)], [], []);
            HwMenus.Upgradable(h, 0) && !RefreshFrom(h, 0)
  {
    var sc := SkillClass("S", 1, 1, 0, {});
    var h := Hero(HeroClass("H", 0, None, [sc], [], []), 0, 1, 0, [Skill(sc, 0)], [], []);
    assert Spent(h.skills) == 0 by {
      assert h.skills[1..] == [];
    }
  }

  /** Every skill the refresh test accepts is upgradable. */
  lemma RefreshImpliesUpgradable(h: Hero)
    ensures RefreshFrom(h, 0) ==> exists k :: 0 <= k < |h.skills| && HwMenus.Upgradable(h, k)
  {
    if RefreshFrom(h, 0) {
      var k :| 0 <= k < |h.skills| && CanStillSpend(h, k);
      assert HwMenus.Upgradable(h, k);
    }
  }

  /** `_reset_skill_points`: every skill back to level 0 through the level
      setter; the hero is otherwise unchanged. */
  function ResetSkillPoints(h: Hero): (r: Effect<Hero>)
    ensures r.state == h.(skills := r.state.skills) && |r.state.skills| == |h.skills|
    ensures forall j :: 0 <= j < |h.skills| ==> r.state.skills[j].cls == h.skills[j].cls
    ensures r.Succeeded() <==> forall j :: 0 <= j < |h.skills| ==> h.skills[j].cls.maxLevel >= 0
    ensures r.Succeeded() ==> forall j :: 0 <= j < |h.skills| ==> r.state.skills[j].level == 0
  {
    var reset := HwMenus.ResetSkills(h.skills);
    Effect(h.(skills := reset.state), [], reset.raised)
  }

  // ---------------------------------------------------------------------
  // Items
  // ---------------------------------------------------------------------

  /** `len(tuple(find_elements(items, 'cls_id', cid)))` */
  function HeldCount(items: seq<Item>, cid: string): nat
  {
    |Tools.FindElements(items, ItemCid, cid)|
  }

  /** The buy menu's generator: an item class is offered while fewer than
      `limit` are held, or always when `limit` is not positive. */
  predicate Offered(items: seq<Item>, ic: ItemClass)
  {
    HeldCount(items, ic.cid) < ic.limit || ic.limit <= 0
  }

  /** The classes the buy-items menu lists for a category: offered, usable
      by the player (no restriction, or the steamid among the allowed users)
      and of the chosen category, in registry order. */
  function BuyItemOffers(steamid: string, items: seq<Item>, registry: seq<ItemClass>, category: string): (r: seq<ItemClass>)
    ensures Tools.Subsequence(r, registry)
  {
    if registry == [] then []
    else
      var ic := registry[0];
      var keep := Offered(items, ic) && !(ic.allowedUsers != [] && steamid !in ic.allowedUsers) && ic.category == category;
      var rest := BuyItemOffers(steamid, items, registry[1..], category);
      Tools.SubsequenceStep(keep, rest, registry);
      (if keep then [ic] else []) + rest
  }

  /** A class is listed exactly when it is registered, offered, usable and
      of the category. */
  lemma {:induction false} BuyItemOffersSpec(steamid: string, items: seq<Item>, registry: seq<ItemClass>, category: string, ic: ItemClass)
    decreases |registry|
    ensures ic in BuyItemOffers(steamid, items, registry, category) <==>
              && ic in registry
              && Offered(items, ic)
              && (ic.allowedUsers == [] || steamid in ic.allowedUsers)
              && ic.category == category
  {
    if registry != [] {
      BuyItemOffersSpec(steamid, items, registry[1..], category, ic);
      var d := registry[0];
      var keep := Offered(items, d) && !(d.allowedUsers != [] && steamid !in d.allowedUsers) && d.category == category;
      var rest := BuyItemOffers(steamid, items, registry[1..], category);
      assert BuyItemOffers(steamid, items, registry, category) == (if keep then [d] else []) + rest;
      assert ic in (if keep then [d] else []) + rest <==> (keep && ic == d) || ic in rest;
      assert ic in registry <==> ic == d || ic in registry[1..] by {
        assert registry == [d] + registry[1..];
      }
    }
  }

  /** A purchase adds one to the held count of its class and leaves the
      other classes' counts alone. */
  lemma BuyingCountsOne(items: seq<Item>, ic: ItemClass, cid: string)
    ensures HeldCount(items + [Item(ic, 0)], cid) == HeldCount(items, cid) + (if ic.cid == cid then 1 else 0)
  {
    Tools.FindElementsConcat(items, [Item(ic, 0)], ItemCid, cid);
  }

  /** Once `limit` (positive) items of a class are held, it is no longer
      offered. */
  lemma LimitStopsOffers(items: seq<Item>, ic: ItemClass)
    requires ic.limit > 0 && HeldCount(items, ic.cid) >= ic.limit
    ensures !Offered(items, ic)
  {
  }

  /** The player's cash (the engine's own attribute, with no setter of its
      own) and the current hero's items. */
  datatype Purse = Purse(cash: int, items: seq<Item>)

  /** `_buy_items_menu_callback`: when the cash is short the callback sends
      a message and reopens the menu but does not return, so the purchase
      goes through anyway. The flag says whether the short-cash message was
      sent. */
  function BuyItem(p: Purse, ic: ItemClass): (r: (Purse, bool))
    ensures r.0.cash == p.cash - ic.cost
    ensures r.0.items == p.items + [Item(ic, 0)]
    ensures r.1 <==> p.cash < ic.cost
  {
    (Purse(p.cash - ic.cost, p.items + [Item(ic, 0)]), p.cash < ic.cost)
  }

  /** Buying with too little cash leaves the cash negative. */
  lemma ShortCashGoesNegative(p: Purse, ic: ItemClass)
    requires p.cash < ic.cost
    ensures BuyItem(p, ic).0.cash < 0 && |BuyItem(p, ic).0.items| == |p.items| + 1
  {
  }

  /** `_sell_items_menu_callback`: the chosen item object (position `k`)
      leaves the hero and its sell value is added to the cash. */
  function SellItem(p: Purse, k: nat): (r: Purse)
    requires k < |p.items|
    ensures |r.items| == |p.items| - 1
    ensures r.items == p.items[..k] + p.items[k + 1..]
    ensures r.cash == p.cash + ItemSellValue(p.items[k])
  {
    Purse(p.cash + ItemSellValue(p.items[k]), p.items[..k] + p.items[k + 1..])
  }

  /** Selling the item just bought restores the items and costs the part of
      the price the sell value does not give back. */
  lemma BuyThenSell(p: Purse, ic: ItemClass)
    requires ic.cost >= 0
    ensures var bought := BuyItem(p, ic).0;
            var sold := SellItem(bought, |p.items|);
            sold.items == p.items && sold.cash == p.cash - (ic.cost - ic.cost / 2)
  {
    var bought := BuyItem(p, ic).0;
    assert bought.items[..|p.items|] == p.items;
    Configs.SellValueIsHalf(ic.cost);
  }

  // ---------------------------------------------------------------------
  // Heroes
  // ---------------------------------------------------------------------

  /** The buy-heroes menu's list: registered classes not owned yet and
      usable by the player, in registry order. */
  function BuyHeroList(o: Owner, registry: seq<HeroClass>): (r: seq<HeroClass>)
    ensures Tools.Subsequence(r, registry)
  {
    if registry == [] then []
    else
      var c := registry[0];
      var keep := Tools.FindElement(o.heroes, HeroCid, c.cid).None? && !(c.allowedUsers != [] && o.steamid !in c.allowedUsers);
      var rest := BuyHeroList(o, registry[1..]);
      Tools.SubsequenceStep(keep, rest, registry);
      (if keep then [c] else []) + rest
  }

  lemma {:induction false} BuyHeroListSpec(o: Owner, registry: seq<HeroClass>, c: HeroClass)
    decreases |registry|
    ensures c in BuyHeroList(o, registry) <==>
              c in registry && !OwnsClass(o, c.cid) && (c.allowedUsers == [] || o.steamid in c.allowedUsers)
  {
    OwnsClassLookup(o, c.cid);
    if registry != [] {
      BuyHeroListSpec(o, registry[1..], c);
      var d := registry[0];
      var keep := Tools.FindElement(o.heroes, HeroCid, d.cid).None? && !(d.allowedUsers != [] && o.steamid !in d.allowedUsers);
      var rest := BuyHeroList(o, registry[1..]);
      assert BuyHeroList(o, registry) == (if keep then [d] else []) + rest;
      assert c in (if keep then [d] else []) + rest <==> (keep && c == d) || c in rest;
      assert c in registry <==> c == d || c in registry[1..] by {
        assert registry == [d] + registry[1..];
      }
    }
  }

  /** `_buy_hero`: with less gold than the cost nothing is bought, and the
      refresh reopens the hero info menu without a hero class, which raises
      on reading its name; otherwise the gold setter takes the cost, the
      hero is appended and the hero setter of this tree makes it current
      (raising, after the purchase, when there was no current hero). */
  function BuyHero(db: Db, o: Owner, cls: HeroClass): (r: Effect<(Db, Owner)>)
    ensures o.gold < cls.cost ==> r == Fail((db, o), NoHeroClassShown)
    ensures o.gold >= cls.cost && ActiveHero(o).Some? ==>
              && r.Succeeded()
              && r.state.1.gold == o.gold - cls.cost
              && |r.state.1.heroes| == |o.heroes| + 1
              && r.state.1.heroes[|o.heroes|] == NewHero(cls, o.nextUid, 0, 0)
              && r.state.1.active == Some(o.nextUid)
    ensures o.gold >= cls.cost && o.active.None? ==>
              r == Fail((db, AddHero(o.(gold := o.gold - cls.cost), cls)), NoActiveHero)
  {
    if o.gold < cls.cost then Fail((db, o), NoHeroClassShown)
    else
      match SetGold(o, o.gold - cls.cost)
      case Err(e) => Fail((db, o), e)
      case Ok(paid) =>
        var o1 := AddHero(paid, cls);
        assert Owns(o1, o.nextUid) by { assert o1.heroes[|o.heroes|].uid == o.nextUid; }
        assert ActiveHero(o).Some? ==> ActiveHero(o1).Some? by {
          if ActiveHero(o).Some? {
            var j :| 0 <= j < |o.heroes| && o.heroes[j].uid == o.active.value;
            assert o1.heroes[j].uid == o1.active.value;
          }
        }
        LegacyPlayers.LegacySetActiveHero(db, o1, o.nextUid)
  }

  /** How the two trees' purchases differ for a player with a current hero:
      with more gold than the cost both buy alike; with exactly the cost the
      herowars tree buys and the hw tree does not; with less, neither buys,
      but the herowars refresh raises. */
  lemma BuyHeroRevisionsDiffer(db: Db, o: Owner, cls: HeroClass)
    requires ActiveHero(o).Some?
    ensures o.gold > cls.cost ==> BuyHero(db, o, cls) == HwMenus.BuyHero(db, o, cls)
    ensures o.gold == cls.cost ==> BuyHero(db, o, cls).state.1.gold == 0 && HwMenus.BuyHero(db, o, cls) == Done((db, o))
    ensures o.gold < cls.cost ==>
              && BuyHero(db, o, cls).state == HwMenus.BuyHero(db, o, cls).state
              && !BuyHero(db, o, cls).Succeeded() && HwMenus.BuyHero(db, o, cls).Succeeded()
  {
    if o.gold > cls.cost {
      var o1 := AddHero(o.(gold := o.gold - cls.cost), cls);
      var j :| 0 <= j < |o.heroes| && o.heroes[j].uid == o.active.value;
      assert o1.heroes[j].uid == o1.active.value;
      LegacyPlayers.LegacyAgreesWithHw(db, o1, o.nextUid);
    }
  }

  /** `_change_hero`: the hero setter of this tree. */
  function ChangeHero(db: Db, o: Owner, uid: nat): (r: Effect<(Db, Owner)>)
    ensures !Owns(o, uid) ==> r == Fail((db, o), HeroNotOwned)
    ensures r.Succeeded() <==> Owns(o, uid) && ActiveHero(o).Some?
    ensures r.Succeeded() ==> r.state.1.active == Some(uid) && r.state.1.gold == o.gold
  {
    LegacyPlayers.LegacySetActiveHero(db, o, uid)
  }

  // ---------------------------------------------------------------------
  // Admin give
  // ---------------------------------------------------------------------

  /** The attributes the admin settings menu offers. */
  datatype Attr = ExpAttr | LevelAttr | CashAttr | GoldAttr

  /** The amounts the give menu offers. */
  const GiveAmounts: seq<int> := [1, 5, 10, 50, 100, 500, 1000, 5000, 10000]

  /** The player object carries gold (its own property) and cash (the
      engine's); exp and level live only on the hero. */
  predicate PlayerHas(a: Attr) { a == CashAttr || a == GoldAttr }
  predicate HeroHas(a: Attr) { a == ExpAttr || a == LevelAttr }

  /** The player together with its engine cash. */
  datatype Subject = Subject(owner: Owner, cash: int)

  /** `admin_give_amount_menu` then `_admin_give_amount_callback`: the hero
      is the target when the player lacks the attribute and the hero has it
      (there is no hero to have it when none is current, and the player is
      then the target); the amount is added through the target's setter. */
  function AdminGive(s: Subject, a: Attr, amount: int): (r: Effect<Subject>)
    ensures a == GoldAttr ==> (r.Succeeded() <==> s.owner.gold + amount >= 0)
    ensures a == GoldAttr && r.Succeeded() ==> r.state == s.(owner := s.owner.(gold := s.owner.gold + amount))
    ensures a == CashAttr ==> r == Done(s.(cash := s.cash + amount))
    ensures HeroHas(a) && ActiveHero(s.owner).None? ==> r == Fail(s, NoSuchAttribute)
    ensures HeroHas(a) && ActiveHero(s.owner).Some? ==>
              var h := ActiveHero(s.owner).value;
              && r.state.cash == s.cash && r.state.owner.gold == s.owner.gold
              && |r.state.owner.heroes| == |s.owner.heroes|
              && (a == LevelAttr ==> (r.Succeeded() <==> 0 <= h.level + amount && WithinMax(h.level + amount, h.cls.maxLevel)))
              && (a == ExpAttr && h.exp + amount < 0 ==> r == Fail(s, NegativeExp))
  {
    var heroHas := HeroHas(a) && ActiveHero(s.owner).Some?;
    if !PlayerHas(a) && heroHas then
      var k := IndexOf(s.owner, s.owner.active.value).value;
      var h := s.owner.heroes[k];
      var e := if a == ExpAttr then Tools.ShiftAttr(h, (x: Hero) => x.exp, HeroSetExp, amount)
               else Tools.ShiftAttr(h, (x: Hero) => x.level, HeroSetLevel, amount);
      assert s.owner.heroes[k := h] == s.owner.heroes;
      Effect(s.(owner := UpdateHero(s.owner, k, e.state)), e.fired, e.raised)
    else if a == GoldAttr then
      match Tools.ShiftAttr(s.owner, (o: Owner) => o.gold, SetGold, amount)
      case Err(err) => Fail(s, err)
      case Ok(o1) => Done(s.(owner := o1))
    else if a == CashAttr then Done(s.(cash := s.cash + amount))
    else Fail(s, NoSuchAttribute)
  }

  /** Giving levels goes through the hero level setter, so it wipes the
      hero's experience even when the new level is rejected. */
  lemma GiveLevelWipesExp(s: Subject, amount: int)
    requires ActiveHero(s.owner).Some?
    ensures var r := AdminGive(s, LevelAttr, amount);
            var k := IndexOf(s.owner, s.owner.active.value).value;
            r.state.owner.heroes[k].exp == 0
  {
  }

  /** Every amount on the menu is positive, so giving gold to a player with
      non-negative gold always succeeds and raises the gold by that amount. */
  lemma GiveGoldFromMenuSucceeds(s: Subject, i: nat)
    requires i < |GiveAmounts| && s.owner.gold >= 0
    ensures AdminGive(s, GoldAttr, GiveAmounts[i]).Succeeded()
    ensures AdminGive(s, GoldAttr, GiveAmounts[i]).state.owner.gold == s.owner.gold + GiveAmounts[i] > s.owner.gold
  {
  }
}

=== FILE: hw_menus.dfy ===
/** State changes of the hw tree's menus (`hw/menus.py`): the current-hero
    menu (reset and upgrade), the owned-heroes menu and the buy-heroes menu.
    Rendering is not modelled; a build callback is reduced to which options
    it offers and which it leaves selectable. */
module HwMenus {
  import opened Outcome
  import opened Entities
  import opened Database
  import opened Owners
  import Tools

  /** An option of the current-hero menu: the reset constant 7 or a skill. */
  datatype CurrentHeroChoice = ResetChoice | SkillChoice(i: nat)

  /** `skill.level = 0` for every skill, in order, through the level setter. */
  function {:induction false} ResetSkills(s: seq<Skill>): (r: Effect<seq<Skill>>)
    decreases |s|
    ensures |r.state| == |s| && r.fired == []
    ensures forall i :: 0 <= i < |s| ==> r.state[i].cls == s[i].cls
    ensures r.Succeeded() <==> forall i :: 0 <= i < |s| ==> s[i].cls.maxLevel >= 0
    ensures r.Succeeded() ==> forall i :: 0 <= i < |s| ==> r.state[i].level == 0
  {
    if s == [] then Done([])
    else
      match SetSkillLevel(s[0], 0)
      case Err(e) => Fail(s, e)
      case Ok(s0) =>
        var rest := ResetSkills(s[1..]);
        assert forall i :: 1 <= i < |s| ==> s[1..][i - 1] == s[i];
        Effect([s0] + rest.state, [], rest.raised)
  }

  /** The three conditions the select callback checks before an upgrade. */
  predicate Upgradable(h: Hero, i: nat)
    requires i < |h.skills|
  {
    && h.skills[i].cls.cost <= SkillPoints(h)
    && h.skills[i].cls.requiredLevel <= h.level
    && h.skills[i].level < h.skills[i].cls.maxLevel
  }

  /** `_current_hero_select_callback`: 7 resets every skill; a skill is
      raised by one level when all three conditions hold, and otherwise
      nothing changes. */
  function SelectCurrentHero(h: Hero, choice: CurrentHeroChoice): (r: Effect<Hero>)
    requires choice.SkillChoice? ==> choice.i < |h.skills|
    ensures r.state == h.(skills := r.state.skills) && |r.state.skills| == |h.skills| && r.fired == []
    ensures choice.SkillChoice? && !Upgradable(h, choice.i) ==> r == Done(h)
    ensures choice.SkillChoice? && Upgradable(h, choice.i) && h.skills[choice.i].level >= -1 ==>
              r == Done(h.(skills := h.skills[choice.i := h.skills[choice.i].(level := h.skills[choice.i].level + 1)]))
  {
    match choice
    case ResetChoice =>
      var reset := ResetSkills(h.skills);
      Effect(h.(skills := reset.state), [], reset.raised)
    case SkillChoice(i) =>
      if !Upgradable(h, i) then Done(h)
      else
        match SetSkillLevel(h.skills[i], h.skills[i].level + 1)
        case Err(e) => Fail(h, e)
        case Ok(s) => Done(h.(skills := h.skills[i := s]))
  }

  /** A completed reset gives back every point the level grants; it fails
      only on a skill class whose maximum is negative. */
  lemma ResetRestoresPoints(h: Hero)
    ensures SelectCurrentHero(h, ResetChoice).Succeeded() <==>
              forall i :: 0 <= i < |h.skills| ==> h.skills[i].cls.maxLevel >= 0
    ensures SelectCurrentHero(h, ResetChoice).Succeeded() ==>
              SkillPoints(SelectCurrentHero(h, ResetChoice).state) == h.level
  {
    var r := SelectCurrentHero(h, ResetChoice);
    if r.Succeeded() {
      SkillPointsAfterReset(r.state);
    }
  }

  /** An upgrade spends exactly the skill's cost, so the points never go
      negative. */
  lemma UpgradeSpendsCost(h: Hero, i: nat)
    requires i < |h.skills| && Upgradable(h, i) && h.skills[i].level >= -1
    ensures SkillPoints(SelectCurrentHero(h, SkillChoice(i)).state) == SkillPoints(h) - h.skills[i].cls.cost >= 0
  {
    SpentUpdate(h.skills, i, h.skills[i].level + 1);
  }

  /** `_current_hero_build_callback`, reduced to whether a skill's option is
      selectable, following its if/elif chain and the final cost check. */
  function SkillSelectable(h: Hero, i: nat): bool
    requires i < |h.skills|
  {
    var s := h.skills[i];
    var byChain := if s.level >= s.cls.maxLevel then false
                   else if s.cls.requiredLevel > h.level then false
                   else true;
    if s.cls.cost > SkillPoints(h) then false else byChain
  }

  /** The build callback offers exactly the skills the select callback would
      upgrade. */
  lemma SelectableIffUpgradable(h: Hero, i: nat)
    requires i < |h.skills|
    ensures SkillSelectable(h, i) <==> Upgradable(h, i)
  {
  }

  /** `_owned_heroes_build_callback`, reduced to the selectable flags: every
      owned hero whose class differs from the current hero's class. The
      current hero is read only inside the loop over the owned heroes, so
      with no heroes the menu is simply empty; with heroes but no current
      hero the callback raises. */
  function OwnedSelectable(o: Owner): (r: Result<seq<bool>>)
    ensures o.heroes == [] ==> r == Ok([])
    ensures o.heroes != [] && ActiveHero(o).None? <==> r == Err(NoActiveHero)
    ensures r.Ok? ==> |r.value| == |o.heroes|
    ensures r.Ok? && o.heroes != [] ==> forall i :: 0 <= i < |o.heroes| ==>
              (r.value[i] <==> o.heroes[i].cls.cid != ActiveHero(o).value.cls.cid)
  {
    if o.heroes == [] then Ok([])
    else
      match ActiveHero(o)
      case None => Err(NoActiveHero)
      case Some(a) => Ok(seq(|o.heroes|, i requires 0 <= i < |o.heroes| => o.heroes[i].cls.cid != a.cls.cid))
  }

  /** The current hero is never selectable in the owned list. */
  lemma CurrentHeroNotSelectable(o: Owner)
    requires ActiveHero(o).Some?
    ensures exists i :: 0 <= i < |o.heroes| && o.heroes[i] == ActiveHero(o).value && !OwnedSelectable(o).value[i]
  {
    var i :| 0 <= i < |o.heroes| && o.heroes[i] == ActiveHero(o).value;
  }

  /** `_owned_heroes_select_callback`: the hero setter. */
  function SelectOwnedHero(db: Db, o: Owner, uid: nat): (r: Effect<(Db, Owner)>)
    ensures Owns(o, uid) <==> r.Succeeded()
    ensures r.Succeeded() ==> r.state.1.active == Some(uid) && r.state.1.gold == o.gold
  {
    SetActiveHero(db, o, uid)
  }

  /** `_buy_heroes_build_callback`: the registered classes not owned yet, in
      registry order, each enabled when its cost is at most the gold. */
  datatype Offer = Offer(cls: HeroClass, enabled: bool)

  /** The classes a list of offers is for, in order. */
  function OfferedClasses(offers: seq<Offer>): (r: seq<HeroClass>)
    ensures |r| == |offers| && forall k :: 0 <= k < |offers| ==> r[k] == offers[k].cls
  {
    seq(|offers|, k requires 0 <= k < |offers| => offers[k].cls)
  }

  function BuyHeroOffers(o: Owner, registry: seq<HeroClass>): (r: seq<Offer>)
    ensures Tools.Subsequence(OfferedClasses(r), registry)
  {
    if registry == [] then []
    else
      var c := registry[0];
      var owned := Tools.FindElement(o.heroes, HeroCid, c.cid).Some?;
      var head := if owned then [] else [Offer(c, c.cost <= o.gold)];
      var rest := BuyHeroOffers(o, registry[1..]);
      assert OfferedClasses(head + rest) == (if owned then [] else [c]) + OfferedClasses(rest);
      Tools.SubsequenceStep(!owned, OfferedClasses(rest), registry);
      head + rest
  }

  /** One step of the offer list: the head class is offered, enabled when
      affordable, exactly when it is not owned. */
  lemma BuyHeroOffersStep(o: Owner, registry: seq<HeroClass>)
    requires registry != []
    ensures BuyHeroOffers(o, registry) ==
              (if OwnsClass(o, registry[0].cid) then [] else [Offer(registry[0], registry[0].cost <= o.gold)])
              + BuyHeroOffers(o, registry[1..])
  {
    OwnsClassLookup(o, registry[0].cid);
  }

  /** `offers` lists registered classes the owner does not have, each
      enabled exactly when affordable, and every such class is listed. */
  predicate OffersMatch(o: Owner, registry: seq<HeroClass>, offers: seq<Offer>)
  {
    && (forall k :: 0 <= k < |offers| ==> offers[k].cls in registry && !OwnsClass(o, offers[k].cls.cid))
    && (forall k :: 0 <= k < |offers| ==> (offers[k].enabled <==> offers[k].cls.cost <= o.gold))
    && (forall c :: c in registry && !OwnsClass(o, c.cid) ==> exists k :: 0 <= k < |offers| && offers[k].cls == c)
  }

  /** The offers are exactly the registered classes the owner does not have
      yet, each enabled exactly when affordable. */
  lemma {:induction false} BuyHeroOffersSpec(o: Owner, registry: seq<HeroClass>)
    ensures OffersMatch(o, registry, BuyHeroOffers(o, registry))
    decreases |registry|
  {
    if registry != [] {
      BuyHeroOffersSpec(o, registry[1..]);
      BuyHeroOffersStep(o, registry);
      OffersCons(o, registry[0], registry[1..], BuyHeroOffers(o, registry[1..]));
      assert [registry[0]] + registry[1..] == registry;
    }
  }

  /** The match carries over from the tail's offers to the whole list when
      the head class is offered exactly when not owned. */
  lemma OffersCons(o: Owner, c: HeroClass, tail: seq<HeroClass>, rest: seq<Offer>)
    requires OffersMatch(o, tail, rest)
    ensures OffersMatch(o, [c] + tail, (if OwnsClass(o, c.cid) then [] else [Offer(c, c.cost <= o.gold)]) + rest)
  {
    var head := if OwnsClass(o, c.cid) then [] else [Offer(c, c.cost <= o.gold)];
    var r := head + rest;
    var all := [c] + tail;
    forall k | 0 <= k < |r|
      ensures r[k].cls in all && !OwnsClass(o, r[k].cls.cid)
      ensures r[k].enabled <==> r[k].cls.cost <= o.gold
    {
      if k < |head| {
        assert r[k] == Offer(c, c.cost <= o.gold) && all[0] == c;
      } else {
        assert r[k] == rest[k - |head|];
        assert rest[k - |head|].cls in tail;
        var j :| 0 <= j < |tail| && tail[j] == r[k].cls;
        assert all[j + 1] == r[k].cls;
      }
    }
    forall d | d in all && !OwnsClass(o, d.cid)
      ensures exists k :: 0 <= k < |r| && r[k].cls == d
    {
      if d == c {
        assert r[0].cls == d;
      } else {
        assert d in tail by { var j :| 0 <= j < |all| && all[j] == d; assert j != 0 && tail[j - 1] == d; }
        var k :| 0 <= k < |rest| && rest[k].cls == d;
        assert r[|head| + k].cls == d;
      }
    }
  }

  /** `_buy_heroes_select_callback`: with more gold than the cost (strictly)
      a fresh hero is bought, paid for, appended and made current through the
      setter; otherwise nothing happens. */
  function BuyHero(db: Db, o: Owner, cls: HeroClass): (r: Effect<(Db, Owner)>)
    ensures o.gold <= cls.cost ==> r == Done((db, o))
    ensures o.gold > cls.cost ==>
              && r.Succeeded()
              && r.state.1.gold == o.gold - cls.cost
              && |r.state.1.heroes| == |o.heroes| + 1
              && r.state.1.heroes[|o.heroes|] == NewHero(cls, o.nextUid, 0, 0)
              && r.state.1.active == Some(o.nextUid)
    ensures WellFormed(o) ==> WellFormed(r.state.1)
  {
    if o.gold <= cls.cost then Done((db, o))
    else
      match SetGold(o, o.gold - cls.cost)
      case Err(e) => Fail((db, o), e)
      case Ok(paid) =>
        var o1 := AddHero(paid, cls);
        assert Owns(o1, o.nextUid) by { assert o1.heroes[|o.heroes|].uid == o.nextUid; }
        SetActiveHeroKeepsHeroes(db, o1, o.nextUid);
        SetActiveHeroKeepsWellFormed(db, o1, o.nextUid);
        SetActiveHero(db, o1, o.nextUid)
  }

  /** An offer enabled with exactly the cost in gold is selectable but buys
      nothing. */
  lemma ExactGoldBuysNothing(db: Db, o: Owner, cls: HeroClass)
    requires o.gold == cls.cost
    ensures Offer(cls, cls.cost <= o.gold).enabled
    ensures BuyHero(db, o, cls) == Done((db, o))
  {
  }
}

=== FILE: legacy_players.dfy ===
/** The oldest player registry (`herowars/player.py`): a global list of
    players searched by userid, created on connect and removed (after a
    save) on disconnect, with its own hero setter. */
module LegacyPlayers {
  import opened Outcome
  import opened Entities
  import opened Database
  import opened Owners
  import Tools

  datatype LegacyPlayer = LegacyPlayer(userid: int, owner: Owner)

  function UserId(p: LegacyPlayer): int { p.userid }

  /** `get_player`: the first registered player with the userid, or none. */
  function GetPlayer(players: seq<LegacyPlayer>, userid: int): (r: Option<LegacyPlayer>)
    ensures r.Some? ==> r.value in players && r.value.userid == userid
    ensures r.None? <==> forall i :: 0 <= i < |players| ==> players[i].userid != userid
  {
    Tools.FindElement(players, UserId, userid)
  }

  /** `create_player`. The record loaded from the database is a parameter
      (the loader of this revision lives in a module that is not part of
      this model). Starting heroes are granted, then the first hero is made
      current directly, without the setter, when there is no current hero. */
  function CreatePlayer(players: seq<LegacyPlayer>, userid: int, loaded: Owner,
                        registry: seq<HeroClass>, starting: seq<string>): (r: (seq<LegacyPlayer>, LegacyPlayer))
    ensures r.0 == players + [r.1] && r.1.userid == userid
    ensures r.1.owner == GrantStartingHeroes(loaded, registry, starting).(active := r.1.owner.active)
    ensures loaded.active.Some? ==> r.1.owner.active == loaded.active
    ensures loaded.active.None? && |r.1.owner.heroes| > 0 ==> r.1.owner.active == Some(r.1.owner.heroes[0].uid)
    ensures loaded.active.None? && |r.1.owner.heroes| == 0 ==> r.1.owner.active.None?
    ensures WellFormed(loaded) ==> WellFormed(r.1.owner)
  {
    var granted := GrantStartingHeroes(loaded, registry, starting);
    var o := if granted.active.None? && |granted.heroes| > 0
             then granted.(active := Some(granted.heroes[0].uid)) else granted;
    assert WellFormed(granted) && |granted.heroes| > 0 ==> Owns(granted, granted.heroes[0].uid);
    var p := LegacyPlayer(userid, o);
    (players + [p], p)
  }

  /** A created player owns every resolvable starting hero. */
  lemma CreatePlayerGrants(players: seq<LegacyPlayer>, userid: int, loaded: Owner,
                           registry: seq<HeroClass>, starting: seq<string>, c: string)
    requires c in starting && Resolves(registry, c)
    ensures OwnsClass(CreatePlayer(players, userid, loaded, registry, starting).1.owner, c)
  {
    GrantOwnsStarting(loaded, registry, starting);
  }

  function RemoveAt<T>(xs: seq<T>, i: nat): (r: seq<T>)
    requires i < |xs|
    ensures |r| == |xs| - 1
    ensures forall j :: 0 <= j < i ==> r[j] == xs[j]
    ensures forall j :: i <= j < |r| ==> r[j] == xs[j + 1]
  {
    xs[..i] + xs[i + 1..]
  }

  /** `remove_player`: an unknown userid changes nothing; otherwise the
      player is saved (which fails without a current hero) and the first
      player with that userid leaves the list. */
  function RemovePlayer(db: Db, players: seq<LegacyPlayer>, userid: int): (r: Effect<(Db, seq<LegacyPlayer>)>)
    ensures GetPlayer(players, userid).None? ==> r == Done((db, players))
    ensures GetPlayer(players, userid).Some? && ActiveHero(GetPlayer(players, userid).value.owner).None? ==>
              r == Fail((db, players), NoActiveHero)
    ensures r.Succeeded() && GetPlayer(players, userid).Some? ==>
              var p := GetPlayer(players, userid).value;
              && Ok(r.state.0) == SavePlayerData(db, p.owner.steamid, p.owner.gold, ActiveHero(p.owner))
              && |r.state.1| == |players| - 1
              && (forall q :: q in r.state.1 ==> q in players)
              && GetPlayer(r.state.1, userid) == GetPlayer(players[Tools.FindIndex(players, UserId, userid).value + 1..], userid)
  {
    match Tools.FindIndex(players, UserId, userid)
    case None => Done((db, players))
    case Some(i) =>
      var p := players[i];
      match SavePlayerData(db, p.owner.steamid, p.owner.gold, ActiveHero(p.owner))
      case Err(e) => Fail((db, players), e)
      case Ok(db1) =>
        var rest := RemoveAt(players, i);
        assert rest == players[..i] + players[i + 1..];
        assert forall j :: 0 <= j < i ==> players[j].userid != userid;
        RemoveFirstMatch(players[..i], players[i + 1..], userid);
        Done((db1, rest))
  }

  lemma RemoveFirstMatch(before: seq<LegacyPlayer>, after: seq<LegacyPlayer>, userid: int)
    requires forall j :: 0 <= j < |before| ==> before[j].userid != userid
    ensures GetPlayer(before + after, userid) == GetPlayer(after, userid)
  {
    Tools.FindElementSkip(before, after, UserId, userid);
  }

  /** The hero setter of this revision: ownership is checked, then the
      current hero's temporary items are dropped (with the skipping loop)
      before it is saved, then the new hero becomes current. Without a
      current hero it raises (`None.items`) after the ownership check. */
  function LegacySetActiveHero(db: Db, o: Owner, uid: nat): (r: Effect<(Db, Owner)>)
    ensures !Owns(o, uid) ==> r == Fail((db, o), HeroNotOwned)
    ensures Owns(o, uid) && ActiveHero(o).None? ==> r == Fail((db, o), NoActiveHero)
    ensures Owns(o, uid) && ActiveHero(o).Some? ==>
              var k := IndexOf(o, o.active.value).value;
              var outgoing := o.heroes[k].(items := DropTemporaryItems(o.heroes[k].items));
              r == Done((SaveHeroData(db, o.steamid, outgoing), o.(heroes := o.heroes[k := outgoing], active := Some(uid))))
  {
    if IndexOf(o, uid).None? then Fail((db, o), HeroNotOwned)
    else
      var current := if o.active.Some? then IndexOf(o, o.active.value) else None;
      match current
      case None => Fail((db, o), NoActiveHero)
      case Some(k) =>
        var outgoing := o.heroes[k].(items := DropTemporaryItems(o.heroes[k].items));
        Done((SaveHeroData(db, o.steamid, outgoing), o.(heroes := o.heroes[k := outgoing], active := Some(uid))))
  }

  /** Saving never looks at items, so dropping them before rather than after
      the save gives the same result as the hw setter whenever a current
      hero exists. */
  lemma LegacyAgreesWithHw(db: Db, o: Owner, uid: nat)
    requires ActiveHero(o).Some?
    ensures LegacySetActiveHero(db, o, uid) == SetActiveHero(db, o, uid)
  {
    if Owns(o, uid) {
      var k := IndexOf(o, o.active.value).value;
      var outgoing := o.heroes[k].(items := DropTemporaryItems(o.heroes[k].items));
      SaveSkipsItems(db, o.steamid, o.heroes[k], outgoing.items);
    }
  }

  lemma SaveSkipsItems(db: Db, steamid: string, h: Hero, items: seq<Item>)
    ensures SaveHeroData(db, steamid, h.(items := items)) == SaveHeroData(db, steamid, h)
  {
  }
}

=== FILE: outcome.dfy ===
/** Shared result types: optional values, the errors the Python code raises,
    and the outcome of a mutating call (the state it left behind, the level-up
    notices it fired and the exception it raised, if any). */
module Outcome {

  datatype Option<+T> = None | Some(value: T)

  /** The exceptions raised by the modelled code, one constructor per cause. */
  datatype Error =
    | NegativeLevel          // ValueError from the entity level setter
    | LevelAboveMax          // ValueError from the entity level setter
    | NegativeExp            // ValueError from the hero exp setter
    | NegativeGold           // ValueError from the gold setters
    | HeroNotOwned           // ValueError from the hero setters
    | NoActiveHero           // AttributeError: attribute read on `None` hero
    | UnorderedMaxLevel      // TypeError: an int compared with a `None` max_level
    | NoMaxAttribute         // AttributeError: `hero.max` does not exist
    | EmptyHeroList          // IndexError: `heroes[0]` on an empty list
    | TeamIndexOutOfRange    // IndexError from the team label list
    | UnknownTeamLabel       // ValueError from `list.index`
    | NoSuchAttribute        // AttributeError: getattr of an attribute the object lacks
    | NoHeroClassShown       // AttributeError: the hero info menu reads `.name` of a `None` class
    | NoHeroClasses          // NotImplementedError at plugin load
    | NoStartingHeroes       // NotImplementedError at plugin load
    | InvalidStartingHero(cid: string)  // ValueError at plugin load
    | NoLanguage             // KeyError: neither language dict exists
    | NoSubDict(name: string)           // KeyError: unknown translation sub dict
    | NoSuchMenu(name: string)          // KeyError: the menus dict has no such key

  datatype Result<+T> = Ok(value: T) | Err(error: Error)

  /** The notice `Hero_Pre_Level_Up(cid, id)` a hero fires on level changes. */
  datatype Notice = LevelUpNotice(cid: string, uid: nat)

  /** What a mutating call leaves behind: the state (also after a raise, since
      Python keeps every assignment made before the exception), the notices
      fired in order, and the exception that escaped, if any. */
  datatype Effect<+S> = Effect(state: S, fired: seq<Notice>, raised: Option<Error>) {
    predicate Succeeded() { raised.None? }
  }

  function Done<S>(s: S): Effect<S> { Effect(s, [], None) }

  function Fail<S>(s: S, e: Error): Effect<S> { Effect(s, [], Some(e)) }
}

=== FILE: owners.dfy ===
/** The record every player revision keeps — gold, owned heroes, the current
    hero — with the rules the revisions share: the gold setter, the hero
    setter of the hw tree, the starting-hero grant and `load_player_data`. */
module Owners {
  import opened Outcome
  import opened Entities
  import opened Database
  import Tools

  /** A player's progression record. The current hero is named by its
      instance identity, so it always is the very hero object in `heroes`. */
  datatype Owner = Owner(steamid: string, gold: int, heroes: seq<Hero>, active: Option<nat>, nextUid: nat)

  /** A record as the revisions create it: no gold, no heroes, no current hero. */
  function NewOwner(steamid: string): Owner
  {
    Owner(steamid, 0, [], None, 0)
  }

  function HeroUid(h: Hero): nat { h.uid }

  predicate Owns(o: Owner, uid: nat)
  {
    exists i :: 0 <= i < |o.heroes| && o.heroes[i].uid == uid
  }

  predicate OwnsClass(o: Owner, cid: string)
  {
    exists i :: 0 <= i < |o.heroes| && o.heroes[i].cls.cid == cid
  }

  /** Identities are distinct and below the next one handed out; the current
      hero is owned. */
  predicate WellFormed(o: Owner)
  {
    && (forall i, j :: 0 <= i < j < |o.heroes| ==> o.heroes[i].uid != o.heroes[j].uid)
    && (forall i :: 0 <= i < |o.heroes| ==> o.heroes[i].uid < o.nextUid)
    && (o.active.Some? ==> Owns(o, o.active.value))
  }

  /** Position of the owned hero with identity `uid`. */
  function IndexOf(o: Owner, uid: nat): (r: Option<nat>)
    ensures r.Some? ==> r.value < |o.heroes| && o.heroes[r.value].uid == uid
    ensures r.None? <==> !Owns(o, uid)
  {
    Tools.FindIndex(o.heroes, HeroUid, uid)
  }

  /** The current hero (`player.hero`), if any. */
  function ActiveHero(o: Owner): (r: Option<Hero>)
    ensures o.active.None? ==> r.None?
    ensures r.Some? ==> r.value in o.heroes && Some(r.value.uid) == o.active
    ensures o.active.Some? && Owns(o, o.active.value) ==> r.Some?
  {
    if o.active.None? then None
    else match IndexOf(o, o.active.value)
      case Some(i) => Some(o.heroes[i])
      case None => None
  }

  /** The gold setter, identical in all four revisions: negative gold is
      rejected and the stored gold is kept. */
  function SetGold(o: Owner, gold: int): (r: Result<Owner>)
    ensures r.Ok? <==> gold >= 0
    ensures gold < 0 ==> r == Err(NegativeGold)
    ensures r.Ok? ==> r.value == o.(gold := gold)
  {
    if gold < 0 then Err(NegativeGold) else Ok(o.(gold := gold))
  }

  /** `shiftattr(player, 'gold', shift)` goes through the setter: it succeeds
      exactly when the sum stays non-negative, so gold never drops below 0. */
  lemma ShiftGold(o: Owner, shift: int)
    ensures var r := Tools.ShiftAttr(o, (x: Owner) => x.gold, SetGold, shift);
            (r.Ok? <==> o.gold + shift >= 0) && (r.Ok? ==> r.value.gold == o.gold + shift && r.value.heroes == o.heroes)
  {
  }

  /** `heroes.append(hero_cls())`: a fresh hero at level 0 with a new identity. */
  function AddHero(o: Owner, cls: HeroClass): (r: Owner)
    ensures r.heroes == o.heroes + [NewHero(cls, o.nextUid, 0, 0)]
    ensures r.nextUid == o.nextUid + 1
    ensures r.steamid == o.steamid && r.gold == o.gold && r.active == o.active
    ensures WellFormed(o) ==> WellFormed(r)
  {
    var r := o.(heroes := o.heroes + [NewHero(cls, o.nextUid, 0, 0)], nextUid := o.nextUid + 1);
    assert forall uid :: Owns(o, uid) ==> Owns(r, uid) by {
      forall uid | Owns(o, uid) ensures Owns(r, uid) {
        var i :| 0 <= i < |o.heroes| && o.heroes[i].uid == uid;
        assert r.heroes[i] == o.heroes[i];
      }
    }
    r
  }

  /** Replace the owned hero at position `i`, keeping its identity. */
  function UpdateHero(o: Owner, i: nat, h: Hero): (r: Owner)
    requires i < |o.heroes| && h.uid == o.heroes[i].uid
    ensures r.heroes == o.heroes[i := h]
    ensures r.steamid == o.steamid && r.gold == o.gold && r.active == o.active && r.nextUid == o.nextUid
    ensures WellFormed(o) ==> WellFormed(r)
  {
    var r := o.(heroes := o.heroes[i := h]);
    assert forall uid :: Owns(o, uid) ==> Owns(r, uid) by {
      forall uid | Owns(o, uid) ensures Owns(r, uid) {
        var j :| 0 <= j < |o.heroes| && o.heroes[j].uid == uid;
        assert r.heroes[j].uid == uid;
      }
    }
    r
  }

  /** The hero setter of the hw tree (`hw/player.py`, `hw/players.py`,
      `hw/users.py`): the hero must be owned; if a current hero exists it is
      saved first and then loses its temporary items (with the skipping
      loop); then the new hero becomes current. Switching to the current
      hero itself still saves it and drops its items. */
  function SetActiveHero(db: Db, o: Owner, uid: nat): (r: Effect<(Db, Owner)>)
    ensures !Owns(o, uid) ==> r == Fail((db, o), HeroNotOwned)
    ensures Owns(o, uid) ==> r.Succeeded() && r.fired == []
    ensures Owns(o, uid) ==> r.state.1 == o.(heroes := r.state.1.heroes, active := Some(uid))
    ensures Owns(o, uid) && ActiveHero(o).None? ==> r.state == (db, o.(active := Some(uid)))
    ensures Owns(o, uid) && ActiveHero(o).Some? ==>
              var k := IndexOf(o, o.active.value).value;
              && r.state.0 == SaveHeroData(db, o.steamid, o.heroes[k])
              && r.state.1.heroes == o.heroes[k := o.heroes[k].(items := DropTemporaryItems(o.heroes[k].items))]
  {
    if IndexOf(o, uid).None? then Fail((db, o), HeroNotOwned)
    else
      var current := if o.active.Some? then IndexOf(o, o.active.value) else None;
      match current
      case None => Done((db, o.(active := Some(uid))))
      case Some(k) =>
        var outgoing := o.heroes[k];
        var db1 := SaveHeroData(db, o.steamid, outgoing);
        var heroes := o.heroes[k := outgoing.(items := DropTemporaryItems(outgoing.items))];
        Done((db1, o.(heroes := heroes, active := Some(uid))))
  }

  /** A switch keeps every hero's class, identity, level and skills, and
      changes only the outgoing hero's items... */
  lemma SetActiveHeroKeepsHeroes(db: Db, o: Owner, uid: nat)
    ensures var hs := SetActiveHero(db, o, uid).state.1.heroes;
            |hs| == |o.heroes| && forall i :: 0 <= i < |hs| ==> hs[i] == o.heroes[i].(items := hs[i].items)
  {
  }

  /** ...and keeps the record well formed. */
  lemma SetActiveHeroKeepsWellFormed(db: Db, o: Owner, uid: nat)
    ensures WellFormed(o) ==> WellFormed(SetActiveHero(db, o, uid).state.1)
  {
    var r := SetActiveHero(db, o, uid).state.1;
    SetActiveHeroKeepsHeroes(db, o, uid);
    if WellFormed(o) && Owns(o, uid) {
      var j :| 0 <= j < |o.heroes| && o.heroes[j].uid == uid;
      assert r.heroes[j].uid == uid;
    }
  }

  /** Permanent items always survive a switch. */
  lemma SwitchKeepsPermanentItems(db: Db, o: Owner, uid: nat, i: nat, x: Item)
    requires i < |o.heroes| && x in o.heroes[i].items && x.cls.permanent
    ensures i < |SetActiveHero(db, o, uid).state.1.heroes|
    ensures x in SetActiveHero(db, o, uid).state.1.heroes[i].items
  {
    DropTemporaryItemsKeeps(o.heroes[i].items);
  }

  /** The starting class id resolves to a registered hero class. */
  predicate Resolves(registry: seq<HeroClass>, c: string)
  {
    Tools.FindElement(registry, ClassCid, c).Some?
  }

  lemma OwnsClassLookup(o: Owner, c: string)
    ensures OwnsClass(o, c) <==> Tools.FindElement(o.heroes, HeroCid, c).Some?
  {
  }

  lemma PrefixOwns(o: Owner, r: Owner)
    requires o.heroes <= r.heroes
    ensures forall c :: OwnsClass(o, c) ==> OwnsClass(r, c)
    ensures forall u :: Owns(o, u) ==> Owns(r, u)
  {
    forall c | OwnsClass(o, c) ensures OwnsClass(r, c) {
      var i :| 0 <= i < |o.heroes| && o.heroes[i].cls.cid == c;
      assert r.heroes[i] == o.heroes[i];
    }
    forall u | Owns(o, u) ensures Owns(r, u) {
      var i :| 0 <= i < |o.heroes| && o.heroes[i].uid == u;
      assert r.heroes[i] == o.heroes[i];
    }
  }

  /** One step of the grant: append a fresh hero of class `c` when the class
      exists and no hero of that class is owned. */
  function GrantOne(o: Owner, registry: seq<HeroClass>, c: string): (r: Owner)
    ensures o.heroes <= r.heroes && r == o.(heroes := r.heroes, nextUid := r.nextUid)
    ensures OwnsClass(r, c) <==> OwnsClass(o, c) || Resolves(registry, c)
    ensures r != o <==> Resolves(registry, c) && !OwnsClass(o, c)
    ensures r != o ==> r == AddHero(o, Tools.FindElement(registry, ClassCid, c).value)
    ensures WellFormed(o) ==> WellFormed(r)
  {
    OwnsClassLookup(o, c);
    var cls := Tools.FindElement(registry, ClassCid, c);
    if cls.Some? && Tools.FindElement(o.heroes, HeroCid, c).None? then
      var r := AddHero(o, cls.value);
      assert r.heroes[|o.heroes|].cls.cid == c;
      assert r.heroes != o.heroes;
      PrefixOwns(o, r);
      r
    else o
  }

  /** The starting-hero grant, for each configured class id in order. */
  function {:induction false} GrantStartingHeroes(o: Owner, registry: seq<HeroClass>, starting: seq<string>): (r: Owner)
    decreases |starting|
    ensures o.heroes <= r.heroes && r == o.(heroes := r.heroes, nextUid := r.nextUid)
    ensures WellFormed(o) ==> WellFormed(r)
  {
    if starting == [] then o
    else GrantStartingHeroes(GrantOne(o, registry, starting[0]), registry, starting[1..])
  }

  /** Every resolvable starting class is owned after the grant. */
  lemma {:induction false} GrantOwnsStarting(o: Owner, registry: seq<HeroClass>, starting: seq<string>)
    ensures forall c :: c in starting && Resolves(registry, c) ==> OwnsClass(GrantStartingHeroes(o, registry, starting), c)
    decreases |starting|
  {
    if starting != [] {
      var o1 := GrantOne(o, registry, starting[0]);
      GrantOwnsStarting(o1, registry, starting[1..]);
      PrefixOwns(o1, GrantStartingHeroes(o1, registry, starting[1..]));
    }
  }

  /** Every hero the grant adds is a fresh instance of a resolvable starting
      class that was not owned before. */
  lemma {:induction false} GrantAddsOnlyStarting(o: Owner, registry: seq<HeroClass>, starting: seq<string>, i: nat)
    requires |o.heroes| <= i < |GrantStartingHeroes(o, registry, starting).heroes|
    ensures var h := GrantStartingHeroes(o, registry, starting).heroes[i];
            && h.cls.cid in starting && !OwnsClass(o, h.cls.cid)
            && Tools.FindElement(registry, ClassCid, h.cls.cid) == Some(h.cls)
            && h.level == 0 && h.exp == 0 && h.items == []
    decreases |starting|
  {
    var c := starting[0];
    var o1 := GrantOne(o, registry, c);
    var r := GrantStartingHeroes(o1, registry, starting[1..]);
    if i < |o1.heroes| {
      assert r.heroes[i] == o1.heroes[i];
      assert o1 != o;
      assert o1.heroes[i].cls.cid == c;
    } else {
      GrantAddsOnlyStarting(o1, registry, starting[1..], i);
      PrefixOwns(o, o1);
    }
  }

  /** Once every resolvable starting class is owned, a grant adds nothing. */
  lemma {:induction false} GrantIsNoopWhenOwned(o: Owner, registry: seq<HeroClass>, starting: seq<string>)
    requires forall c :: c in starting && Resolves(registry, c) ==> OwnsClass(o, c)
    ensures GrantStartingHeroes(o, registry, starting) == o
    decreases |starting|
  {
    if starting != [] {
      assert GrantOne(o, registry, starting[0]) == o;
      GrantIsNoopWhenOwned(o, registry, starting[1..]);
    }
  }

  /** The grant is idempotent. */
  lemma GrantIdempotent(o: Owner, registry: seq<HeroClass>, starting: seq<string>)
    ensures var once := GrantStartingHeroes(o, registry, starting);
            GrantStartingHeroes(once, registry, starting) == once
  {
    GrantOwnsStarting(o, registry, starting);
    GrantIsNoopWhenOwned(GrantStartingHeroes(o, registry, starting), registry, starting);
  }

  /** No two owned heroes share a class. */
  predicate DistinctClasses(o: Owner)
  {
    forall i, j :: 0 <= i < j < |o.heroes| ==> o.heroes[i].cls.cid != o.heroes[j].cls.cid
  }

  /** The grant never gives a second hero of an owned class. */
  lemma {:induction false} GrantKeepsClassesDistinct(o: Owner, registry: seq<HeroClass>, starting: seq<string>)
    requires DistinctClasses(o)
    ensures DistinctClasses(GrantStartingHeroes(o, registry, starting))
    decreases |starting|
  {
    if starting != [] {
      var o1 := GrantOne(o, registry, starting[0]);
      if o1 != o {
        assert o1.heroes[|o.heroes|].cls.cid == starting[0];
        forall i | 0 <= i < |o.heroes| ensures o.heroes[i].cls.cid != starting[0] {
          if o.heroes[i].cls.cid == starting[0] { assert OwnsClass(o, starting[0]); }
        }
      }
      GrantKeepsClassesDistinct(o1, registry, starting[1..]);
    }
  }

  /** The class ids a grant adds, in configured order: each starting id
      that resolves and is neither among `owned` nor granted earlier. */
  function FreshStarting(registry: seq<HeroClass>, owned: seq<string>, starting: seq<string>): (r: seq<string>)
    decreases |starting|
  {
    if starting == [] then []
    else
      var c := starting[0];
      if Resolves(registry, c) && c !in owned then [c] + FreshStarting(registry, owned + [c], starting[1..])
      else FreshStarting(registry, owned, starting[1..])
  }

  /** The fresh ids are exactly the resolvable starting ids not owned. */
  lemma {:induction false} FreshStartingMembers(registry: seq<HeroClass>, owned: seq<string>, starting: seq<string>, c: string)
    ensures c in FreshStarting(registry, owned, starting) <==> c in starting && Resolves(registry, c) && c !in owned
    decreases |starting|
  {
    if starting != [] {
      var d := starting[0];
      if Resolves(registry, d) && d !in owned {
        FreshStartingMembers(registry, owned + [d], starting[1..], c);
      } else {
        FreshStartingMembers(registry, owned, starting[1..], c);
      }
      assert starting == [d] + starting[1..];
    }
  }

  /** With nothing owned, the first fresh id is the first starting id that
      resolves. */
  lemma {:induction false} FreshStartingHead(registry: seq<HeroClass>, starting: seq<string>, j: nat)
    requires j < |starting| && Resolves(registry, starting[j])
    requires forall k :: 0 <= k < j ==> !Resolves(registry, starting[k])
    ensures FreshStarting(registry, [], starting) != []
    ensures FreshStarting(registry, [], starting)[0] == starting[j]
    decreases j
  {
    if j > 0 {
      assert !Resolves(registry, starting[0]);
      FreshStartingHead(registry, starting[1..], j - 1);
    }
  }

  lemma OwnsClassCids(o: Owner, c: string)
    ensures OwnsClass(o, c) <==> c in Cids(o.heroes)
  {
    if OwnsClass(o, c) {
      var i :| 0 <= i < |o.heroes| && o.heroes[i].cls.cid == c;
      assert Cids(o.heroes)[i] == c;
    }
  }

  /** The grant appends one hero per fresh starting id, in configured order. */
  lemma {:induction false} GrantOrder(o: Owner, registry: seq<HeroClass>, starting: seq<string>)
    ensures Cids(GrantStartingHeroes(o, registry, starting).heroes)
            == Cids(o.heroes) + FreshStarting(registry, Cids(o.heroes), starting)
    decreases |starting|
  {
    if starting != [] {
      var c := starting[0];
      var o1 := GrantOne(o, registry, c);
      GrantOrder(o1, registry, starting[1..]);
      OwnsClassCids(o, c);
      if o1 != o {
        var cls := Tools.FindElement(registry, ClassCid, c).value;
        assert o1.heroes == o.heroes + [NewHero(cls, o.nextUid, 0, 0)];
        assert Cids(o1.heroes) == Cids(o.heroes) + [c];
      }
    }
  }

  /** A new player's first hero is of the first resolvable starting class. */
  lemma FirstGrantedHero(steamid: string, registry: seq<HeroClass>, starting: seq<string>, j: nat)
    requires j < |starting| && Resolves(registry, starting[j])
    requires forall k :: 0 <= k < j ==> !Resolves(registry, starting[k])
    ensures var g := GrantStartingHeroes(NewOwner(steamid), registry, starting);
            |g.heroes| > 0 && g.heroes[0].cls.cid == starting[j]
  {
    var g := GrantStartingHeroes(NewOwner(steamid), registry, starting);
    GrantOrder(NewOwner(steamid), registry, starting);
    assert Cids(NewOwner(steamid).heroes) == [];
    FreshStartingHead(registry, starting, j);
    assert Cids(g.heroes)[0] == starting[j];
  }

  // ---------------------------------------------------------------------
  // load_player_data
  // ---------------------------------------------------------------------

  /** A hero row as `fetchall` returns it: class id, level, exp. */
  datatype FetchedRow = FetchedRow(cid: string, row: HeroRow)

  /** The class ids of the fetched rows whose class is registered, in order. */
  function RegisteredCids(registry: seq<HeroClass>, rows: seq<FetchedRow>): (r: seq<string>)
    ensures forall c :: c in r ==> Resolves(registry, c) && exists i :: 0 <= i < |rows| && rows[i].cid == c
    ensures forall i :: 0 <= i < |rows| && Resolves(registry, rows[i].cid) ==> rows[i].cid in r
  {
    if rows == [] then []
    else
      var rest := RegisteredCids(registry, rows[1..]);
      assert forall i :: 1 <= i < |rows| ==> rows[1..][i - 1] == rows[i];
      assert forall c :: c in rest ==> exists i :: 0 <= i < |rows| && rows[i].cid == c by {
        forall c | c in rest ensures exists i :: 0 <= i < |rows| && rows[i].cid == c {
          var i :| 0 <= i < |rows[1..]| && rows[1..][i].cid == c;
          assert rows[i + 1].cid == c;
        }
      }
      (if Resolves(registry, rows[0].cid) then [rows[0].cid] else []) + rest
  }

  function Cids(hs: seq<Hero>): (r: seq<string>)
    ensures |r| == |hs| && forall i :: 0 <= i < |hs| ==> r[i] == hs[i].cls.cid
  {
    seq(|hs|, i requires 0 <= i < |hs| => hs[i].cls.cid)
  }

  /** `b` holds the heroes of `a`, item lists aside, followed by others. */
  predicate ExtendsUpToItems(a: seq<Hero>, b: seq<Hero>)
  {
    |a| <= |b| && forall i :: 0 <= i < |a| ==> b[i] == a[i].(items := b[i].items)
  }

  /** Appends a freshly loaded hero under the next identity. */
  function AdoptLoaded(o: Owner, h: Hero): (r: Owner)
    requires h.uid == o.nextUid
    ensures r == o.(heroes := o.heroes + [h], nextUid := o.nextUid + 1)
    ensures r.heroes[|o.heroes|].uid == o.nextUid && Owns(r, o.nextUid)
    ensures Cids(r.heroes) == Cids(o.heroes) + [h.cls.cid]
    ensures ExtendsUpToItems(o.heroes, r.heroes)
    ensures WellFormed(o) ==> WellFormed(r)
  {
    var r := o.(heroes := o.heroes + [h], nextUid := o.nextUid + 1);
    assert r.heroes[|o.heroes|] == h;
    assert Cids(r.heroes) == Cids(o.heroes) + [h.cls.cid];
    PrefixOwns(o, r);
    r
  }

  /** Heroes that differ only in their items have the same classes. */
  lemma CidsUpToItems(a: seq<Hero>, b: seq<Hero>)
    requires |a| == |b| && forall i :: 0 <= i < |b| ==> b[i] == a[i].(items := b[i].items)
    ensures Cids(a) == Cids(b)
  {
  }

  /** One fetched row whose class is registered: rebuild it as
      `hero_cls(level, exp)`, load it, append it, and make it current through
      the setter when its class id is the stored current hero id. */
  function LoadOne(db: Db, o: Owner, cls: HeroClass, row: HeroRow, current: Option<string>): (r: Effect<(Db, Owner)>)
    ensures r.state.1.steamid == o.steamid && r.state.1.gold == o.gold
    ensures r.Succeeded() ==> r.state.1.nextUid == o.nextUid + 1 && Cids(r.state.1.heroes) == Cids(o.heroes) + [cls.cid]
    ensures r.Succeeded() ==> ExtendsUpToItems(o.heroes, r.state.1.heroes)
    ensures r.Succeeded() ==> r.state.1.heroes[|o.heroes|].uid == o.nextUid
    ensures !r.Succeeded() ==> r.state == (db, o)
    ensures cls.maxLevel.None? ==> !r.Succeeded()
    ensures WellFormed(o) ==> WellFormed(r.state.1)
    ensures r.Succeeded() && current == Some(cls.cid) ==> r.state.1.active == Some(o.nextUid)
    ensures r.Succeeded() && current != Some(cls.cid) ==> r.state.1.active == o.active
  {
    var loaded := LoadHeroData(db, o.steamid, NewHero(cls, o.nextUid, row.level, row.exp));
    if !loaded.Succeeded() then Effect((db, o), loaded.fired, loaded.raised)
    else
      var o1 := AdoptLoaded(o, loaded.state);
      if current == Some(cls.cid) then
        SetActiveHeroKeepsHeroes(db, o1, o.nextUid);
        SetActiveHeroKeepsWellFormed(db, o1, o.nextUid);
        var switched := SetActiveHero(db, o1, o.nextUid);
        CidsUpToItems(o1.heroes, switched.state.1.heroes);
        Effect(switched.state, loaded.fired, None)
      else Effect((db, o1), loaded.fired, None)
  }

  /** The loop over the fetched hero rows. A load that raises stops the loop;
      the heroes appended before it stay. */
  function {:induction false} LoadHeroes(db: Db, o: Owner, registry: seq<HeroClass>, rows: seq<FetchedRow>,
                                         current: Option<string>): (r: Effect<(Db, Owner)>)
    decreases |rows|
    ensures r.state.1.steamid == o.steamid && r.state.1.gold == o.gold
    ensures ExtendsUpToItems(o.heroes, r.state.1.heroes)
    ensures WellFormed(o) ==> WellFormed(r.state.1)
  {
    if rows == [] then Done((db, o))
    else
      match Tools.FindElement(registry, ClassCid, rows[0].cid)
      case None => LoadHeroes(db, o, registry, rows[1..], current)
      case Some(cls) =>
        var one := LoadOne(db, o, cls, rows[0].row, current);
        if !one.Succeeded() then one
        else
          var rest := LoadHeroes(one.state.0, one.state.1, registry, rows[1..], current);
          Effect(rest.state, one.fired + rest.fired, rest.raised)
  }

  /** The loop passes over a row whose class is not registered. */
  lemma LoadHeroesSkip(db: Db, o: Owner, registry: seq<HeroClass>, rows: seq<FetchedRow>, current: Option<string>)
    requires rows != [] && Tools.FindElement(registry, ClassCid, rows[0].cid).None?
    ensures LoadHeroes(db, o, registry, rows, current) == LoadHeroes(db, o, registry, rows[1..], current)
    ensures RegisteredCids(registry, rows) == RegisteredCids(registry, rows[1..])
  {
  }

  /** The loop loads a row whose class is registered, then goes on from the
      state that load left. */
  lemma LoadHeroesStep(db: Db, o: Owner, registry: seq<HeroClass>, rows: seq<FetchedRow>, current: Option<string>)
    requires rows != [] && Tools.FindElement(registry, ClassCid, rows[0].cid).Some?
    ensures var cls := Tools.FindElement(registry, ClassCid, rows[0].cid).value;
            var one := LoadOne(db, o, cls, rows[0].row, current);
            && cls.cid == rows[0].cid
            && (!one.Succeeded() ==> LoadHeroes(db, o, registry, rows, current) == one)
            && (one.Succeeded() ==>
                  var rest := LoadHeroes(one.state.0, one.state.1, registry, rows[1..], current);
                  LoadHeroes(db, o, registry, rows, current) == Effect(rest.state, one.fired + rest.fired, rest.raised))
    ensures RegisteredCids(registry, rows) == [rows[0].cid] + RegisteredCids(registry, rows[1..])
  {
  }

  /** With distinct identities the current hero is found where it sits. */
  lemma ActiveAt(o: Owner, i: nat)
    requires WellFormed(o) && i < |o.heroes| && o.active == Some(o.heroes[i].uid)
    ensures ActiveHero(o) == Some(o.heroes[i])
  {
  }

  /** The loop rebuilds exactly the rows whose class is registered, in row
      order, after the heroes already owned. */
  /** Appending one class after the owned ones, then a tail after that,
      appends both in order. */
  lemma CidsStep(a: seq<Hero>, b: seq<Hero>, c: seq<Hero>, x: string, tail: seq<string>)
    requires Cids(b) == Cids(a) + [x] && Cids(c) == Cids(b) + tail
    ensures Cids(c) == Cids(a) + ([x] + tail)
  {
  }

  lemma {:induction false} LoadHeroesCids(db: Db, o: Owner, registry: seq<HeroClass>, rows: seq<FetchedRow>,
                                          current: Option<string>)
    ensures var r := LoadHeroes(db, o, registry, rows, current);
            r.Succeeded() ==> Cids(r.state.1.heroes) == Cids(o.heroes) + RegisteredCids(registry, rows)
    decreases |rows|
  {
    if rows != [] {
      match Tools.FindElement(registry, ClassCid, rows[0].cid)
      case None =>
        LoadHeroesSkip(db, o, registry, rows, current);
        LoadHeroesCids(db, o, registry, rows[1..], current);
      case Some(cls) =>
        LoadHeroesStep(db, o, registry, rows, current);
        var one := LoadOne(db, o, cls, rows[0].row, current);
        if one.Succeeded() {
          var rest := LoadHeroes(one.state.0, one.state.1, registry, rows[1..], current);
          LoadHeroesCids(one.state.0, one.state.1, registry, rows[1..], current);
          if rest.Succeeded() {
            CidsStep(o.heroes, one.state.1.heroes, rest.state.1.heroes, rows[0].cid, RegisteredCids(registry, rows[1..]));
          }
        }
    }
  }

  /** Without the stored current hero id among the registered rows the current hero
      is left as it was... */
  lemma {:induction false} LoadHeroesKeepsActive(db: Db, o: Owner, registry: seq<HeroClass>, rows: seq<FetchedRow>,
                                                 current: Option<string>)
    requires current.None? || current.value !in RegisteredCids(registry, rows)
    ensures var r := LoadHeroes(db, o, registry, rows, current);
            r.Succeeded() ==> r.state.1.active == o.active
    decreases |rows|
  {
    if rows != [] {
      match Tools.FindElement(registry, ClassCid, rows[0].cid)
      case None =>
        LoadHeroesKeepsActive(db, o, registry, rows[1..], current);
      case Some(cls) =>
        var one := LoadOne(db, o, cls, rows[0].row, current);
        assert RegisteredCids(registry, rows) == [cls.cid] + RegisteredCids(registry, rows[1..]);
        if one.Succeeded() {
          LoadHeroesKeepsActive(one.state.0, one.state.1, registry, rows[1..], current);
        }
    }
  }

  lemma LoadHeroesKeepsActiveWithoutStoredHero(db: Db, o: Owner, registry: seq<HeroClass>, rows: seq<FetchedRow>,
                                             current: Option<string>)
    ensures var r := LoadHeroes(db, o, registry, rows, current);
            current.None? && r.Succeeded() ==> r.state.1.active == o.active
  {
    if current.None? { LoadHeroesKeepsActive(db, o, registry, rows, current); }
  }

  /** The row loaded last under the stored current hero id: its hero becomes current
      and stays current while the later rows load. */
  lemma LoadHeroesSetsActiveHere(db: Db, o: Owner, registry: seq<HeroClass>, rows: seq<FetchedRow>,
                                 current: Option<string>, cls: HeroClass)
    requires WellFormed(o) && rows != [] && Tools.FindElement(registry, ClassCid, rows[0].cid) == Some(cls)
    requires current == Some(cls.cid) && cls.cid !in RegisteredCids(registry, rows[1..])
    ensures var one := LoadOne(db, o, cls, rows[0].row, current);
            var r := LoadHeroes(one.state.0, one.state.1, registry, rows[1..], current);
            one.Succeeded() && r.Succeeded() ==> ActiveHero(r.state.1).Some? && ActiveHero(r.state.1).value.cls.cid == cls.cid
  {
    var one := LoadOne(db, o, cls, rows[0].row, current);
    if one.Succeeded() {
      var o1 := one.state.1;
      var i := |o.heroes|;
      assert o1.active == Some(o.nextUid) && o1.heroes[i].uid == o.nextUid;
      assert o1.heroes[i].cls.cid == cls.cid by { assert Cids(o1.heroes)[i] == cls.cid; }
      LoadHeroesKeepsActive(one.state.0, o1, registry, rows[1..], current);
      var r := LoadHeroes(one.state.0, o1, registry, rows[1..], current);
      if r.Succeeded() {
        var h := r.state.1.heroes[i];
        assert h == o1.heroes[i].(items := h.items);
        ActiveAt(r.state.1, i);
      }
    }
  }

  /** ...and otherwise the current hero is one of that class. */
  lemma {:induction false} LoadHeroesSetsActive(db: Db, o: Owner, registry: seq<HeroClass>, rows: seq<FetchedRow>,
                                                current: Option<string>)
    requires WellFormed(o) && current.Some? && current.value in RegisteredCids(registry, rows)
    ensures var r := LoadHeroes(db, o, registry, rows, current);
            r.Succeeded() ==> ActiveHero(r.state.1).Some? && ActiveHero(r.state.1).value.cls.cid == current.value
    decreases |rows|
  {
    match Tools.FindElement(registry, ClassCid, rows[0].cid)
    case None =>
      LoadHeroesSkip(db, o, registry, rows, current);
      LoadHeroesSetsActive(db, o, registry, rows[1..], current);
    case Some(cls) =>
      LoadHeroesStep(db, o, registry, rows, current);
      var one := LoadOne(db, o, cls, rows[0].row, current);
      if one.Succeeded() {
        if current.value in RegisteredCids(registry, rows[1..]) {
          LoadHeroesSetsActive(one.state.0, one.state.1, registry, rows[1..], current);
        } else {
          LoadHeroesSetsActiveHere(db, o, registry, rows, current, cls);
        }
      }
  }

  /** A registered row whose class has no max level makes the load raise. */
  lemma {:induction false} LoadHeroesFailsOnUncapped(db: Db, o: Owner, registry: seq<HeroClass>, rows: seq<FetchedRow>,
                                                     current: Option<string>, i: nat)
    requires i < |rows| && Resolves(registry, rows[i].cid)
    requires Tools.FindElement(registry, ClassCid, rows[i].cid).value.maxLevel.None?
    ensures !LoadHeroes(db, o, registry, rows, current).Succeeded()
    decreases |rows|, 1
  {
    if Tools.FindElement(registry, ClassCid, rows[0].cid).None? {
      assert i != 0;
      LoadHeroesSkip(db, o, registry, rows, current);
      FailsOnUncappedLater(db, o, registry, rows, current, i);
    } else {
      var cls := Tools.FindElement(registry, ClassCid, rows[0].cid).value;
      LoadHeroesStep(db, o, registry, rows, current);
      var one := LoadOne(db, o, cls, rows[0].row, current);
      if i == 0 {
        assert !one.Succeeded();
      } else if one.Succeeded() {
        FailsOnUncappedLater(one.state.0, one.state.1, registry, rows, current, i);
      }
    }
  }

  /** The uncapped row lies past the first row, so the load of the rest
      raises from any state. */
  lemma {:induction false} FailsOnUncappedLater(db: Db, o: Owner, registry: seq<HeroClass>, rows: seq<FetchedRow>,
                                                current: Option<string>, i: nat)
    requires 0 < i < |rows| && Resolves(registry, rows[i].cid)
    requires Tools.FindElement(registry, ClassCid, rows[i].cid).value.maxLevel.None?
    ensures !LoadHeroes(db, o, registry, rows[1..], current).Succeeded()
    decreases |rows|, 0
  {
    var rest := rows[1..];
    assert rest[i - 1] == rows[i];
    LoadHeroesFailsOnUncapped(db, o, registry, rest, current, i - 1);
  }

  /** The stored players row, or gold 0 and no current hero id. */
  function StoredGold(db: Db, steamid: string): int
  {
    if steamid in db.players then db.players[steamid].gold else 0
  }

  function StoredCurrentCid(db: Db, steamid: string): Option<string>
  {
    if steamid in db.players then Some(db.players[steamid].heroCid) else None
  }

  /** `load_player_data`: gold through the gold setter (0 without a players
      row), then the hero rows as fetched. */
  function LoadPlayerData(db: Db, o: Owner, registry: seq<HeroClass>, rows: seq<FetchedRow>): (r: Effect<(Db, Owner)>)
    ensures StoredGold(db, o.steamid) < 0 ==> r == Fail((db, o), NegativeGold)
    ensures r.Succeeded() ==> r.state.1.gold == StoredGold(db, o.steamid) >= 0
    ensures o.steamid !in db.players && r.Succeeded() ==> r.state.1.gold == 0 && r.state.1.active == o.active
    ensures r.state.1.steamid == o.steamid
    ensures ExtendsUpToItems(o.heroes, r.state.1.heroes)
    ensures WellFormed(o) ==> WellFormed(r.state.1)
  {
    match SetGold(o, StoredGold(db, o.steamid))
    case Err(e) => Fail((db, o), e)
    case Ok(o1) =>
      LoadHeroesKeepsActiveWithoutStoredHero(db, o1, registry, rows, StoredCurrentCid(db, o.steamid));
      LoadHeroes(db, o1, registry, rows, StoredCurrentCid(db, o.steamid))
  }

  /** `rows` is what `fetchall` returns for this owner: each stored hero row
      once, in some order. */
  predicate FetchedAll(db: Db, steamid: string, rows: seq<FetchedRow>)
  {
    && (forall i :: 0 <= i < |rows| ==> (steamid, rows[i].cid) in db.heroes && db.heroes[(steamid, rows[i].cid)] == rows[i].row)
    && (forall k :: k in db.heroes && k.0 == steamid ==> exists i :: 0 <= i < |rows| && rows[i].cid == k.1)
  }

  /** Loading a fresh record rebuilds one hero per stored row whose class is
      registered... */
  lemma LoadPlayerDataHeroes(db: Db, steamid: string, registry: seq<HeroClass>, rows: seq<FetchedRow>)
    requires FetchedAll(db, steamid, rows)
    ensures var r := LoadPlayerData(db, NewOwner(steamid), registry, rows);
            r.Succeeded() ==>
              (forall c :: c in Cids(r.state.1.heroes) <==> (steamid, c) in db.heroes && Resolves(registry, c))
  {
    var o := NewOwner(steamid);
    if StoredGold(db, steamid) >= 0 {
      var o1 := o.(gold := StoredGold(db, steamid));
      var r := LoadHeroes(db, o1, registry, rows, StoredCurrentCid(db, steamid));
      assert LoadPlayerData(db, o, registry, rows) == r;
      LoadHeroesCids(db, o1, registry, rows, StoredCurrentCid(db, steamid));
      if r.Succeeded() {
        assert Cids(r.state.1.heroes) == RegisteredCids(registry, rows) by {
          assert Cids(o1.heroes) == [];
        }
        forall c | (steamid, c) in db.heroes && Resolves(registry, c) ensures c in RegisteredCids(registry, rows) {
          var i :| 0 <= i < |rows| && rows[i].cid == (steamid, c).1;
        }
      }
    }
  }

  /** ...and the stored current hero id names the current hero when its row was
      rebuilt. */
  lemma LoadPlayerDataActive(db: Db, steamid: string, registry: seq<HeroClass>, rows: seq<FetchedRow>)
    requires FetchedAll(db, steamid, rows)
    requires steamid in db.players && (steamid, db.players[steamid].heroCid) in db.heroes
    requires Resolves(registry, db.players[steamid].heroCid)
    ensures var r := LoadPlayerData(db, NewOwner(steamid), registry, rows);
            r.Succeeded() ==> ActiveHero(r.state.1).Some? && ActiveHero(r.state.1).value.cls.cid == db.players[steamid].heroCid
  {
    var c := db.players[steamid].heroCid;
    if StoredGold(db, steamid) >= 0 {
      var o1 := NewOwner(steamid).(gold := StoredGold(db, steamid));
      var i :| 0 <= i < |rows| && rows[i].cid == (steamid, c).1;
      assert c in RegisteredCids(registry, rows);
      LoadHeroesSetsActive(db, o1, registry, rows, Some(c));
    }
  }

  /** With only uncapped hero classes registered (as in the shipped test
      hero), any player with a stored hero row fails to load. */
  lemma LoadPlayerDataFailsForUncapped(db: Db, o: Owner, registry: seq<HeroClass>, rows: seq<FetchedRow>)
    requires forall i :: 0 <= i < |registry| ==> registry[i].maxLevel.None?
    requires exists i :: 0 <= i < |rows| && Resolves(registry, rows[i].cid)
    ensures !LoadPlayerData(db, o, registry, rows).Succeeded()
  {
    var i :| 0 <= i < |rows| && Resolves(registry, rows[i].cid);
    if StoredGold(db, o.steamid) >= 0 {
      LoadHeroesFailsOnUncapped(db, o.(gold := StoredGold(db, o.steamid)), registry, rows, StoredCurrentCid(db, o.steamid), i);
    }
  }
}

=== FILE: player_revision.dfy ===
/** The `hw/player.py` revision: player records live in a module-level
    dictionary keyed by userid and survive reconstruction of the player
    wrapper. */
module PlayerRevision {
  import opened Outcome
  import opened Entities
  import opened Database
  import opened Owners

  /** `_player_data`, keyed by userid. */
  type PlayerData = map<int, Owner>

  /** `Player.__init__`: only the first construction for a userid creates
      and loads the record, grants the starting heroes and makes the first
      hero current (through the setter). With no heroes at all, indexing the
      empty list raises. The record is stored before loading, so a failure
      leaves what was set so far. */
  function Construct(db: Db, data: PlayerData, userid: int, steamid: string, registry: seq<HeroClass>,
                     rows: seq<FetchedRow>, starting: seq<string>): (r: Effect<(Db, PlayerData)>)
    ensures userid in data ==> r == Done((db, data))
    ensures r.state.1.Keys == data.Keys + {userid}
    ensures forall u :: u in data ==> r.state.1[u] == data[u]
    ensures userid !in data && r.Succeeded() ==>
              r.state.1[userid].steamid == steamid && WellFormed(r.state.1[userid])
              && ActiveHero(r.state.1[userid]).Some?
    ensures userid !in data && LoadPlayerData(db, NewOwner(steamid), registry, rows).Succeeded()
            && |GrantStartingHeroes(LoadPlayerData(db, NewOwner(steamid), registry, rows).state.1, registry, starting).heroes| == 0 ==>
              !r.Succeeded() && r.raised == Some(EmptyHeroList)
    ensures userid !in data && !LoadPlayerData(db, NewOwner(steamid), registry, rows).Succeeded() ==>
              var loaded := LoadPlayerData(db, NewOwner(steamid), registry, rows);
              r.state == (loaded.state.0, data[userid := loaded.state.1]) && r.raised == loaded.raised
    ensures userid !in data && LoadPlayerData(db, NewOwner(steamid), registry, rows).Succeeded() ==>
              var loaded := LoadPlayerData(db, NewOwner(steamid), registry, rows);
              var granted := GrantStartingHeroes(loaded.state.1, registry, starting);
              && r.state.0 == loaded.state.0
              && r.state.1[userid].gold == granted.gold
              && r.state.1[userid].heroes == granted.heroes
              && (granted.active.Some? ==> r.state.1[userid].active == granted.active)
              && (granted.active.None? && |granted.heroes| > 0 ==> r.state.1[userid].active == Some(granted.heroes[0].uid))
  {
    if userid in data then Done((db, data))
    else
      var loaded := LoadPlayerData(db, NewOwner(steamid), registry, rows);
      if !loaded.Succeeded() then
        Effect((loaded.state.0, data[userid := loaded.state.1]), loaded.fired, loaded.raised)
      else
        var picked := PickFirstHero(loaded.state.0, GrantStartingHeroes(loaded.state.1, registry, starting));
        Effect((picked.state.0, data[userid := picked.state.1]), loaded.fired, picked.raised)
  }

  /** The end of `Player.__init__`: with no current hero, the first hero is
      made current through the setter; with no heroes that indexing raises. */
  function PickFirstHero(db: Db, o: Owner): (r: Effect<(Db, Owner)>)
    ensures r.state.1.steamid == o.steamid
    ensures o.active.Some? ==> r == Done((db, o))
    ensures o.active.None? && |o.heroes| > 0 ==> r == Done((db, o.(active := Some(o.heroes[0].uid))))
    ensures |o.heroes| == 0 && o.active.None? ==> r == Fail((db, o), EmptyHeroList)
    ensures WellFormed(o) && r.Succeeded() ==> WellFormed(r.state.1) && ActiveHero(r.state.1).Some?
    ensures WellFormed(o) && |o.heroes| > 0 ==> r.Succeeded()
  {
    if o.active.Some? then Done((db, o))
    else if |o.heroes| == 0 then Fail((db, o), EmptyHeroList)
    else
      assert Owns(o, o.heroes[0].uid);
      SetActiveHeroKeepsWellFormed(db, o, o.heroes[0].uid);
      SetActiveHero(db, o, o.heroes[0].uid)
  }

  /** A second construction for the same userid changes nothing, whatever
      the first one did. */
  lemma ConstructOnce(db: Db, data: PlayerData, userid: int, steamid: string, registry: seq<HeroClass>,
                      rows: seq<FetchedRow>, starting: seq<string>)
    ensures var s := Construct(db, data, userid, steamid, registry, rows, starting).state;
            Construct(s.0, s.1, userid, steamid, registry, rows, starting) == Done(s)
  {
  }
}

=== FILE: players_revision.dfy ===
/** The `hw/players.py` revision: player data cached on the engine entity,
    loaded once per entity, plus the Counter-Strike team label. */
module PlayersRevision {
  import opened Outcome
  import opened Entities
  import opened Database
  import opened Owners
  import Tools

  datatype CachedPlayer = CachedPlayer(dbLoaded: bool, owner: Owner, team: int)

  /** `Player.__init__`: nothing happens once the data is loaded. Otherwise
      the record is loaded, flagged as loaded, granted its starting heroes,
      and given the first hero through the setter when it has none. A load
      that raises leaves the flag unset. */
  function Init(db: Db, p: CachedPlayer, registry: seq<HeroClass>, rows: seq<FetchedRow>,
                starting: seq<string>): (r: Effect<(Db, CachedPlayer)>)
    ensures p.dbLoaded ==> r == Done((db, p))
    ensures !p.dbLoaded && !LoadPlayerData(db, p.owner, registry, rows).Succeeded() ==>
              !r.Succeeded() && !r.state.1.dbLoaded
    ensures !p.dbLoaded && LoadPlayerData(db, p.owner, registry, rows).Succeeded() ==>
              r.Succeeded() && r.state.1.dbLoaded
    ensures !p.dbLoaded && r.Succeeded() && WellFormed(p.owner) ==>
              WellFormed(r.state.1.owner) && (|r.state.1.owner.heroes| > 0 <==> r.state.1.owner.active.Some?)
    ensures r.state.1.team == p.team
    ensures !p.dbLoaded && !LoadPlayerData(db, p.owner, registry, rows).Succeeded() ==>
              var loaded := LoadPlayerData(db, p.owner, registry, rows);
              r.state == (loaded.state.0, p.(owner := loaded.state.1)) && r.raised == loaded.raised
    ensures !p.dbLoaded && LoadPlayerData(db, p.owner, registry, rows).Succeeded() ==>
              var loaded := LoadPlayerData(db, p.owner, registry, rows);
              var granted := GrantStartingHeroes(loaded.state.1, registry, starting);
              && r.state.0 == loaded.state.0
              && r.state.1.owner.gold == granted.gold
              && r.state.1.owner.heroes == granted.heroes
              && (granted.active.Some? ==> r.state.1.owner.active == granted.active)
              && (granted.active.None? && |granted.heroes| > 0 ==> r.state.1.owner.active == Some(granted.heroes[0].uid))
  {
    if p.dbLoaded then Done((db, p))
    else
      var loaded := LoadPlayerData(db, p.owner, registry, rows);
      if !loaded.Succeeded() then Effect((loaded.state.0, p.(owner := loaded.state.1)), loaded.fired, loaded.raised)
      else
        var o := GrantStartingHeroes(loaded.state.1, registry, starting);
        if o.active.None? && |o.heroes| > 0 then
          assert Owns(o, o.heroes[0].uid);
          SetActiveHeroKeepsWellFormed(loaded.state.0, o, o.heroes[0].uid);
          SetActiveHeroKeepsHeroes(loaded.state.0, o, o.heroes[0].uid);
          var switched := SetActiveHero(loaded.state.0, o, o.heroes[0].uid);
          Effect((switched.state.0, CachedPlayer(true, switched.state.1, p.team)), loaded.fired, None)
        else
          assert WellFormed(o) && o.active.Some? ==> |o.heroes| > 0;
          Effect((loaded.state.0, CachedPlayer(true, o, p.team)), loaded.fired, None)
  }

  /** After a successful first construction the player owns every resolvable
      starting hero, and constructing it again changes nothing. */
  lemma InitGrantsOnce(db: Db, p: CachedPlayer, registry: seq<HeroClass>, rows: seq<FetchedRow>,
                       starting: seq<string>, c: string)
    requires !p.dbLoaded && Init(db, p, registry, rows, starting).Succeeded()
    requires c in starting && Resolves(registry, c)
    ensures OwnsClass(Init(db, p, registry, rows, starting).state.1.owner, c)
    ensures var s := Init(db, p, registry, rows, starting).state;
            Init(s.0, s.1, registry, rows, starting) == Done(s)
  {
    var loaded := LoadPlayerData(db, p.owner, registry, rows);
    var o := GrantStartingHeroes(loaded.state.1, registry, starting);
    GrantOwnsStarting(loaded.state.1, registry, starting);
    if o.active.None? && |o.heroes| > 0 {
      SetActiveHeroKeepsHeroes(loaded.state.0, o, o.heroes[0].uid);
      var i :| 0 <= i < |o.heroes| && o.heroes[i].cls.cid == c;
      assert SetActiveHero(loaded.state.0, o, o.heroes[0].uid).state.1.heroes[i].cls.cid == c;
    }
  }

  /** The team labels, by team number. */
  const Teams: seq<string> := ["un", "spec", "t", "ct"]

  /** `cs_team` getter: Python list indexing, so -4..-1 count from the end
      and anything else raises. */
  function CsTeam(team: int): (r: Result<string>)
    ensures r.Ok? <==> -4 <= team < 4
    ensures r.Ok? ==> r.value in Teams
    ensures !r.Ok? ==> r == Err(TeamIndexOutOfRange)
  {
    if 0 <= team < 4 then Ok(Teams[team])
    else if -4 <= team < 0 then Ok(Teams[team + 4])
    else Err(TeamIndexOutOfRange)
  }

  function Identity(s: string): string { s }

  /** `cs_team` setter: the position of the label, or an error for any other
      text. */
  function SetCsTeam(name: string): (r: Result<int>)
    ensures r.Ok? <==> name in Teams
    ensures r.Ok? ==> 0 <= r.value < 4 && Teams[r.value] == name
    ensures !r.Ok? ==> r == Err(UnknownTeamLabel)
  {
    match Tools.FindIndex(Teams, Identity, name)
    case Some(i) => Ok(i)
    case None => Err(UnknownTeamLabel)
  }

  /** Setting a label then reading it returns the label; reading a team then
      setting the label read gives back the team (shifted by 4 when the
      team number was negative). */
  lemma CsTeamRoundTrip(name: string, team: int)
    ensures SetCsTeam(name).Ok? ==> CsTeam(SetCsTeam(name).value) == Ok(name)
    ensures 0 <= team < 4 ==> SetCsTeam(CsTeam(team).value) == Ok(team)
    ensures -4 <= team < 0 ==> SetCsTeam(CsTeam(team).value) == Ok(team + 4)
  {
    if -4 <= team < 4 {
      var t := if team < 0 then team + 4 else team;
      var r := SetCsTeam(CsTeam(team).value);
      assert Teams[t] == CsTeam(team).value;
      assert r.Ok?;
      assert Teams[r.value] == Teams[t];
      assert Teams[0] != Teams[1] && Teams[0] != Teams[2] && Teams[0] != Teams[3];
      assert Teams[1] != Teams[2] && Teams[1] != Teams[3] && Teams[2] != Teams[3];
    }
  }
}

=== FILE: plugin.dfy ===
/** The plugin's entry points in `hw/hw.py` that change state: the startup
    check, the gold and experience rewards, chat-command handling and the
    death handler. Messages, menus and the engine's events are not modelled;
    the hooks a handler dispatches are reported by name. */
module Plugin {
  import opened Outcome
  import opened Entities
  import opened Database
  import opened Owners
  import UsersRevision
  import Configs
  import Tools

  // ---------------------------------------------------------------------
  // Startup
  // ---------------------------------------------------------------------

  /** The first configured starting class id that names no hero class. */
  function {:induction false} FirstUnresolved(registry: seq<HeroClass>, starting: seq<string>): (r: Option<nat>)
    decreases |starting|
    ensures r.Some? ==> r.value < |starting| && !Resolves(registry, starting[r.value])
    ensures r.Some? ==> forall j :: 0 <= j < r.value ==> Resolves(registry, starting[j])
    ensures r.None? <==> forall c :: c in starting ==> Resolves(registry, c)
  {
    if starting == [] then None
    else if !Resolves(registry, starting[0]) then Some(0)
    else match FirstUnresolved(registry, starting[1..])
      case None =>
        assert starting == [starting[0]] + starting[1..];
        None
      case Some(i) =>
        assert starting[1..][i] == starting[i + 1];
        Some(i + 1)
  }

  /** `load`: no hero classes, no starting heroes, or a starting class id
      that matches no class each stop the plugin, in that order. */
  function Load(registry: seq<HeroClass>, starting: seq<string>): (r: Option<Error>)
    ensures registry == [] ==> r == Some(NoHeroClasses)
    ensures registry != [] && starting == [] ==> r == Some(NoStartingHeroes)
    ensures r.None? <==> registry != [] && starting != [] && forall c :: c in starting ==> Resolves(registry, c)
    ensures r.Some? && r.value.InvalidStartingHero? ==>
              exists i :: 0 <= i < |starting| && starting[i] == r.value.cid && !Resolves(registry, starting[i])
                          && forall j :: 0 <= j < i ==> Resolves(registry, starting[j])
  {
    if registry == [] then Some(NoHeroClasses)
    else if starting == [] then Some(NoStartingHeroes)
    else match FirstUnresolved(registry, starting)
      case Some(i) => Some(InvalidStartingHero(starting[i]))
      case None => None
  }

  /** Once the plugin has loaded, every new user is given a current hero. */
  lemma LoadedPluginGivesAHero(db: Db, steamid: string, registry: seq<HeroClass>, starting: seq<string>)
    requires Load(registry, starting).None?
    ensures UsersRevision.NewUser(db, steamid, registry, starting).state.1.active.Some?
  {
    var o := NewOwner(steamid);
    GrantOwnsStarting(o, registry, starting);
    assert OwnsClass(GrantStartingHeroes(o, registry, starting), starting[0]);
  }

  /** With the shipped configuration the plugin loads as soon as a class
      `TestHero1` is registered. */
  lemma ShippedConfigurationLoads(registry: seq<HeroClass>)
    requires Resolves(registry, "TestHero1")
    ensures Load(registry, Configs.StartingHeroes).None?
  {
  }

  // ---------------------------------------------------------------------
  // Rewards
  // ---------------------------------------------------------------------

  /** `give_gold`: with gold messages switched off nothing is granted at
      all; otherwise a positive table value is added through the gold
      setter. */
  function GiveGold(o: Owner, key: string, show: bool): (r: Result<Owner>)
    ensures !show ==> r == Ok(o)
    ensures Configs.ValueOr0(Configs.GoldValues, key) <= 0 ==> r == Ok(o)
    ensures show && Configs.ValueOr0(Configs.GoldValues, key) > 0 ==>
              var g := Configs.ValueOr0(Configs.GoldValues, key);
              (r.Ok? <==> o.gold + g >= 0) && (r.Ok? ==> r.value == o.(gold := o.gold + g))
  {
    if !show then Ok(o)
    else
      var g := Configs.ValueOr0(Configs.GoldValues, key);
      if g > 0 then Tools.ShiftAttr(o, (x: Owner) => x.gold, SetGold, g) else Ok(o)
  }

  /** A kill is worth two gold under the shipped configuration. */
  lemma KillGold(o: Owner)
    requires o.gold >= 0
    ensures GiveGold(o, "Kill", Configs.ShowGoldMessages) == Ok(o.(gold := o.gold + 2))
  {
  }

  /** Experience a hero was credited between two states, counting what it
      spent on the levels gained. */
  function Credited(before: Hero, after: Hero): int
  {
    ExpBetween(before.level, after.level) + after.exp - before.exp
  }

  /** Replacing the current hero by a hero with the same identity keeps it
      current. */
  lemma ActiveAfterUpdate(o: Owner, h: Hero)
    requires ActiveHero(o).Some? && h.uid == ActiveHero(o).value.uid
    ensures var k := IndexOf(o, o.active.value).value;
            ActiveHero(UpdateHero(o, k, h)) == Some(h)
  {
    var k := IndexOf(o, o.active.value).value;
    var o1 := UpdateHero(o, k, h);
    assert o1.heroes[k].uid == o.active.value;
  }

  /** `give_exp`: a positive table value is added to the current hero's
      experience through its setter (the level-up cascade); the hero is only
      looked at when there is something to give. */
  function GiveExp(o: Owner, key: string): (r: Effect<Owner>)
    ensures Configs.ValueOr0(Configs.ExpValues, key) <= 0 ==> r == Done(o)
    ensures Configs.ValueOr0(Configs.ExpValues, key) > 0 && ActiveHero(o).None? ==> r == Fail(o, NoActiveHero)
    ensures r.state == o.(heroes := r.state.heroes) && |r.state.heroes| == |o.heroes|
    ensures WellFormed(o) ==> WellFormed(r.state)
    ensures ActiveHero(o).Some? && ValidProgress(ActiveHero(o).value) ==>
              var h := ActiveHero(o).value;
              && r.Succeeded() && ActiveHero(r.state).Some?
              && var h1 := ActiveHero(r.state).value;
              && h1 == h.(level := h1.level, exp := h1.exp)
              && ValidProgress(h1) && h1.level >= h.level
              && (BelowCap(h1.level, h.cls.maxLevel) ==> Credited(h, h1) == Configs.ValueOr0(Configs.ExpValues, key))
  {
    var v := Configs.ValueOr0(Configs.ExpValues, key);
    if v <= 0 then Done(o)
    else match ActiveHero(o)
      case None => Fail(o, NoActiveHero)
      case Some(h) =>
        var k := IndexOf(o, o.active.value).value;
        var e := HeroSetExp(h, h.exp + v);
        ActiveAfterUpdate(o, e.state);
        GiveExpStep(h, v);
        Effect(UpdateHero(o, k, e.state), e.fired, e.raised)
  }

  /** One grant to a hero in a valid state. */
  lemma GiveExpStep(h: Hero, v: int)
    requires v > 0
    ensures ValidProgress(h) ==>
              var h1 := HeroSetExp(h, h.exp + v).state;
              && HeroSetExp(h, h.exp + v).Succeeded() && ValidProgress(h1) && h1.level >= h.level
              && (BelowCap(h1.level, h.cls.maxLevel) ==> Credited(h, h1) == v)
  {
    if ValidProgress(h) {
      HeroSetExpKeepsProgress(h, h.exp + v);
      var r := HeroSetExp(h, h.exp + v);
      if !BelowCap(h.level, h.cls.maxLevel) {
        assert r.state.level == h.level;
      }
    }
  }

  /** Two grants credit their sum while the hero stays below its cap. */
  lemma {:induction false} CreditedAdds(h0: Hero, h1: Hero, h2: Hero)
    requires h0.level <= h1.level <= h2.level
    ensures Credited(h0, h2) == Credited(h0, h1) + Credited(h1, h2)
  {
    ExpBetweenSplit(h0.level, h1.level, h2.level);
  }

  // ---------------------------------------------------------------------
  // Chat
  // ---------------------------------------------------------------------

  /** What `player_say` does besides dispatching the `player_say` hook. */
  datatype ChatCommand = Ultimate | OpenMain | OpenAdmin | PlainText

  predicate HasPrefix(text: string)
  {
    |text| >= |Configs.ChatCommandPrefix| && text[..|Configs.ChatCommandPrefix|] == Configs.ChatCommandPrefix
  }

  /** The keys of the `menus` dict that `hw/menus.py` fills in. */
  const MenuKeys: set<string> := {"Current Hero", "Owned Heroes", "Buy Heroes", "Main"}

  /** `menus[name].send(...)`: a key the dict lacks raises KeyError. */
  function SendMenu(name: string): (r: Option<Error>)
    ensures r.None? <==> name in MenuKeys
    ensures r.Some? ==> r.value == NoSuchMenu(name)
  {
    if name in MenuKeys then None else Some(NoSuchMenu(name))
  }

  /** `player_say`: text without the prefix is dropped before anything
      runs; otherwise the text after the prefix picks the command, which is
      carried out, and the current hero's `player_say` hooks then run with
      the original text. The admin command looks up an 'Admin' menu that
      the menus dict never receives, so it raises KeyError before the
      hooks. With no current hero the hooks raise, after the command. */
  function PlayerSay(o: Owner, text: string): (r: Option<(ChatCommand, Result<seq<Target>>)>)
    ensures r.None? <==> !HasPrefix(text)
    ensures r.Some? ==> (r.value.0 == PlainText <==> text !in {"!ultimate", "!hw", "!admin"})
    ensures r.Some? ==> (r.value.0 == OpenAdmin <==> text == "!admin")
    ensures r.Some? && r.value.0 == OpenAdmin ==> r.value.1 == Err(NoSuchMenu("Admin"))
    ensures r.Some? && r.value.0 != OpenAdmin && ActiveHero(o).Some? ==> r.value.1 == Ok(ExecuteSkills(ActiveHero(o).value, "player_say"))
    ensures r.Some? && r.value.0 != OpenAdmin && ActiveHero(o).None? ==> r.value.1 == Err(NoActiveHero)
  {
    var p := Configs.ChatCommandPrefix;
    if |text| < |p| || text[..|p|] != p then None
    else
      var rest := text[|p|..];
      assert text == p + rest;
      assert p + "ultimate" == "!ultimate" && p + "hw" == "!hw" && p + "admin" == "!admin";
      assert "!ultimate"[1..] == "ultimate" && "!hw"[1..] == "hw" && "!admin"[1..] == "admin";
      var command := if rest == "ultimate" then Ultimate
                     else if rest == "hw" then OpenMain
                     else if rest == "admin" then OpenAdmin
                     else PlainText;
      var sent := match command
                  case OpenMain => SendMenu("Main")
                  case OpenAdmin => SendMenu("Admin")
                  case _ => None;
      var hooks := if sent.Some? then Err(sent.value)
                   else match ActiveHero(o)
                   case None => Err(NoActiveHero)
                   case Some(h) => Ok(ExecuteSkills(h, "player_say"));
      Some((command, hooks))
  }

  /** The prefix followed by a command name always selects that command;
      the main menu exists, so the hooks follow it, while the admin menu
      does not, so the admin command always raises. */
  lemma PrefixedCommands(o: Owner)
    ensures PlayerSay(o, Configs.ChatCommandPrefix + "ultimate").value.0 == Ultimate
    ensures PlayerSay(o, Configs.ChatCommandPrefix + "hw").value.0 == OpenMain
    ensures PlayerSay(o, Configs.ChatCommandPrefix + "admin").value.0 == OpenAdmin
    ensures PlayerSay(o, Configs.ChatCommandPrefix + "admin").value.1 == Err(NoSuchMenu("Admin"))
    ensures ActiveHero(o).Some? ==>
              PlayerSay(o, Configs.ChatCommandPrefix + "hw").value.1 == Ok(ExecuteSkills(ActiveHero(o).value, "player_say"))
    ensures PlayerSay(o, "ultimate").None? && PlayerSay(o, "").None?
  {
    assert "ultimate"[..1] == "u";
  }

  // ---------------------------------------------------------------------
  // Death
  // ---------------------------------------------------------------------

  /** Whose hero a dispatched hook runs on. */
  datatype Side = OnAttacker | OnDefender

  /** What the death handler did: the hooks it dispatched, in order, and the
      attacker and defender afterwards. */
  datatype DeathReport = DeathReport(hooks: seq<(Side, string)>, effect: Effect<(Owner, Owner)>)

  /** The last step of the handler: the defender's current hero loses its
      non-permanent items through the skipping removal loop. */
  function DropDefenderItems(d: Owner): (r: Effect<Owner>)
    ensures ActiveHero(d).None? ==> r == Fail(d, NoActiveHero)
    ensures ActiveHero(d).Some? ==>
              var h := ActiveHero(d).value;
              r == Done(UpdateHero(d, IndexOf(d, d.active.value).value, h.(items := DropTemporaryItems(h.items))))
  {
    match ActiveHero(d)
    case None => Fail(d, NoActiveHero)
    case Some(h) => Done(UpdateHero(d, IndexOf(d, d.active.value).value, h.(items := DropTemporaryItems(h.items))))
  }

  /** The kill rewards, each through its own setter: Kill experience,
      Headshot experience on a headshot, then Kill gold. */
  function KillRewards(a: Owner, headshot: bool): (r: Effect<Owner>)
  {
    var e1 := GiveExp(a, "Kill");
    if !e1.Succeeded() then e1
    else
      var e2 := if headshot then GiveExp(e1.state, "Headshot") else e1;
      if !e2.Succeeded() then Effect(e2.state, e1.fired + e2.fired, e2.raised)
      else
        var fired := e1.fired + (if headshot then e2.fired else []);
        match GiveGold(e2.state, "Kill", Configs.ShowGoldMessages)
        case Err(err) => Effect(e2.state, fired, Some(err))
        case Ok(a3) => Effect(a3, fired, None)
  }

  /** `player_death`: a suicide (no attacker, or the attacker is the
      defender) runs the defender's `player_suicide` hooks; a kill runs the
      attacker's `player_kill` and the defender's `player_death` hooks and
      rewards the attacker. Either way the defender then loses its
      non-permanent items. Reading a missing current hero raises at once,
      so only the hooks dispatched before it are reported. */
  function PlayerDeath(attacker: Owner, defender: Owner, attackerId: int, defenderId: int, headshot: bool): (r: DeathReport)
    ensures attackerId == 0 || attackerId == defenderId ==>
              && r.effect.state.0 == attacker
              && (ActiveHero(defender).Some? <==> r.effect.Succeeded())
              && (ActiveHero(defender).Some? ==> r.hooks == [(OnDefender, "player_suicide")])
              && (ActiveHero(defender).None? ==> r.hooks == [] && r.effect == Fail((attacker, defender), NoActiveHero))
    ensures attackerId != 0 && attackerId != defenderId ==>
              && (ActiveHero(attacker).None? ==> r.hooks == [] && r.effect == Fail((attacker, defender), NoActiveHero))
              && (ActiveHero(attacker).Some? && ActiveHero(defender).None? ==>
                    r.hooks == [(OnAttacker, "player_kill")] && r.effect == Fail((attacker, defender), NoActiveHero))
              && (ActiveHero(attacker).Some? && ActiveHero(defender).Some? ==>
                    && r.hooks == [(OnAttacker, "player_kill"), (OnDefender, "player_death")]
                    && r.effect.state.0 == KillRewards(attacker, headshot).state
                    && (r.effect.Succeeded() <==> KillRewards(attacker, headshot).Succeeded())
                    && (!r.effect.Succeeded() ==> r.effect == Effect((KillRewards(attacker, headshot).state, defender),
                                                                     KillRewards(attacker, headshot).fired,
                                                                     KillRewards(attacker, headshot).raised))
                    && (r.effect.Succeeded() ==> r.effect.fired == KillRewards(attacker, headshot).fired))
    ensures r.effect.Succeeded() ==>
              var h := ActiveHero(defender).value;
              r.effect.state.1 == UpdateHero(defender, IndexOf(defender, defender.active.value).value,
                                             h.(items := DropTemporaryItems(h.items)))
  {
    if attackerId == 0 || attackerId == defenderId then
      if ActiveHero(defender).None? then DeathReport([], Fail((attacker, defender), NoActiveHero))
      else
        var d := DropDefenderItems(defender);
        DeathReport([(OnDefender, "player_suicide")], Effect((attacker, d.state), d.fired, d.raised))
    else if ActiveHero(attacker).None? then DeathReport([], Fail((attacker, defender), NoActiveHero))
    else if ActiveHero(defender).None? then
      DeathReport([(OnAttacker, "player_kill")], Fail((attacker, defender), NoActiveHero))
    else
      var hooks := [(OnAttacker, "player_kill"), (OnDefender, "player_death")];
      var a := KillRewards(attacker, headshot);
      if !a.Succeeded() then DeathReport(hooks, Effect((a.state, defender), a.fired, a.raised))
      else
        var d := DropDefenderItems(defender);
        DeathReport(hooks, Effect((a.state, d.state), a.fired + d.fired, d.raised))
  }

  /** A kill by an attacker whose hero is in a valid state and holds no
      negative gold succeeds, pays two gold and credits the Kill experience
      (plus the Headshot experience on a headshot) while the hero stays
      below its cap. */
  lemma KillRewardsCredit(a: Owner, headshot: bool)
    requires ActiveHero(a).Some? && ValidProgress(ActiveHero(a).value) && a.gold >= 0
    ensures var r := KillRewards(a, headshot);
            var h := ActiveHero(a).value;
            && r.Succeeded() && r.state.gold == a.gold + 2
            && ActiveHero(r.state).Some?
            && var h2 := ActiveHero(r.state).value;
            && ValidProgress(h2) && h2.level >= h.level
            && (BelowCap(h2.level, h.cls.maxLevel) ==> Credited(h, h2) == 30 + (if headshot then 15 else 0))
  {
    var h := ActiveHero(a).value;
    assert Configs.ValueOr0(Configs.ExpValues, "Kill") == 30;
    assert Configs.ValueOr0(Configs.ExpValues, "Headshot") == 15;
    var e1 := GiveExp(a, "Kill");
    var h1 := ActiveHero(e1.state).value;
    assert e1.Succeeded() && ValidProgress(h1) && h1.cls == h.cls && e1.state.gold == a.gold;
    var e2 := if headshot then GiveExp(e1.state, "Headshot") else e1;
    var h2 := ActiveHero(e2.state).value;
    assert e2.Succeeded() && ValidProgress(h2) && h2.level >= h1.level && e2.state.gold == a.gold;
    if headshot {
      CreditedAdds(h, h1, h2);
      if BelowCap(h2.level, h.cls.maxLevel) {
        assert BelowCap(h1.level, h.cls.maxLevel);
      }
    }
    KillGold(e2.state);
  }

  /** A kill between two players with current heroes pays the attacker two
      gold, whatever the defender carries. */
  lemma KillPaysAttacker(attacker: Owner, defender: Owner, attackerId: int, defenderId: int, headshot: bool)
    requires attackerId != 0 && attackerId != defenderId
    requires ActiveHero(attacker).Some? && ValidProgress(ActiveHero(attacker).value) && attacker.gold >= 0
    requires ActiveHero(defender).Some?
    ensures var r := PlayerDeath(attacker, defender, attackerId, defenderId, headshot);
            r.effect.Succeeded() && r.effect.state.0.gold == attacker.gold + 2
  {
    KillRewardsCredit(attacker, headshot);
  }
}

=== FILE: tools.dfy ===
/** Lookup helpers, the class-hierarchy walk, and the two method modifiers
    (probability gate and cooldown gate) skills decorate their hooks with. */
module Tools {
  import opened Outcome

  // ---------------------------------------------------------------------
  // Lookup by attribute
  // ---------------------------------------------------------------------

  /** Position of the first element of `xs[from..]` whose `key` equals `v`. */
  function FindIndexFrom<T, K(==)>(xs: seq<T>, key: T -> K, v: K, from: nat): (r: Option<nat>)
    requires from <= |xs|
    decreases |xs| - from
    ensures r.Some? ==> from <= r.value < |xs| && key(xs[r.value]) == v
    ensures r.Some? ==> forall j :: from <= j < r.value ==> key(xs[j]) != v
    ensures r.None? ==> forall j :: from <= j < |xs| ==> key(xs[j]) != v
  {
    if from == |xs| then None
    else if key(xs[from]) == v then Some(from)
    else FindIndexFrom(xs, key, v, from + 1)
  }

  /** Position of the first element whose `key` equals `v`. */
  function FindIndex<T, K(==)>(xs: seq<T>, key: T -> K, v: K): (r: Option<nat>)
    ensures r.Some? ==> r.value < |xs| && key(xs[r.value]) == v
    ensures r.Some? ==> forall j :: 0 <= j < r.value ==> key(xs[j]) != v
    ensures r.None? <==> forall j :: 0 <= j < |xs| ==> key(xs[j]) != v
  {
    FindIndexFrom(xs, key, v, 0)
  }

  /** `find_element`: the first element whose attribute equals the value, or
      None when there is none. */
  function FindElement<T, K(==)>(xs: seq<T>, key: T -> K, v: K): (r: Option<T>)
    ensures r.Some? ==> exists i :: 0 <= i < |xs| && xs[i] == r.value && key(xs[i]) == v
                                    && (forall j :: 0 <= j < i ==> key(xs[j]) != v)
    ensures r.None? <==> forall j :: 0 <= j < |xs| ==> key(xs[j]) != v
  {
    match FindIndex(xs, key, v)
    case Some(i) => Some(xs[i])
    case None => None
  }

  /** Elements before the first match do not change what is found. */
  lemma FindElementSkip<T, K>(before: seq<T>, after: seq<T>, key: T -> K, v: K)
    requires forall j :: 0 <= j < |before| ==> key(before[j]) != v
    ensures FindElement(before + after, key, v) == FindElement(after, key, v)
  {
    var xs := before + after;
    match FindIndex(xs, key, v)
    case None =>
      forall j | 0 <= j < |after| ensures key(after[j]) != v {
        assert xs[|before| + j] == after[j];
      }
    case Some(i) =>
      assert i >= |before|;
      assert after[i - |before|] == xs[i];
      forall j | 0 <= j < i - |before| ensures key(after[j]) != v {
        assert xs[|before| + j] == after[j];
      }
  }

  /** `find_elements`: the elements whose attribute equals the value. */
  function FindElements<T, K(==)>(xs: seq<T>, key: T -> K, v: K): (r: seq<T>)
    ensures |r| <= |xs|
    ensures forall i :: 0 <= i < |r| ==> r[i] in xs && key(r[i]) == v
    ensures forall i :: 0 <= i < |xs| && key(xs[i]) == v ==> xs[i] in r
  {
    if xs == [] then []
    else (if key(xs[0]) == v then [xs[0]] else []) + FindElements(xs[1..], key, v)
  }

  /** The matches of a concatenation are the matches of each part, in the
      same order: together with the one-element case this pins down that the
      result keeps the original order. */
  lemma {:induction false} FindElementsConcat<T, K>(a: seq<T>, b: seq<T>, key: T -> K, v: K)
    ensures FindElements(a + b, key, v) == FindElements(a, key, v) + FindElements(b, key, v)
  {
    if a == [] {
      assert a + b == b;
    } else {
      assert (a + b)[1..] == a[1..] + b;
      FindElementsConcat(a[1..], b, key, v);
    }
  }

  /** Every match is kept as often as it occurs. */
  lemma {:induction false} FindElementsCount<T, K>(xs: seq<T>, key: T -> K, v: K, x: T)
    ensures multiset(FindElements(xs, key, v))[x] == (if key(x) == v then multiset(xs)[x] else 0)
  {
    if xs != [] {
      assert xs == [xs[0]] + xs[1..];
      FindElementsCount(xs[1..], key, v, x);
    }
  }

  /** `xs` is `ys` with some elements left out: the same elements in the
      same order, each taken from its own position of `ys`. */
  predicate Subsequence<T(==)>(xs: seq<T>, ys: seq<T>)
    decreases |ys|
  {
    if xs == [] then true
    else if ys == [] then false
    else (xs[0] == ys[0] && Subsequence(xs[1..], ys[1..])) || Subsequence(xs, ys[1..])
  }

  /** A subsequence is no longer than the sequence it is taken from. */
  lemma {:induction false} SubsequenceLength<T>(xs: seq<T>, ys: seq<T>)
    requires Subsequence(xs, ys)
    ensures |xs| <= |ys|
    decreases |ys|
  {
    if xs != [] {
      if xs[0] == ys[0] && Subsequence(xs[1..], ys[1..]) {
        SubsequenceLength(xs[1..], ys[1..]);
      } else {
        SubsequenceLength(xs, ys[1..]);
      }
    }
  }

  /** Keeping or dropping the head of `ys` extends a subsequence of its tail. */
  lemma SubsequenceStep<T>(keep: bool, rest: seq<T>, ys: seq<T>)
    requires ys != [] && Subsequence(rest, ys[1..])
    ensures Subsequence((if keep then [ys[0]] else []) + rest, ys)
  {
    if keep {
      assert ([ys[0]] + rest)[1..] == rest;
    } else {
      assert [] + rest == rest;
    }
  }

  // ---------------------------------------------------------------------
  // Class hierarchy
  // ---------------------------------------------------------------------

  /** A class and its direct subclasses (`cls.__subclasses__()`). */
  datatype ClassTree = ClassTree(cid: string, subclasses: seq<ClassTree>)

  /** Every class below the given direct subclasses, parents before children. */
  function Descendants(forest: seq<ClassTree>): seq<string>
    decreases forest
  {
    if forest == [] then []
    else [forest[0].cid] + Descendants(forest[0].subclasses) + Descendants(forest[1..])
  }

  /** `get_subclasses`: the transitive subclasses of a class. Python returns a
      set; here it is a sequence whose members are the set's. */
  function GetSubclasses(t: ClassTree): seq<string>
  {
    Descendants(t.subclasses)
  }

  /** `path` leads from `forest` down through subclass links to a class `c`. */
  ghost predicate PathTo(forest: seq<ClassTree>, path: seq<nat>, c: string)
    decreases path
  {
    && |path| > 0
    && path[0] < |forest|
    && (if |path| == 1 then forest[path[0]].cid == c
        else PathTo(forest[path[0]].subclasses, path[1..], c))
  }

  lemma {:induction false} PathToShift(forest: seq<ClassTree>, path: seq<nat>, c: string)
    requires |forest| > 0 && PathTo(forest[1..], path, c)
    ensures PathTo(forest, [path[0] + 1] + path[1..], c)
  {
    var p := [path[0] + 1] + path[1..];
    assert p[1..] == path[1..];
    assert forest[p[0]] == forest[1..][path[0]];
  }

  lemma {:induction false} DescendantsReachable(forest: seq<ClassTree>, c: string)
    ensures c in Descendants(forest) ==> exists path :: PathTo(forest, path, c)
    decreases forest
  {
    if forest != [] && c in Descendants(forest) {
      var head := [forest[0].cid] + Descendants(forest[0].subclasses);
      assert Descendants(forest) == head + Descendants(forest[1..]);
      if c == forest[0].cid {
        assert PathTo(forest, [0], c);
      } else if c in Descendants(forest[0].subclasses) {
        DescendantsReachable(forest[0].subclasses, c);
        var path :| PathTo(forest[0].subclasses, path, c);
        var p := [0] + path;
        assert p[1..] == path;
        assert PathTo(forest, p, c);
      } else {
        assert c in Descendants(forest[1..]);
        DescendantsReachable(forest[1..], c);
        var path :| PathTo(forest[1..], path, c);
        PathToShift(forest, path, c);
      }
    }
  }

  lemma {:induction false} ReachableDescendants(forest: seq<ClassTree>, path: seq<nat>, c: string)
    requires PathTo(forest, path, c)
    ensures c in Descendants(forest)
    decreases |path|, |forest|
  {
    var head := [forest[0].cid] + Descendants(forest[0].subclasses);
    assert Descendants(forest) == head + Descendants(forest[1..]);
    if path[0] == 0 {
      if |path| > 1 {
        ReachableDescendants(forest[0].subclasses, path[1..], c);
      }
    } else {
      var p := [path[0] - 1] + path[1..];
      assert p[1..] == path[1..];
      assert forest[1..][p[0]] == forest[path[0]];
      assert PathTo(forest[1..], p, c);
      ReachableDescendants(forest[1..], p, c);
    }
  }

  /** A class is returned exactly when a chain of one or more subclass links
      leads to it: the transitive closure of the direct-subclass relation. */
  lemma SubclassesAreTransitiveClosure(t: ClassTree, c: string)
    ensures c in GetSubclasses(t) <==> exists path :: PathTo(t.subclasses, path, c)
  {
    DescendantsReachable(t.subclasses, c);
    if exists path :: PathTo(t.subclasses, path, c) {
      var path :| PathTo(t.subclasses, path, c);
      ReachableDescendants(t.subclasses, path, c);
    }
  }

  // ---------------------------------------------------------------------
  // Python's string order (`sorted` on class ids)
  // ---------------------------------------------------------------------

  /** Lexicographic order on code points, as Python compares strings. */
  predicate StrLt(a: string, b: string)
    decreases |a|
  {
    if a == [] then b != []
    else if b == [] then false
    else if a[0] < b[0] then true
    else a[0] == b[0] && StrLt(a[1..], b[1..])
  }

  lemma {:induction false} StrLtIrreflexive(a: string)
    ensures !StrLt(a, a)
    decreases |a|
  {
    if a != [] { StrLtIrreflexive(a[1..]); }
  }

  lemma {:induction false} StrLtTransitive(a: string, b: string, c: string)
    requires StrLt(a, b) && StrLt(b, c)
    ensures StrLt(a, c)
    decreases |a|
  {
    if a != [] && b != [] && c != [] && a[0] == b[0] && b[0] == c[0] {
      StrLtTransitive(a[1..], b[1..], c[1..]);
    }
  }

  lemma {:induction false} StrLtTotal(a: string, b: string)
    ensures a == b || StrLt(a, b) || StrLt(b, a)
    decreases |a|
  {
    if a != [] && b != [] && a[0] == b[0] {
      StrLtTotal(a[1..], b[1..]);
      if a[1..] == b[1..] {
        assert a == [a[0]] + a[1..] && b == [b[0]] + b[1..];
      }
    }
  }

  ghost predicate StrictlySorted(s: seq<string>)
  {
    forall i, j :: 0 <= i < j < |s| ==> StrLt(s[i], s[j])
  }

  /** Insert `x` into a strictly sorted sequence, dropping it if present. */
  function InsertSorted(x: string, s: seq<string>): (r: seq<string>)
    requires StrictlySorted(s)
    ensures StrictlySorted(r)
    ensures forall c :: c in r <==> c == x || c in s
  {
    if s == [] then [x]
    else if x == s[0] then s
    else if StrLt(x, s[0]) then
      assert forall j :: 0 < j < |s| ==> StrLt(x, s[j]) by {
        forall j | 0 < j < |s| { StrLtTransitive(x, s[0], s[j]); }
      }
      [x] + s
    else
      StrLtTotal(x, s[0]);
      var rest := InsertSorted(x, s[1..]);
      assert forall c :: c in rest ==> StrLt(s[0], c) by {
        forall c | c in rest ensures StrLt(s[0], c) {
          if c != x { var k :| 0 <= k < |s[1..]| && s[1..][k] == c; assert s[k + 1] == c; }
        }
      }
      [s[0]] + rest
  }

  /** `sorted(set(xs))` on class ids: strictly increasing, same members. */
  function SortUnique(xs: seq<string>): (r: seq<string>)
    ensures StrictlySorted(r)
    ensures forall c :: c in r <==> c in xs
  {
    if xs == [] then [] else InsertSorted(xs[|xs| - 1], SortUnique(xs[..|xs| - 1]))
  }

  // ---------------------------------------------------------------------
  // Method modifiers
  // ---------------------------------------------------------------------

  /** `shiftattr`: read an attribute, add the shift and write the sum back
      through the attribute's setter, which may reject it. */
  function ShiftAttr<S, R>(obj: S, read: S -> int, write: (S, int) -> R, shift: int): R
  {
    write(obj, read(obj) + shift)
  }

  /** What a decorated hook returned: it ran its body, or it stopped early
      with an exit code (None for a bare `return`). */
  datatype GateOutcome = Ran | Stopped(code: Option<int>)

  /** `chance`/`chancef`: the body runs iff the draw from [0, 100] is at most
      the percentage computed for this call; otherwise the wrapper returns 2.
      The random draw is a parameter. */
  function ChanceGate(draw: int, percentage: int): (r: GateOutcome)
    requires 0 <= draw <= 100
    ensures r.Ran? <==> draw <= percentage
    ensures r.Stopped? ==> r.code == Some(2)
  {
    if draw <= percentage then Ran else Stopped(Some(2))
  }

  /** A percentage of 100 or more always fires, a negative one never does, and
      0% still fires when the draw is 0. */
  lemma ChanceGateExtremes(draw: int, percentage: int)
    requires 0 <= draw <= 100
    ensures percentage >= 100 ==> ChanceGate(draw, percentage).Ran?
    ensures percentage < 0 ==> ChanceGate(draw, percentage).Stopped?
    ensures percentage == 0 ==> (ChanceGate(draw, percentage).Ran? <==> draw == 0)
  {
  }

  /** The draws on which a gate of the given percentage fires. */
  function FiringDraws(percentage: int): set<int>
  {
    set d | 0 <= d <= 100 && ChanceGate(d, percentage).Ran?
  }

  /** For a percentage p in [0, 100] exactly p + 1 of the 101 equally likely
      draws fire: the real chance is (p + 1)/101, so 0% fires 1 time in 101. */
  lemma {:induction false} FiringDrawsCount(percentage: int)
    requires 0 <= percentage <= 100
    ensures |FiringDraws(percentage)| == percentage + 1
    decreases percentage
  {
    if percentage == 0 {
      assert FiringDraws(0) == {0};
    } else {
      FiringDrawsCount(percentage - 1);
      assert FiringDraws(percentage) == FiringDraws(percentage - 1) + {percentage};
    }
  }

  /** A cooldown timer: `remaining` ticks left out of `limit`. */
  datatype Counter = Counter(remaining: int, limit: int)

  /** A timer that was never started. */
  const Idle: Counter := Counter(0, 0)

  /** One interval of the tick listener elapsing. */
  function Tick(c: Counter): (r: Counter)
    ensures r.limit == c.limit
    ensures c.remaining > 0 ==> r.remaining == c.remaining - 1
    ensures c.remaining <= 0 ==> r == c
  {
    if c.remaining > 0 then c.(remaining := c.remaining - 1) else c
  }

  function Ticks(c: Counter, n: nat): Counter
    decreases n
  {
    if n == 0 then c else Ticks(Tick(c), n - 1)
  }

  /** Cooldown timers are attached to the decorated function, so the key is
      the class that defines the decorated method and the hook name, never
      the skill instance: a subclass that inherits the method shares the
      timer of the class defining it. */
  datatype GateKey = GateKey(definingCid: string, hook: string)

  function CounterOf(counters: map<GateKey, Counter>, key: GateKey): Counter
  {
    if key in counters then counters[key] else Idle
  }

  datatype CooldownStep = CooldownStep(counters: map<GateKey, Counter>, outcome: GateOutcome)

  /** `cooldown`/`cooldownf`: with no time remaining the timer restarts with
      the duration computed for this call and the body runs; otherwise the
      timer is left alone and the wrapper returns 3 when a message is
      configured, or None when it is not. */
  function CooldownGate(counters: map<GateKey, Counter>, key: GateKey, duration: int, hasMessage: bool)
    : (r: CooldownStep)
    ensures r.outcome.Ran? <==> CounterOf(counters, key).remaining <= 0
    ensures r.outcome.Ran? ==> r.counters == counters[key := Counter(duration, duration)]
    ensures r.outcome.Stopped? ==> r.counters == counters
    ensures r.outcome.Stopped? ==> (r.outcome.code == Some(3) <==> hasMessage)
    ensures r.outcome.Stopped? && !hasMessage ==> r.outcome.code == None
  {
    if CounterOf(counters, key).remaining <= 0 then
      CooldownStep(counters[key := Counter(duration, duration)], Ran)
    else
      CooldownStep(counters, Stopped(if hasMessage then Some(3) else None))
  }

  function TickAll(counters: map<GateKey, Counter>, n: nat): (r: map<GateKey, Counter>)
    ensures r.Keys == counters.Keys
  {
    map k | k in counters :: Ticks(counters[k], n)
  }

  lemma {:induction false} TicksRemaining(c: Counter, n: nat)
    requires c.remaining >= 0
    ensures Ticks(c, n).remaining == if c.remaining >= n then c.remaining - n else 0
    decreases n
  {
    if n > 0 { TicksRemaining(Tick(c), n - 1); }
  }

  /** A hook with cooldown 5 invoked at t = 0, 3 and 6 runs at 0 and 6 only. */
  lemma CooldownTimeline(counters: map<GateKey, Counter>, key: GateKey, msg: bool)
    requires CounterOf(counters, key).remaining <= 0
    ensures var s0 := CooldownGate(counters, key, 5, msg);
            var s3 := CooldownGate(TickAll(s0.counters, 3), key, 5, msg);
            var s6 := CooldownGate(TickAll(s3.counters, 3), key, 5, msg);
            s0.outcome.Ran? && s3.outcome.Stopped? && s6.outcome.Ran?
  {
    var s0 := CooldownGate(counters, key, 5, msg);
    TicksRemaining(Counter(5, 5), 3);
    var s3 := CooldownGate(TickAll(s0.counters, 3), key, 5, msg);
    TicksRemaining(Counter(2, 5), 3);
    assert CounterOf(TickAll(s3.counters, 3), key) == Ticks(Counter(2, 5), 3);
  }

  /** Two instances sharing one decorated method share the timer: once
      either fires, the other is held back until the timer runs out. */
  lemma SharedCooldown(counters: map<GateKey, Counter>, definingCid: string, hook: string, duration: int)
    requires duration > 0
    ensures var first := CooldownGate(counters, GateKey(definingCid, hook), duration, false);
            first.outcome.Ran? ==>
              CooldownGate(first.counters, GateKey(definingCid, hook), duration, false).outcome.Stopped?
  {
  }
}

=== FILE: translations.dfy ===
/** `herowars/translations.py`: the translation table and its lookup with
    a fallback to the default language. */
module Translations {
  import opened Outcome

  type SubDict = map<string, string>
  type LangDict = map<string, SubDict>
  type Table = map<string, LangDict>

  /** The string a lookup returns for a key its sub dict lacks. */
  const NullStr: string := "#null_str"

  /** The default language the herowars configuration names. */
  const DefaultLanguage: string := "en"

  const ExpStrings: SubDict := map[
    "kill" := "+{exp} exp for a kill.",
    "headshot" := "+{exp} exp for a headshot.",
    "assist" := "+{exp} exp for an assist.",
    "weapon_knife" := "+{exp} exp for a knife kill.",
    "round_win" := "+{exp} exp for winning a round.",
    "round_lose" := "+{exp} exp for losing a round.",
    "bomb_plant" := "+{exp} exp for plating the bomb.",
    "bomb_plant_team" := "+{exp} exp for bomb being planted.",
    "bomb_explode" := "+{exp} exp for bomb exploding.",
    "bomb_explode_team" := "+{exp} exp for bomb exploding.",
    "bomb_defuse" := "+{exp} exp for defusing the bomb.",
    "bomb_defuse_team" := "+{exp} exp for bomb being defused.",
    "hostage_pickup" := "+{exp} exp for picking up a hostage.",
    "hostage_pickup_team" := "+{exp} exp for a hostage being picked up.",
    "hostage_rescue" := "+{exp} exp for rescuing a hostage.",
    "hostage_rescue_team" := "+{exp} exp for a hostage being rescued"
  ]

  const GoldStrings: SubDict := map[
    "kill" := "+{gold} gold for a kill.",
    "assist" := "+{gold} gold for an assist.",
    "round_win" := "+{gold} gold for winning a round.",
    "round_lose" := "+{gold} gold for losing a round."
  ]

  const MenuMessageStrings: SubDict := map[
    "no_items_to_buy" := "There are no items to buy.",
    "no_owned_items" := "You don't have any items",
    "not_enough_cash" := "You don't have enough cash (${cash}/${cost}).",
    "bought_item" := "You bought item '{name}' for ${cost}.",
    "sold_item" := "You sold item '{name}' for ${cost}.",
    "no_heroes_to_buy" := "There are no heroes to buy.",
    "no_owned_heroes" := "You don't have any heroes.",
    "not_enough_gold" := "You don't have enough gold ({gold}/{cost}).",
    "bought_hero" := "You bought hero '{name}' for {cost} gold.",
    "changed_hero" := "You changed your hero to '{name}'.",
    "skill_leveled" := "Skill '{name}' is now on level {level}.",
    "skill_points_reset" := "Skill points have been reset.",
    "not_required_level" := "Hero hasn't reached required level ({current_level}/{required_level}).",
    "not_enough_skill_points" := "You don't have enough skill points ({skill_points}/{cost}).",
    "skill_maxed_out" := "Skill has already been maxed out."
  ]

  const MenuStrings: SubDict := map[
    "buy_heroes" := "Buy Heroes",
    "owned_heroes" := "Owned Heroes",
    "current_hero" := "Current Hero",
    "buy_items" := "Buy Items",
    "item_categories" := "Item Categories",
    "sell_items" := "Sell Items",
    "available_skill_points" := "Skill Points: {skill_points}",
    "reset_skill_points" := "Reset Skill Points",
    "option_buy" := "Buy",
    "option_change" := "Change"
  ]

  const OtherStrings: SubDict := map[
    "hero_status" := "{name} - lvl {level} - {exp}/{max_exp} exp",
    "level_up" := "{name} - lvl {level} - {exp}/{max_exp} exp"
  ]

  /** `_translations`: English is the only language. */
  const Translations: Table := map[
    "en" := map[
      "exp" := ExpStrings,
      "gold" := GoldStrings,
      "menu_messages" := MenuMessageStrings,
      "menus" := MenuStrings,
      "other" := OtherStrings
    ]
  ]

  /** `get_translation`: the requested language's dict when present, else
      the default language's, else a KeyError; then a KeyError for an
      unknown sub dict, and the null string for an unknown key. */
  function GetTranslation(table: Table, langKey: string, defaultKey: string, subDict: string, key: string): (r: Result<string>)
    ensures langKey !in table && defaultKey !in table ==> r == Err(NoLanguage)
    ensures langKey in table && subDict !in table[langKey] ==> r == Err(NoSubDict(subDict))
    ensures langKey in table && subDict in table[langKey] ==>
              r == Ok(if key in table[langKey][subDict] then table[langKey][subDict][key] else NullStr)
    ensures langKey !in table && defaultKey in table && subDict !in table[defaultKey] ==> r == Err(NoSubDict(subDict))
    ensures langKey !in table && defaultKey in table && subDict in table[defaultKey] ==>
              r == Ok(if key in table[defaultKey][subDict] then table[defaultKey][subDict][key] else NullStr)
  {
    var lang :=
      if langKey in table then Some(table[langKey])
      else if defaultKey in table then Some(table[defaultKey])
      else None;
    match lang
    case None => Err(NoLanguage)
    case Some(d) =>
      if subDict in d then Ok(if key in d[subDict] then d[subDict][key] else NullStr)
      else Err(NoSubDict(subDict))
  }

  /** English is the only language, so with English as the default every
      lookup, whatever language is asked for, resolves against it. */
  lemma EveryLanguageResolvesToEnglish(langKey: string, subDict: string, key: string)
    ensures GetTranslation(Translations, langKey, DefaultLanguage, subDict, key)
         == GetTranslation(Translations, "en", DefaultLanguage, subDict, key)
  {
  }

  /** A lookup fails exactly for the sub dicts the table does not have. */
  lemma SubDictsOfEnglish(langKey: string, subDict: string, key: string)
    ensures GetTranslation(Translations, langKey, DefaultLanguage, subDict, key).Ok?
        <==> subDict in {"exp", "gold", "menu_messages", "menus", "other"}
  {
  }

  /** A lookup through the fallback, and one of a missing key. */
  lemma FallbackExamples()
    ensures GetTranslation(Translations, "fi", DefaultLanguage, "menus", "option_buy") == Ok("Buy")
    ensures GetTranslation(Translations, "fi", DefaultLanguage, "menus", "option_sell") == Ok(NullStr)
    ensures GetTranslation(Translations, "fi", "fi", "menus", "option_buy") == Err(NoLanguage)
  {
  }
}

=== FILE: users_revision.dfy ===
/** The `hw/users.py` revision: a user record built from scratch (nothing
    is loaded) with its starting heroes. */
module UsersRevision {
  import opened Outcome
  import opened Entities
  import opened Database
  import opened Owners

  /** `User.__init__`: gold 0, the starting heroes, and the first of them
      made current through the setter — which saves nothing, as there is no
      current hero yet. */
  function NewUser(db: Db, steamid: string, registry: seq<HeroClass>, starting: seq<string>): (r: Effect<(Db, Owner)>)
    ensures r.Succeeded() && r.fired == [] && r.state.0 == db
    ensures r.state.1.steamid == steamid && r.state.1.gold == 0
    ensures r.state.1.heroes == GrantStartingHeroes(NewOwner(steamid), registry, starting).heroes
    ensures |r.state.1.heroes| > 0 <==> r.state.1.active.Some?
    ensures r.state.1.active.Some? ==> r.state.1.active == Some(r.state.1.heroes[0].uid)
    ensures WellFormed(r.state.1)
  {
    var o := GrantStartingHeroes(NewOwner(steamid), registry, starting);
    if |o.heroes| > 0 then
      assert Owns(o, o.heroes[0].uid);
      SetActiveHeroKeepsWellFormed(db, o, o.heroes[0].uid);
      SetActiveHero(db, o, o.heroes[0].uid)
    else Done((db, o))
  }

  /** A new user owns exactly one hero of each resolvable starting class,
      all fresh, and nothing else. */
  lemma NewUserHeroes(db: Db, steamid: string, registry: seq<HeroClass>, starting: seq<string>)
    ensures var u := NewUser(db, steamid, registry, starting).state.1;
            && (forall c :: OwnsClass(u, c) <==> c in starting && Resolves(registry, c))
            && DistinctClasses(u)
            && (forall i :: 0 <= i < |u.heroes| ==> u.heroes[i].level == 0 && u.heroes[i].exp == 0)
  {
    var o := NewOwner(steamid);
    var g := GrantStartingHeroes(o, registry, starting);
    var u := NewUser(db, steamid, registry, starting).state.1;
    GrantOwnsStarting(o, registry, starting);
    GrantKeepsClassesDistinct(o, registry, starting);
    forall i | 0 <= i < |g.heroes|
      ensures g.heroes[i].cls.cid in starting && Resolves(registry, g.heroes[i].cls.cid)
      ensures g.heroes[i].level == 0 && g.heroes[i].exp == 0
    {
      GrantAddsOnlyStarting(o, registry, starting, i);
    }
    assert forall c :: OwnsClass(u, c) <==> OwnsClass(g, c);
  }

  /** A new user's heroes come in configured order, and the current one is
      of the first starting class that resolves. */
  lemma NewUserOrder(db: Db, steamid: string, registry: seq<HeroClass>, starting: seq<string>)
    ensures Cids(NewUser(db, steamid, registry, starting).state.1.heroes) == FreshStarting(registry, [], starting)
    ensures forall j :: 0 <= j < |starting| && Resolves(registry, starting[j])
                        && (forall k :: 0 <= k < j ==> !Resolves(registry, starting[k])) ==>
              ActiveHero(NewUser(db, steamid, registry, starting).state.1).Some?
              && ActiveHero(NewUser(db, steamid, registry, starting).state.1).value.cls.cid == starting[j]
  {
    var o := NewOwner(steamid);
    var u := NewUser(db, steamid, registry, starting).state.1;
    GrantOrder(o, registry, starting);
    assert Cids(o.heroes) == [];
    forall j | 0 <= j < |starting| && Resolves(registry, starting[j])
               && (forall k :: 0 <= k < j ==> !Resolves(registry, starting[k]))
      ensures ActiveHero(u).Some? && ActiveHero(u).value.cls.cid == starting[j]
    {
      FirstGrantedHero(steamid, registry, starting, j);
      assert u.heroes[0].uid == u.active.value;
    }
  }
}
